=== FILE: README.md ===
# Puzzle Bobble core, modelled in Dafny

This project models the game logic of a Puzzle Bobble clone: the hexagonal bubble grid and
its pop-and-drop rules, the arena that turns popped and dropped bubbles into animations and
detects a won level, the bubble states and their timers, the score, the launcher's rotation,
the option menu, and the loader that turns a level's JSON into a grid.

The modules follow the program's structure:

- `HexCoords`: hexagonal coordinates in "doubled" offset form. A pair is a coordinate when
  its row and column have the same parity. Each coordinate has six neighbouring directions.
- `FloodFill`: the breadth-first walk behind `_get_connected_bubbles`. Its result is proved
  to be exactly the cells joined to the seed through matching bubbles, each listed once.
- `HexGrids`: the grid as a map from cells to colours, plus the sprite group's insertion
  order. It covers adding a bubble, the ranked free-cell search, the downward move and the
  pixel centres. It also covers popping a same-colour group of three or more, dropping
  every bubble that no longer reaches the top row, and the pop, float and empty reports.
- `BubbleStates` and `Bubbles`: idle, shot, floating and popping bubbles. This includes the
  floating timer, the thirty-frame pop animation and the pop-finished handlers.
- `Arenas`: the dynamic bubbles, the launcher and next bubbles, and the shoot handler. It
  also covers attaching a bubble to the grid, the handlers for the grid's reports, pop
  completion and the win condition, and the ceiling descent.
- `Scores`, `Menus`, `Shooters`, `Levels`: the points table, option navigation, the
  launcher's angle and shoot callbacks, and level loading.
- `Colors`, `Settings`, `Handlers`, `Seqs`, `Arith`, `Wrappers`: the colour enum, the game
  constants, callback lists, and small sequence and arithmetic facts.

Bubbles are Python objects with identity. Here every moving bubble has an id in the arena's
store, and the dynamic group is a set of ids. A bubble on the grid is its colour on its
cell. When the grid gives up a bubble, the arena stores a new bubble of that colour under a
fresh id. In the source the same object moves from the grid into the dynamic group, and a
grid bubble is always idle, on its first image and without handlers. So the two agree on
every field the model keeps.

Callback lists that call back into the arena are modelled as traces. The arena returns a
list of notices: an animation started, a bubble finished popping, the level was won.
`random.choice` and `random.randrange` become `pick` parameters.

Where the code and its documentation disagree, the model follows the code. Three cases:

- `_pixel_to_hex` returns the last ranked neighbour when none of them is free, not the
  snapped cell. `add_bubble` then rejects it.
- A level whose `HexGrid` constructor raises `ValueError` (a non-positive real size) does
  not make `load_level` return `None`. Only `RuntimeError` is caught, so the error
  propagates. It is modelled as a separate `GridRejected` failure.
- A grid whose real size equals the margin has a playable scale of zero, and placing the
  first level bubble divides by it. The `ZeroDivisionError` also propagates, modelled as
  `ScaleZero`. Without a real size the scale is zero at exactly 20 columns or 10 rows.

## Model

| member | source | states |
|---|---|---|
| HexCoords.NewHexCoord | objects/arena/hexcoord.py:12-17 | construction keeps the given row and column, or fails carrying exactly that pair |
| HexCoords.NewHexCoordIffSameParity | objects/arena/hexcoord.py:12-21 | a coordinate can be built exactly when row and column have the same parity |
| HexCoords.Opposite | objects/arena/hexcoord.py:3-9 | every one of the six directions has another whose offset is its negation |
| HexCoords.OffsetPreservesParity | objects/arena/hexcoord.py:3-9 | every direction offset maps valid pairs to valid pairs and invalid to invalid, so `neighbors()` never raises |
| HexCoords.Neighbors | objects/arena/hexcoord.py:23-25 | there are six neighbours, the i-th one step along the i-th declared direction |
| HexCoords.AdjacentIffOffset | objects/arena/hexcoord.py:3-9 | b neighbours a exactly when b is two columns away on the same row, or one row and one column away |
| HexCoords.AdjacentSymmetric | objects/arena/hexcoord.py:23-25 | a neighbours b exactly when b neighbours a |
| HexCoords.NotSelfAdjacent | objects/arena/hexcoord.py:23-25 | no cell is its own neighbour |
| HexCoords.NeighborsDistinct | objects/arena/hexcoord.py:23-25 | the six neighbours are pairwise distinct |
| Colors.AllColorsEnumerates | objects/colors.py:4-16 | the colour list holds every colour, each once |
| Colors.NameInjective | objects/colors.py:4-12 | two colours share a name exactly when they are the same colour, so a name looks up at most one colour |
| Handlers.Register | objects/bubble.py:83-84 | registering keeps the earlier callbacks in order and calls the new one last |
| Handlers.Unregister | objects/bubble.py:86-87 | exactly the callbacks different from the removed one survive, and the length drops by its number of copies |
| Handlers.UnregisterKeepsOrder | objects/bubble.py:86-87 | unregistering a joined list is unregistering each part and joining the results, and one callback survives exactly when it differs from the removed one, so the survivors are the list with every copy struck out, in calling order |
| Handlers.UnregisterAfterRegister | objects/bubble.py:83-87 | registering and then unregistering a callback is the same as only unregistering it |
| Handlers.UnregisterIdempotent | objects/bubble.py:86-87 | unregistering twice is the same as unregistering once |
| Handlers.UnregisterAbsent | objects/bubble.py:86-87 | unregistering a callback that is not registered changes nothing |
| FloodFill.Explore | objects/arena/hex_grid.py:78-90 | the walk only adds to what it has found, and adds only bubbles that match the colour filter |
| FloodFill.Connected | objects/arena/hex_grid.py:73-92 | the result lists each cell joined to the seed by a path of matching neighbouring bubbles, once, and nothing else |
| FloodFill.FrontierStep | objects/arena/hex_grid.py:78-84 | dequeuing a cell already checked or not matching keeps the loop invariant |
| FloodFill.FrontierVisit | objects/arena/hex_grid.py:84-90 | visiting a matching cell and queueing its unchecked neighbours keeps the loop invariant |
| FloodFill.FrontierComplete | objects/arena/hex_grid.py:78-92 | once the queue is empty every cell reachable from the seed has been found |
| FloodFill.ExploreComponent | objects/arena/hex_grid.py:78-92 | from any state meeting the loop invariant the walk ends with exactly the reachable cells, without repetition |
| FloodFill.ConnectedHasSeed | objects/arena/hex_grid.py:80-86 | the seed is in the result exactly when it holds a matching bubble |
| FloodFill.ConnectedClosed | objects/arena/hex_grid.py:84-90 | the result is closed under matching neighbours |
| HexGrids.NewHexGrid | objects/arena/hex_grid.py:9-34 | fails on a width or height below one, otherwise on a given non-positive real size, otherwise yields an empty well-formed grid of that size |
| HexGrids.IsValidCoord | objects/arena/hex_grid.py:66-71 | a cell is valid exactly when it lies inside the grid and holds no bubble |
| HexGrids.AddBubble | objects/arena/hex_grid.py:36-46 | is refused, leaving the grid unchanged, exactly when the cell is outside the grid or occupied; otherwise only that cell gains the colour |
| HexGrids.PickFree | objects/arena/hex_grid.py:189-202 | keeps a free in-range cell; otherwise takes the first free ranked neighbour, or the last ranked neighbour when none is free |
| HexGrids.PickFreeFromCandidates | objects/arena/hex_grid.py:189-196 | the walk ends on the snapped cell or on one of its ranked neighbours |
| HexGrids.MoveDown | objects/arena/hex_grid.py:48-51 | moving the grid keeps every bubble on its cell |
| HexGrids.MoveDownShiftsCenters | objects/arena/hex_grid.py:48-61 | after a move every cell's pixel centre is exactly `amount` lower and not shifted sideways |
| HexGrids.PlayableLayout | objects/arena/hex_grid.py:53-61 | (about `PlayableScale` and `PlayableTopLeft`) the playable scale times the cell count is the real size less the 20 or 10 pixel margin, and the playable corner is half a cell plus six pixels in from the anchor |
| HexGrids.CenterSpacing | objects/arena/hex_grid.py:204-214 | (about `Center`) cell (0, 0) is centred on the playable corner, and two cells' centres are their row and column differences times the scale apart |
| HexGrids.CentreRoundsBack | objects/arena/hex_grid.py:172-179 | with a playable scale of at least two pixels, a pixel up to one below a cell's centre divides back to within half a cell of the cell's index, so rounding returns the cell |
| HexGrids.DefaultSizesScale | objects/arena/hex_grid.py:21-56 | without a real size the playable scale is negative below 20 columns or 10 rows and zero at exactly that many |
| HexGrids.RemoveCells | objects/arena/hex_grid.py:117-126 | exactly the removed cells lose their bubble, and well-formedness is kept |
| HexGrids.Supported | objects/arena/hex_grid.py:128-141 | the non-floating set is the cells an unfiltered walk reaches from some top-row bubble |
| HexGrids.FloatingCells | objects/arena/hex_grid.py:128-142 | the floating list holds, once each, exactly the bubbles no path connects to the top row |
| HexGrids.PopFloating | objects/arena/hex_grid.py:144-152 | dropping the floating bubbles keeps the grid well-formed; what it keeps and reports is stated by the three lemmas below |
| HexGrids.PopFrom | objects/arena/hex_grid.py:95-114 | pops exactly when the seed holds a bubble whose same-colour group has at least three bubbles; otherwise nothing changes and nothing is reported |
| HexGrids.ComponentSize | objects/arena/hex_grid.py:100-101 | the same-colour walk from a bubble returns its group, so the length checked is the group's size |
| HexGrids.KeptIffAnchored | objects/arena/hex_grid.py:144-152 | dropping the floating bubbles keeps a cell exactly when it is connected to the top row |
| HexGrids.PopFloatingRemovesUnanchored | objects/arena/hex_grid.py:144-152 | the kept bubbles keep their colours, and no top-row bubble is ever dropped |
| HexGrids.PopFloatingLeavesAnchored | objects/arena/hex_grid.py:144-152 | after dropping, every remaining bubble is still connected to the top row, so a second drop finds nothing |
| HexGrids.PopFloatingReportsRemoved | objects/arena/hex_grid.py:144-152 | every dropped bubble is reported once as floating with its colour, and nothing else is reported |
| HexGrids.NoSpritesIffEmpty | objects/arena/hex_grid.py:154-156 | the sprite group is empty exactly when no cell holds a bubble |
| HexGrids.PopEventsOfComponent | objects/arena/hex_grid.py:100-109 | the pop reports name each bubble of the group once, with the seed's colour |
| HexGrids.PopFromRemoves | objects/arena/hex_grid.py:95-114 | a pop keeps a bubble exactly when it is outside the group and still connected to the top row once the group is gone; kept bubbles keep their colours |
| HexGrids.PopFromReportsPops | objects/arena/hex_grid.py:104-109 | the pop reports are exactly the group's cells with the seed's colour |
| HexGrids.PopFromReportsFloats | objects/arena/hex_grid.py:111 | the float reports are exactly the other removed cells with their colours |
| HexGrids.PopFromReportsEmpty | objects/arena/hex_grid.py:112 | the empty report is made exactly when the grid ends up empty |
| HexGrids.PopFromReportsOnce | objects/arena/hex_grid.py:104-112 | no report is made twice |
| HexGrids.PresentColors | objects/arena/hex_grid.py:163-164 | a colour is present exactly when some bubble on the grid has it |
| BubbleStates.NameIdentifiesKind | states/bubbleStates.py:3-33 | the four state names are distinct, so a name tells the kind of state |
| BubbleStates.FloatingUpdate | states/bubbleStates.py:22-29 | the timer grows by `dt`, and the finisher runs exactly when the timer has reached the duration |
| BubbleStates.FloatingRunAccumulates | states/bubbleStates.py:22-29 | over a run, the timer is the sum of the steps; with non-negative steps the finisher runs on every update once the duration is reached, and never while the total stays below it |
| BubbleStates.PopUpdate | states/bubbleStates.py:41-48 | the frame counter grows by one, the image index is within the animation, and the finisher runs exactly when the new count has reached the total |
| BubbleStates.PopFinishCountFormula | states/bubbleStates.py:41-48 | over k updates the finisher runs once for every new count at or past the total, not just once |
| BubbleStates.PopAnimationPlaysInOrder | states/bubbleStates.py:41-48 | with thirty frames, five per image and six images, frame f shows image f / 5 and only the thirtieth update finishes |
| Bubbles.NewBubble | objects/bubble.py:9-27 | a new bubble is idle on its colour's first image with no handlers |
| Bubbles.Stop | objects/bubble.py:37-38 | stopping makes any bubble idle and keeps colour, image and handlers |
| Bubbles.Shoot | objects/bubble.py:71-73 | shooting puts the bubble in the shot state and keeps colour, image and handlers |
| Bubbles.SetFloating | objects/bubble.py:57-58 | a floating bubble starts a fresh timer with the given duration |
| Bubbles.PlayPopAnimation | objects/bubble.py:65-69 | the pop animation starts at frame 0 over the six images after the first, thirty frames long with five frames per image |
| Bubbles.FloatingOrShot | objects/bubble.py:40-46 | `floating` and `shoted` hold exactly in the floating and shot states, never both |
| Bubbles.RegisterPopFinished | objects/bubble.py:83-84 | the handler is called after the earlier ones, and nothing else about the bubble changes |
| Bubbles.UnregisterPopFinished | objects/bubble.py:86-87 | every copy of the handler goes, the others stay with their order and their copies (the handler list is the filter `Unregister`), and nothing else about the bubble changes |
| Bubbles.Update | objects/bubble.py:29-32 | idle and shot bubbles do not change; a floating bubble starts popping once its timer reaches the duration; a popping bubble calls its handlers from the last frame on |
| Bubbles.PopCallsHandlersOnLastFrame | objects/bubble.py:65-80 | a popping bubble calls no handler before its thirtieth frame and calls every handler once, in order, on it |
| Bubbles.PopAnimationFromStart | objects/bubble.py:65-80 | thirty updates after the pop animation starts, every handler has been called exactly once and the last image is shown |
| Bubbles.LastImage | states/bubbleStates.py:41-44 | after a run of pop updates, the image shown is the one for the last frame played |
| Scores.NewScore | objects/score.py:5-6 | a new score is zero |
| Scores.HandleBubblePop | objects/score.py:22-27 | a pop adds its colour's points, and a colour outside the table changes nothing |
| Scores.TableTotalAndInjective | objects/score.py:5-16 | every colour is in the table, worth 1 to 8 points, and no two colours are worth the same |
| Scores.HandlePopsAddsPoints | objects/score.py:22-25 | a run of pops adds the sum of the colours' points, between one and eight per pop |
| Scores.PointsOfConcat | objects/score.py:22-25 | the points of two runs of pops add up |
| Scores.PopOrderIrrelevant | objects/score.py:22-25 | exchanging two consecutive blocks of pops leaves the final score unchanged |
| Menus.NewMenu | states/game/menu_state.py:10-15 | a new menu has the first option selected |
| Menus.NextStateFixed | states/game/menu_state.py:14 | (about `HasNextState`) a new menu has a next state exactly when it has options, and moving the selection never changes that |
| Menus.Next | states/game/menu_state.py:40-42 | the options never change; with no options nothing changes; the selection stays in range |
| Menus.Previous | states/game/menu_state.py:44-46 | the options never change; going back from the first option selects the last one |
| Menus.Select | states/game/menu_state.py:48-51 | selecting gives nothing exactly when there are no options, and otherwise the selected index, within range |
| Menus.NextStep | states/game/menu_state.py:40-42 | the next option is one further, wrapping from the last one to the first |
| Menus.PreviousStep | states/game/menu_state.py:44-46 | the previous option is one back, wrapping from the first one to the last |
| Menus.NextPreviousInverse | states/game/menu_state.py:40-46 | next and previous undo each other |
| Menus.NextTimesMoves | states/game/menu_state.py:40-42 | k steps forward select the option k places on, modulo the number of options |
| Menus.FullCycle | states/game/menu_state.py:40-42 | as many steps as there are options return to the same menu |
| Menus.NextTimesAdd | states/game/menu_state.py:40-42 | a + b steps are a steps followed by b steps |
| Menus.NextTimesPeriodic | states/game/menu_state.py:40-42 | stepping is periodic in the number of options |
| Menus.NextTimesInv | states/game/menu_state.py:40-42 | any number of steps keeps the options and a selection in range |
| Shooters.NewShooter | objects/bubbleShooter.py:39-40 | the launcher starts pointing straight up with no shoot callbacks |
| Shooters.Rotate | objects/bubbleShooter.py:72-82 | a rotation moves the angle by one step, unless that would leave 15 to 165 degrees, in which case the angle stays |
| Shooters.RotateUndo | objects/bubbleShooter.py:72-82 | a rotation that moved is undone by one rotation the other way |
| Shooters.RotateTimesClamps | objects/bubbleShooter.py:72-82 | k rotations one way move the angle by k, stopping at the 15 or 165 degree bound |
| Shooters.Shoot | objects/bubbleShooter.py:68-70 | shooting calls every registered callback once, in registration order |
| Shooters.RegisterOnShoot | objects/bubbleShooter.py:84-85 | a registered callback is called after the earlier ones, and the angle is kept |
| Shooters.UnregisterOnShoot | objects/bubbleShooter.py:87-88 | an unregistered callback is never called again, and the others still are, in registration order and as often as before (the list is the filter `Unregister`) |
| Shooters.RegisterThenUnregister | objects/bubbleShooter.py:84-88 | registering a new callback and unregistering it restores the calls made on a shot |
| Levels.IntValue | levels/level_loader.py:142-143 | only integers, booleans included, pass the integer checks |
| Levels.Get | levels/level_loader.py:136-138 | a key has a value exactly when some pair of the object carries it |
| Levels.GetIsLast | levels/level_loader.py:122-125 | the value found is that of a pair with the key after which the key does not occur again, as in the dict `json.load` builds |
| Levels.LastValueWins | levels/level_loader.py:122-125 | a later pair with the same key overrides every earlier one |
| Levels.Items | levels/level_loader.py:122-125 | the dict holds every key of the object once, each with the value `Get` gives |
| Levels.ItemsOfDistinctKeys | levels/level_loader.py:122-125 | an object without repeated keys is its own dict |
| Levels.BasicLevelData | levels/level_loader.py:134-150 | succeeds exactly when width and height are positive integers and bubbles is an object, returning that object's dict; otherwise reports the first failing check in the order width type, height type, bubbles type, width sign, height sign |
| Levels.DefaultsApply | levels/level_loader.py:136-138 | a level without the three keys is 15 wide and 20 high, with no bubbles |
| Levels.FindColor | levels/level_loader.py:155-157 | a found colour has exactly the given name, and nothing is found only when no colour has it |
| Levels.ColorByName | levels/level_loader.py:152-160 | a name gives the colour whose enum name is the name upper-cased, and nothing when there is none |
| Levels.ColorNamesCaseInsensitive | levels/level_loader.py:152-160 | every colour is found by its name in upper or lower case |
| Levels.HexCoordOf | levels/level_loader.py:183-199 | a coordinate is read exactly from a list of two integers with the same parity, as row then column |
| Levels.ValidCoords | levels/level_loader.py:171-181 | the readable entries are kept and the others skipped |
| Levels.HexCoordsOf | levels/level_loader.py:162-181 | a non-list gives no coordinates, and a list gives its readable entries |
| Levels.ValidCoordsKeepsOrder | levels/level_loader.py:171-181 | the coordinates of two lists joined are those of each, in order |
| Levels.AddCoords | levels/level_loader.py:107-118 | fails exactly when the playable scale is zero and some listed cell is valid; otherwise keeps the bubbles the grid had and adds only bubbles of the given colour on in-range cells some listed cell snaps to |
| Levels.Place | levels/level_loader.py:112-118 | placing one bubble keeps the old bubbles; the cell the walk picks is filled with its colour exactly when it is valid, no other cell is added, and an invalid pick changes nothing; an added cell is in range and the listed cell snaps to it |
| Levels.AddCoordsExactSnap | levels/level_loader.py:107-118 | when every cell snaps to itself and the scale is not zero, the grid gains exactly the listed in-range free cells, in the given colour |
| Levels.FirstColor | levels/level_loader.py:99-107 | a cell has a first colour exactly when some entry with a known colour name lists it, and that colour is the entry's |
| Levels.AddLevelBubbles | levels/level_loader.py:98-118 | fails exactly when the playable scale is zero and some known colour lists a valid cell; otherwise existing bubbles stay and every new bubble is on an in-range cell, coloured by an entry that lists a cell snapping to it |
| Levels.AddLevelBubblesExactSnap | levels/level_loader.py:98-118 | when every cell snaps to itself and the scale is not zero, a free in-range cell gets the colour of the first known colour listing it, and a cell no known colour lists stays free |
| Levels.LoadLevel | levels/level_loader.py:80-95 | a non-object and invalid basic data fail in their own ways; valid data goes on to `BuildLevel`; a loaded level is a well-formed grid of the level's size whose bubbles all come from its entries |
| Levels.BuildLevel | levels/level_loader.py:89-92 | the grid is rejected exactly for a size below one or a given real size that is not positive, with that error; otherwise it loads unless the playable scale is zero and some known colour lists a valid cell, which fails with the zero-scale error |
| Levels.LoadLevelSucceeds | levels/level_loader.py:80-95 | a level loads exactly when it is an object with valid basic data, no given real size is non-positive, and it does not place a valid cell on a grid of zero playable scale; valid data is rejected by the grid exactly for a non-positive real size |
| Levels.LoadLevelExactSnap | levels/level_loader.py:80-118 | when every cell snaps to itself, a loaded level holds exactly the in-range cells some known colour lists, each in the first such colour |
| Levels.NewLevelLoader | levels/level_loader.py:15-29 | the loader fails exactly when there are no levels; otherwise the starting index is clamped into range, so the loader is `IsValid` |
| Levels.NextLevel | levels/level_loader.py:35-36 | the next level is one index on, with no bound check |
| Levels.PreviousLevel | levels/level_loader.py:32-33 | the previous level is one index back, with no bound check |
| Levels.NextPreviousInverse | levels/level_loader.py:32-36 | moving to the next level and back, or back and on, returns to the same loader |
| Levels.LoadCurrentLevel | levels/level_loader.py:38-50 | an index outside (`!IsValid`) the list and an unreadable file fail; otherwise the current level's file is loaded |
| Levels.PastLastLevel | levels/level_loader.py:35-44 | advancing past the last level leaves the index out of range, so loading gives `None` |
| Arenas.RandomColor | objects/arena/arena.py:61-63 | there is no colour exactly when the grid is empty, and any colour drawn is on the grid |
| Arenas.RandomColorCovers | objects/arena/arena.py:61-63 | every colour on the grid, and only those, can be drawn |
| Arenas.NewArena | objects/arena/arena.py:16-52 | an empty grid has no colour to draw and fails; otherwise two idle bubbles of grid colours are dynamic, the countdown is full and the empty flag is down |
| Arenas.ShootHandler | objects/arena/arena.py:142-152 | once the grid is empty nothing happens; otherwise the launcher's bubble is shot, the next bubble takes its place, a fresh next bubble of a grid colour joins, and no other bubble changes |
| Arenas.Spawn | objects/arena/arena.py:54-55 | a spawned bubble gets an unused id and joins the dynamic group, and nothing else changes |
| Arenas.FloatDuration | objects/arena/arena.py:166 | a floating time is drawn from the range of 2 up to but not including 4 seconds |
| Arenas.Released | objects/arena/arena.py:154-169 | a released bubble has the reported colour and the arena's pop-finished handler, pops if it was popped and floats if it was dropped |
| Arenas.ProcessEvents | objects/arena/arena.py:154-186 | handling the grid's reports keeps the arena invariant and raises the empty flag exactly when the grid reported empty, taking one fresh id and one notice per pop or float report |
| Arenas.ProcessEventsFrame | objects/arena/arena.py:154-169 | handling the reports changes no stored bubble, and the dynamic group gains exactly the fresh ids |
| Arenas.ProcessEventsReleases | objects/arena/arena.py:154-173 | each pop or float report, in order, yields a bubble under the next fresh id with the reported colour and the pop-finished handler, popping or floating as reported, and a notice that its animation started |
| Arenas.Place | objects/arena/arena.py:105-111 | an invalid cell changes nothing; a valid one gets the bubble and then pops from it; the empty flag is up exactly when it was or the grid is now empty; stored bubbles do not change |
| Arenas.AttachBubble | objects/arena/arena.py:101-111 | the attached bubble leaves the dynamic group and stops; the grid takes it only on a valid cell; the invariant is kept |
| Arenas.PopReportsRemovedCells | objects/arena/hex_grid.py:95-152 | after a pop every pop or float report names a removed cell, pop reports name the popped group, and every removed cell is reported |
| Arenas.AttachReleases | objects/arena/arena.py:101-111 | an attached bubble that pops releases one bubble per removed grid bubble, in report order, under consecutive fresh ids, popping exactly for the group |
| Arenas.HandlePopFinished | objects/arena/arena.py:175-183 | the bubble is reported popped first, unregisters the arena's handler and leaves the dynamic group; the level is won exactly when the grid is empty and at most two dynamic bubbles remain |
| Arenas.Dispatch | objects/bubble.py:78-80 | the arena changes only if its own handler is among those called, and then only by that bubble leaving the dynamic group |
| Arenas.UpdateBubble | objects/arena/arena.py:66-67 | updating a bubble keeps the arena invariant, the grid and the bubble's colour |
| Arenas.PopFinishesOnLastFrame | objects/arena/arena.py:175-183 | a released popping bubble stays dynamic and silent until its thirtieth frame; then it is reported, leaves, and the level is won exactly when the grid is empty and at most two others remain |
| Arith.Trunc | objects/arena/arena.py:138 | the whole part a `Rect` keeps lies within one pixel of the value, on the side of zero |
| Arenas.Lerp | objects/arena/arena.py:136 | the interpolation gives the start at weight 0, the end at weight 1, and a point between them in between |
| Arenas.DescentPos | objects/arena/arena.py:134-136 | the interpolation runs from the starting row at weight zero to 40 pixels below at the full transition time, and stays strictly above that end for any earlier time |
| Arenas.UpdateArenaDown | objects/arena/arena.py:124-140 | the countdown restarts a descent from the ceiling's row when it runs out; while descending the ceiling's rect takes the whole part of the interpolated position and the grid moves by the distance to that position, fraction included; the descent stops once the transition time has passed |
| Arenas.GridDriftsFromCeiling | objects/arena/arena.py:133-139 | each moving step widens the gap between ceiling and grid by the fraction the rect drops, under one pixel and zero exactly when the position is whole |
| Arenas.CeilingDriftExample | objects/arena/arena.py:124-140 | from a ceiling at 32 and a grid at 48, three half-second frames leave them at 45 and 62 |
| Arenas.UpdateArenaDownSynced | objects/arena/arena.py:124-140 | the corrected descent: countdown, ceiling and timing as in the source |
| Arenas.GridFollowsCeiling | objects/arena/arena.py:133-139 | with the corrected descent every bubble's pixel centre keeps its distance to the ceiling and its horizontal position |
| Arenas.DescentBounded | objects/arena/arena.py:133-140 | during a descent the ceiling's rect stays between its starting row and 40 pixels below it |
| Arenas.DescentStopsShort | objects/arena/arena.py:133-140 | the weight is taken before the elapsed time grows, so every step is weighted below one and a ceiling starting at a non-negative row never reaches 40 pixels down |
| Arenas.LastStepHalfSecond | objects/arena/arena.py:133-140 | with half-second frames the last step, taken at two and a half seconds, ends the descent with the ceiling 33 pixels below its start |

## Left out

- Times and positions are exact reals, not floating-point numbers: the floating timer's
  `+= dt`, the descent's weight, `lerp` and `amount` round in the program, so a threshold
  such as a floating bubble's duration can be crossed one frame later than the model says
  (ten steps of 0.1 add up to just under 1.0 in floats).
- Pixel physics is not modelled: positions, speeds, accelerations and the float direction
  `dir_x`. The rounding and parity repair of `_pixel_to_hex`, with the sorting of the
  neighbours by distance, are a `Snap` parameter; the walk over the neighbours and the
  division by a zero scale are modelled. `HexGrids.CentreRoundsBack` shows why the identity
  snap is the one that holds on a grid of at least two pixels per cell.
- Collisions with the walls, the grid and the floor are not modelled. Neither are
  `floor_hit` and the lose handlers. The grid collision is the call of `AttachBubble` on the
  snapped cell.
- Drawing, sprites and images are not modelled. Only the index of the image shown is kept.
- File reading, JSON parsing and level discovery (`AVAILABLE_LEVELS`, directory scan,
  sorting) are not modelled. Files are a map from name to parsed JSON, and a missing entry
  stands for every read error.
- A JSON object is its list of pairs in file order. The dict `json.load` builds from it is
  modelled: a repeated key keeps its first place and its last value. The order of the
  dict's items is stated only as documentation, not as a contract.
- Case conversion is ASCII only; Python's `str.upper` also maps other letters.
- `get_present_colors` returns a set. The model lists the present colours in enum order
  before the random pick, since any order is a valid set order.
- Randomness is not modelled: each random draw is an index parameter.
- The base `State` class is not part of this model. Its `update` is taken to do nothing, so
  idle and shot bubbles change only through their physics.
- Menu layout, fonts, the arrow sprite and the shoot-direction vector are not modelled.
  Input handling and the game-state machine are not modelled either.
- A `Rect` coordinate is taken to be truncated toward zero when a float is stored in it.
- `pygame.math.lerp`'s range check on the weight is not modelled. The descent only ever
  passes weights between 0 and 1.
- Arenas.UpdateBubble: states only what holds for every bubble. Its effect on a popping
  bubble with the arena's handler is stated by `Arenas.PopFinishesOnLastFrame`, and the
  bubble's own step by `Bubbles.Update`.
- The arena's start-animation, bubble-pop and win handler lists are modelled as notices in
  the returned trace, not as callbacks.
- Levels.AddCoords: the cells bubbles end on are stated through the `Snap` parameter, not
  computed from the pixel arithmetic; `Levels.AddCoordsExactSnap` states them for the
  identity snap.
- Levels.AddLevelBubbles: the same, with `Levels.AddLevelBubblesExactSnap` for the identity
  snap.
- Levels.LoadLevel: the same, with `Levels.LoadLevelExactSnap` for the identity snap.
- Arenas.UpdateArenaDown: the grid's anchor `top_left` no longer keeps its distance to the
  ceiling. It drifts by up to a pixel per moving frame (`Arenas.GridDriftsFromCeiling`); the
  fixed distance holds for `Arenas.UpdateArenaDownSynced`. The bubbles already on the grid are
  not affected: `_update_bubbles_pos` stores each new position in a `Rect`, so they step by the
  ceiling's whole-pixel step. What drifts is the anchor `hex_to_pixel` and `_pixel_to_hex` use
  to place and snap bubbles attached later. Sprite positions are not modelled.

## Findings

| source | as written | input that shows it | evidently intended | confidence | as-written member | corrected member |
|---|---|---|---|---|---|---|
| objects/arena/arena.py:137-139 | the grid's anchor moves by `pos` minus the ceiling rect's row, while the rect keeps only the whole part of `pos`; bubbles already placed step with the rect, but later ones are placed and snapped from the drifting anchor | ceiling at 32, grid anchored at 48, half-second frames from the countdown's end: after three frames the ceiling is at 45 and the grid at 62, a gap of 17 where it was 16 | the grid's anchor moves by as much as the ceiling's rect, so the two stay together | medium, not executed | Arenas.UpdateArenaDown, Arenas.CeilingDriftExample | Arenas.UpdateArenaDownSynced, Arenas.GridFollowsCeiling |

=== FILE: arenas.dfy ===
/**
 * `Arena`: the play field. It owns the grid, the group of moving ("dynamic") bubbles, the
 * bubble in the launcher and the next one, and the ceiling countdown. It turns the grid's
 * pop, float and empty reports into popping and falling bubbles, and reports what the game
 * reacts to (an animation started, a bubble finished popping, the level won) as a trace.
 *
 * Bubbles are objects in Python; here each has an id in `store`, and the dynamic group is a
 * set of ids. A grid bubble is its colour on its cell: when it leaves the grid it becomes a
 * fresh stored bubble of that colour (an attached bubble is idle, on its first sprite, with
 * no handlers, which is exactly a new bubble).
 */
module Arenas {
  import opened Wrappers
  import opened Colors
  import opened HexCoords
  import opened HexGrids
  import opened Settings
  import opened Bubbles
  import opened BubbleStates
  import opened Arith

  /** What the arena reports to its start-animation, bubble-pop and win handlers. */
  datatype ArenaNotice =
    | AnimationStarted(bubble: nat)
    | BubblePopped(color: Color)
    | Won
    | ListenerCalled(bubble: nat, listener: nat)

  /**
   * `downTime` is `_arena_down_current_time`; `moving`, `moveTime` and `initialPos` the
   * descent in progress; `ceilingY` the ceiling's top edge, a whole pixel as in any pygame
   * `Rect`.
   */
  datatype Arena = Arena(
    grid: HexGrid,
    store: map<nat, Bubble>,
    dynamic: set<nat>,
    shooter: nat,
    next: nat,
    nextId: nat,
    gridEmpty: bool,
    downTime: real,
    moving: bool,
    moveTime: real,
    initialPos: int,
    ceilingY: int)

  /**
   * What every arena keeps: a well-formed grid, two distinct launcher bubbles, dynamic
   * bubbles that exist, and fresh ids above every id in use.
   */
  ghost predicate Core(a: Arena) {
    && Wf(a.grid)
    && a.shooter in a.store && a.next in a.store && a.shooter != a.next
    && a.dynamic <= a.store.Keys
    && (forall id :: id in a.store ==> id < a.nextId)
  }

  /**
   * Between handler runs, also the empty flag is raised whenever the grid has no bubble
   * (during `_pop_bubbles_from` the grid empties before the report that raises the flag).
   */
  ghost predicate Inv(a: Arena) {
    Core(a) && (a.grid.cells == map[] ==> a.gridEmpty)
  }

  // ----- colours -----

  /** The colours of `cs` that are in `s`, in the order of `cs`. */
  function Keep(cs: seq<Color>, s: set<Color>): (r: seq<Color>)
    ensures forall c :: c in r <==> c in cs && c in s
  {
    if cs == [] then [] else (if cs[0] in s then [cs[0]] else []) + Keep(cs[1..], s)
  }

  /**
   * `get_random_color`: `random.choice` over the grid's present colours, `None` when there
   * are none. `pick` stands for the random draw; the colours are listed in enum order.
   */
  function RandomColor(g: HexGrid, pick: nat): (r: Option<Color>)
    requires Wf(g)
    ensures r.None? <==> g.cells == map[]
    ensures r.Some? ==> exists c :: c in g.cells && g.cells[c] == r.value
  {
    var colors := Keep(AllColors, PresentColors(g));
    if colors == [] then
      assert g.cells != map[] ==> false by {
        if g.cells != map[] {
          var c :| c in g.cells;
          AllColorsEnumerates(g.cells[c]);
        }
      }
      None
    else
      var v := colors[pick % |colors|];
      assert v in PresentColors(g);
      var c :| c in g.cells && g.cells[c] == v;
      Some(v)
  }

  /** Every colour on the grid, and only those, can be drawn. */
  lemma RandomColorCovers(g: HexGrid, col: Color)
    requires Wf(g)
    ensures (exists pick: nat :: RandomColor(g, pick) == Some(col)) <==> exists c :: c in g.cells && g.cells[c] == col
  {
    if exists c :: c in g.cells && g.cells[c] == col {
      var colors := Keep(AllColors, PresentColors(g));
      AllColorsEnumerates(col);
      assert col in PresentColors(g);
      assert col in colors;
      var i :| 0 <= i < |colors| && colors[i] == col;
      ModBelow(i, |colors|);
      assert RandomColor(g, i) == Some(col);
    }
  }

  // ----- construction and shooting -----

  /** The constructor fails when the grid has no colour to draw: a bubble of colour `None` has no sprites. */
  datatype ArenaError = NoColorToDraw

  /**
   * The constructor: a random bubble in the launcher and another as the next one, both
   * dynamic, the countdown at `arena_down_cd` and the empty flag down.
   */
  function NewArena(grid: HexGrid, ceilingY: int, pick1: nat, pick2: nat): (r: Result<Arena, ArenaError>)
    requires Wf(grid)
    ensures r.Failure? <==> grid.cells == map[]
    ensures r.Success? ==> Inv(r.value)
    ensures r.Success? ==>
              && r.value.grid == grid && r.value.dynamic == {r.value.shooter, r.value.next}
              && !r.value.gridEmpty && !r.value.moving && r.value.downTime == ArenaDownCooldown
              && r.value.store[r.value.shooter].state == Idle && r.value.store[r.value.next].state == Idle
              && (exists c :: c in grid.cells && grid.cells[c] == r.value.store[r.value.shooter].color)
              && (exists c :: c in grid.cells && grid.cells[c] == r.value.store[r.value.next].color)
  {
    var c1, c2 := RandomColor(grid, pick1), RandomColor(grid, pick2);
    if c1.None? || c2.None? then Failure(NoColorToDraw)
    else
      Success(Arena(grid, map[0 := NewBubble(c1.value), 1 := NewBubble(c2.value)], {0, 1}, 0, 1, 2,
                    false, ArenaDownCooldown, false, 0.0, ceilingY, ceilingY))
  }

  /**
   * `shooter_shoot_handler`: nothing once the grid is empty. Otherwise the launcher's bubble
   * is shot, the next bubble moves into the launcher, and a new next bubble of a colour on
   * the grid is spawned.
   */
  function ShootHandler(a: Arena, pick: nat): (r: Arena)
    requires Inv(a)
    ensures Inv(r)
    ensures a.gridEmpty ==> r == a
    ensures !a.gridEmpty ==>
              && a.shooter in r.store && r.store[a.shooter] == Shoot(a.store[a.shooter])
              && r.shooter == a.next
              && r.next !in a.store && r.dynamic == a.dynamic + {r.next}
              && r.store[r.next].state == Idle
              && (exists c :: c in a.grid.cells && a.grid.cells[c] == r.store[r.next].color)
              && (forall id :: id in a.store && id != a.shooter ==> id in r.store && r.store[id] == a.store[id])
              && r.grid == a.grid && r.gridEmpty == a.gridEmpty
  {
    if a.gridEmpty then a
    else
      var a1 := Spawn(a.(store := a.store[a.shooter := Shoot(a.store[a.shooter])]),
                      NewBubble(RandomColor(a.grid, pick).value));
      a1.(shooter := a.next, next := a.nextId)
  }

  // ----- attaching a bubble and resolving the grid -----

  /** `spawn_bubble`: a new bubble, under a fresh id, joins the dynamic group. */
  function Spawn(a: Arena, b: Bubble): (r: Arena)
    requires Core(a)
    ensures Core(r)
    ensures a.nextId !in a.store && r.store == a.store[a.nextId := b] && r.dynamic == a.dynamic + {a.nextId}
    ensures r == a.(store := r.store, dynamic := r.dynamic, nextId := a.nextId + 1)
  {
    a.(store := a.store[a.nextId := b], dynamic := a.dynamic + {a.nextId}, nextId := a.nextId + 1)
  }

  /** `randrange(BUBBLE_FLOATING_DURATION_MINIMUM, BUBBLE_FLOATING_DURATION_MAXIMUM)`, drawn by `pick`. */
  function FloatDuration(pick: nat): (r: int)
    ensures FloatingDurationMin <= r < FloatingDurationMax
  {
    FloatingDurationMin + pick % (FloatingDurationMax - FloatingDurationMin)
  }

  /** The grid events that give the arena a bubble: pops and floats, in order. */
  function Removed(events: seq<GridEvent>): (r: seq<GridEvent>)
    ensures |r| <= |events|
    ensures forall j :: 0 <= j < |r| ==> !r[j].Emptied?
  {
    if events == [] then []
    else (if events[0].Emptied? then [] else [events[0]]) + Removed(events[1..])
  }

  /** The pop and float reports are kept, in order, and the empty report dropped. */
  lemma {:induction false} RemovedMembers(events: seq<GridEvent>)
    ensures forall e :: e in Removed(events) <==> e in events && !e.Emptied?
  {
    if events != [] {
      RemovedMembers(events[1..]);
      assert events == [events[0]] + events[1..];
    }
  }

  /** The bubble the arena makes of a removed grid bubble: popping, or floating for `duration` seconds, with the arena's pop-finished handler. */
  function Released(e: GridEvent, duration: int): (b: Bubble)
    requires !e.Emptied?
    ensures Valid(b) && b.color == e.color && b.popHandlers == [ArenaPopFinished]
    ensures e.Popped? ==> b.state == PlayPopAnimation(b).state
    ensures e.Floated? ==> b.state == Floating(0.0, duration as real)
  {
    var b := RegisterPopFinished(NewBubble(e.color), ArenaPopFinished);
    if e.Popped? then PlayPopAnimation(b) else SetFloating(b, duration as real)
  }

  /** The bubbles released for a run of pop and float reports; `picks(j)` draws the `j`-th one's floating time. */
  function Releases(removed: seq<GridEvent>, picks: nat -> nat): (r: seq<Bubble>)
    requires forall j :: 0 <= j < |removed| ==> !removed[j].Emptied?
    ensures |r| == |removed|
    ensures forall j :: 0 <= j < |r| ==> r[j] == Released(removed[j], FloatDuration(picks(j)))
  {
    seq(|removed|, j requires 0 <= j < |removed| => Released(removed[j], FloatDuration(picks(j))))
  }

  /** `spawn_bubble` for each bubble in turn: consecutive fresh ids, all dynamic. */
  function SpawnAll(a: Arena, bs: seq<Bubble>): (r: Arena)
    requires Core(a)
    ensures Core(r)
    ensures r.grid == a.grid && r.gridEmpty == a.gridEmpty && r.shooter == a.shooter && r.next == a.next
    ensures r.downTime == a.downTime && r.moving == a.moving && r.ceilingY == a.ceilingY
    ensures r.nextId == a.nextId + |bs|
    decreases |bs|
  {
    if bs == [] then a
    else SpawnAll(Spawn(a, bs[0]), bs[1..])
  }

  /** The spawned bubbles are stored under the ids after the old ones, in order, and are dynamic; nothing stored before changes. */
  lemma {:induction false} SpawnAllStores(a: Arena, bs: seq<Bubble>)
    requires Core(a)
    ensures var r := SpawnAll(a, bs);
            forall id :: a.nextId <= id < a.nextId + |bs| ==> id in r.store && r.store[id] == bs[id - a.nextId]
    ensures var r := SpawnAll(a, bs);
            forall id :: id in a.store ==> id in r.store && r.store[id] == a.store[id]
    decreases |bs|
  {
    if bs != [] {
      var a1 := Spawn(a, bs[0]);
      assert forall j :: 0 <= j < |bs[1..]| ==> bs[1..][j] == bs[j + 1];
      SpawnAllStores(a1, bs[1..]);
      assert a.nextId in a1.store && a1.store[a.nextId] == bs[0];
    }
  }

  /** The dynamic group gains exactly the spawned ids. */
  lemma {:induction false} SpawnAllDynamic(a: Arena, bs: seq<Bubble>)
    requires Core(a)
    ensures var r := SpawnAll(a, bs);
            forall id :: id in r.dynamic <==> id in a.dynamic || a.nextId <= id < r.nextId
    decreases |bs|
  {
    if bs != [] {
      SpawnAllDynamic(Spawn(a, bs[0]), bs[1..]);
    }
  }

  /**
   * The arena's handlers run on the grid's reports: `_handle_bubble_pop` spawns the bubble,
   * registers for its pop-finished report, reports its animation and starts its pop
   * animation; `_handle_bubble_float` sets it floating for a random 2 or 3 seconds,
   * registers, reports and spawns it; `_on_grid_empty` raises the empty flag. Each handler
   * touches its own bubble, so running them in report order is spawning the released
   * bubbles in that order and reporting each animation start.
   */
  function ProcessEvents(a: Arena, events: seq<GridEvent>, picks: nat -> nat): (r: (Arena, seq<ArenaNotice>))
    requires Core(a)
    ensures Core(r.0)
    ensures r.0.gridEmpty <==> a.gridEmpty || Emptied in events
    ensures r.0.grid == a.grid && r.0.downTime == a.downTime && r.0.moving == a.moving && r.0.ceilingY == a.ceilingY
    ensures r.0.nextId == a.nextId + |Removed(events)|
    ensures |r.1| == |Removed(events)|
  {
    var removed := Removed(events);
    var a1 := SpawnAll(a, Releases(removed, picks));
    (a1.(gridEmpty := a.gridEmpty || Emptied in events),
     seq(|removed|, j requires 0 <= j < |removed| => AnimationStarted(a.nextId + j)))
  }

  /**
   * Handling the reports changes no stored bubble, and the dynamic group gains exactly the
   * fresh ids.
   */
  lemma ProcessEventsFrame(a: Arena, events: seq<GridEvent>, picks: nat -> nat)
    requires Core(a)
    ensures var r := ProcessEvents(a, events, picks);
            forall id :: id in a.store ==> id in r.0.store && r.0.store[id] == a.store[id]
    ensures var r := ProcessEvents(a, events, picks);
            forall id :: id in r.0.dynamic <==> id in a.dynamic || a.nextId <= id < r.0.nextId
  {
    var bs := Releases(Removed(events), picks);
    var r := ProcessEvents(a, events, picks);
    assert r.0.store == SpawnAll(a, bs).store && r.0.dynamic == SpawnAll(a, bs).dynamic;
    SpawnAllDynamic(a, bs);
    SpawnAllStores(a, bs);
  }

  /**
   * Handling the reports spawns one bubble per pop or float report, in report order, under
   * consecutive fresh ids: each has the reported colour and the arena's pop-finished
   * handler, and pops or floats as reported; each is reported as an animation start in the
   * same order.
   */
  lemma ProcessEventsReleases(a: Arena, events: seq<GridEvent>, picks: nat -> nat)
    requires Core(a)
    ensures ReleasedAfter(a.nextId, ProcessEvents(a, events, picks), Removed(events))
  {
    var removed := Removed(events);
    var bs := Releases(removed, picks);
    var a1 := SpawnAll(a, bs);
    var r := ProcessEvents(a, events, picks);
    assert r.0.store == a1.store;
    forall j | 0 <= j < |removed|
      ensures && r.1[j] == AnimationStarted(a.nextId + j)
              && a.nextId + j in r.0.store
              && r.0.store[a.nextId + j].color == removed[j].color
              && r.0.store[a.nextId + j].popHandlers == [ArenaPopFinished]
              && (r.0.store[a.nextId + j].state.Pop? <==> removed[j].Popped?)
              && (r.0.store[a.nextId + j].state.Floating? <==> removed[j].Floated?)
    {
      SpawnedAt(a, bs, j);
      var b := Released(removed[j], FloatDuration(picks(j)));
      assert a1.store[a.nextId + j] == b;
    }
  }

  /**
   * `r` released `released` after the ids below `base`: one fresh id per released bubble, in
   * order, each reported as an animation start and stored with the reported colour and the
   * arena's pop-finished handler, popping for a pop report and floating for a float report.
   */
  predicate ReleasedAfter(base: nat, r: (Arena, seq<ArenaNotice>), released: seq<GridEvent>) {
    && r.0.nextId == base + |released|
    && |r.1| == |released|
    && (forall j :: 0 <= j < |released| ==>
          && r.1[j] == AnimationStarted(base + j)
          && base + j in r.0.store
          && !released[j].Emptied? && r.0.store[base + j].color == released[j].color
          && r.0.store[base + j].popHandlers == [ArenaPopFinished]
          && (r.0.store[base + j].state.Pop? <==> released[j].Popped?)
          && (r.0.store[base + j].state.Floating? <==> released[j].Floated?))
  }

  /** The `j`-th spawned bubble, stored under the `j`-th fresh id. */
  lemma SpawnedAt(a: Arena, bs: seq<Bubble>, j: nat)
    requires Core(a)
    requires j < |bs|
    ensures a.nextId + j in SpawnAll(a, bs).store && SpawnAll(a, bs).store[a.nextId + j] == bs[j]
  {
    SpawnAllStores(a, bs);
    var id := a.nextId + j;
    assert bs[id - a.nextId] == bs[j];
  }

  /**
   * The grid side of `_add_bubble_to_grid`: the grid takes a bubble of `color` on `hex` (the
   * cell its position snaps to) if that cell is valid, and otherwise nothing happens. A
   * placed bubble then pops its group, and the arena handles the grid's reports.
   */
  function Place(a: Arena, color: Color, hex: HexCoord, picks: nat -> nat): (r: (Arena, seq<ArenaNotice>))
    requires Inv(a)
    ensures Inv(r.0)
    ensures !(InRange(a.grid, hex) && hex !in a.grid.cells) ==> r.0 == a && r.1 == []
    ensures InRange(a.grid, hex) && hex !in a.grid.cells ==> r.0.grid == PopFrom(AddBubble(a.grid, color, hex).0, hex).grid
    ensures r.0.gridEmpty <==> a.gridEmpty || r.0.grid.cells == map[]
    ensures forall x :: x in a.store ==> x in r.0.store && r.0.store[x] == a.store[x]
    ensures a.dynamic <= r.0.dynamic
  {
    var added := AddBubble(a.grid, color, hex);
    if added.1.None? then (a, [])
    else
      var res := PopFrom(added.0, hex);
      if !res.popped then
        (a.(grid := res.grid), [])
      else
        PopFromReportsEmpty(added.0, hex);
        ProcessEventsFrame(a.(grid := res.grid), res.events, picks);
        ProcessEvents(a.(grid := res.grid), res.events, picks)
  }

  /**
   * `_add_bubble_to_grid`: the bubble leaves the dynamic group and stops, and the grid
   * takes it or, when its cell is not valid, it is dropped.
   */
  function AttachBubble(a: Arena, id: nat, hex: HexCoord, picks: nat -> nat): (r: (Arena, seq<ArenaNotice>))
    requires Inv(a) && id in a.store
    ensures Inv(r.0)
    ensures id !in r.0.dynamic && id in r.0.store && r.0.store[id] == Stop(a.store[id])
    ensures !(InRange(a.grid, hex) && hex !in a.grid.cells) ==> r.0.grid == a.grid && r.1 == []
    ensures InRange(a.grid, hex) && hex !in a.grid.cells ==>
              r.0.grid == PopFrom(AddBubble(a.grid, a.store[id].color, hex).0, hex).grid
    ensures r.0.gridEmpty <==> a.gridEmpty || r.0.grid.cells == map[]
    ensures a.dynamic - {id} <= r.0.dynamic
  {
    var a1 := a.(store := a.store[id := Stop(a.store[id])], dynamic := a.dynamic - {id});
    var r := Place(a1, a.store[id].color, hex, picks);
    assert id !in r.0.dynamic by {
      if InRange(a.grid, hex) && hex !in a.grid.cells {
        var g1 := AddBubble(a1.grid, a.store[id].color, hex).0;
        if PopFrom(g1, hex).popped {
          ProcessEventsFrame(a1.(grid := PopFrom(g1, hex).grid), PopFrom(g1, hex).events, picks);
        }
      }
    }
    r
  }

  /**
   * A successful pop releases exactly the bubbles it removed: each pop or float report
   * names a cell that was on the grid and is gone, pops are the cells of the popped group,
   * and every removed cell is reported.
   */
  lemma PopReportsRemovedCells(g: HexGrid, hex: HexCoord)
    requires Wf(g) && hex in g.cells && |Component(g.cells, hex)| >= 3
    ensures var res := PopFrom(g, hex);
            var released := Removed(res.events);
            && (forall j :: 0 <= j < |released| ==>
                  && released[j].at in g.cells && released[j].at !in res.grid.cells
                  && (released[j].Popped? <==> released[j].at in Component(g.cells, hex)))
            && (forall c :: c in g.cells && c !in res.grid.cells ==>
                  exists j :: 0 <= j < |released| && released[j].at == c)
  {
    var res := PopFrom(g, hex);
    PopFromReportsPops(g, hex);
    PopFromReportsFloats(g, hex);
    PopFromRemoves(g, hex);
    ReportsCoverRemoved(res.events, g.cells, res.grid.cells, Component(g.cells, hex), g.cells[hex]);
  }

  /** The bookkeeping behind `PopReportsRemovedCells`, over any reports with the same description. */
  lemma ReportsCoverRemoved(events: seq<GridEvent>, cells: map<HexCoord, Color>, kept: map<HexCoord, Color>, comp: set<HexCoord>, color: Color)
    requires forall c :: c in comp ==> c in cells && c !in kept
    requires forall c :: c in kept ==> c in cells
    requires forall c, col :: Popped(c, col) in events <==> c in comp && col == color
    requires forall c, col :: Floated(c, col) in events <==> c in cells && c !in comp && c !in kept && col == cells[c]
    ensures var released := Removed(events);
            && (forall j :: 0 <= j < |released| ==>
                  released[j].at in cells && released[j].at !in kept && (released[j].Popped? <==> released[j].at in comp))
            && (forall c :: c in cells && c !in kept ==> exists j :: 0 <= j < |released| && released[j].at == c)
  {
    var released := Removed(events);
    RemovedMembers(events);
    forall j | 0 <= j < |released|
      ensures released[j].at in cells && released[j].at !in kept && (released[j].Popped? <==> released[j].at in comp)
    {
      var e := released[j];
      assert e in released;
      if e.Popped? {
        assert Popped(e.at, e.color) in events;
      } else {
        assert Floated(e.at, e.color) in events;
      }
    }
    forall c | c in cells && c !in kept
      ensures exists j :: 0 <= j < |released| && released[j].at == c
    {
      var e := if c in comp then Popped(c, color) else Floated(c, cells[c]);
      assert e in events;
      assert e in released;
      var j :| 0 <= j < |released| && released[j] == e;
    }
  }

  /**
   * Attaching a bubble that pops releases, under consecutive fresh ids, one bubble per pop
   * or float report, in report order, of the reported colour, popping exactly for the pop
   * reports.
   */
  lemma AttachReleases(a: Arena, id: nat, hex: HexCoord, picks: nat -> nat)
    requires Inv(a) && id in a.store
    requires InRange(a.grid, hex) && hex !in a.grid.cells
    requires |Component(AddBubble(a.grid, a.store[id].color, hex).0.cells, hex)| >= 3
    ensures ReleasedAfter(a.nextId, AttachBubble(a, id, hex, picks),
                          Removed(PopFrom(AddBubble(a.grid, a.store[id].color, hex).0, hex).events))
  {
    var a1 := a.(store := a.store[id := Stop(a.store[id])], dynamic := a.dynamic - {id});
    var g1 := AddBubble(a.grid, a.store[id].color, hex).0;
    var res := PopFrom(g1, hex);
    var a2 := a1.(grid := res.grid);
    var r := ProcessEvents(a2, res.events, picks);
    var x := AttachBubble(a, id, hex, picks);
    assert x == r by {
      assert x == Place(a1, a.store[id].color, hex, picks);
    }
    assert Core(a2);
    ProcessEventsReleases(a2, res.events, picks);
  }

  // ----- pop finished -----

  /**
   * `_handle_bubble_pop_finished`: report the bubble to the pop handlers, unregister from it,
   * drop it from the dynamic group, and report a win if the grid has emptied and at most
   * two dynamic bubbles (the launcher's and the next one) are left.
   */
  function HandlePopFinished(a: Arena, id: nat): (r: (Arena, seq<ArenaNotice>))
    requires Inv(a) && id in a.store
    ensures Inv(r.0)
    ensures r.0.dynamic == a.dynamic - {id}
    ensures r.0.store == a.store[id := UnregisterPopFinished(a.store[id], ArenaPopFinished)]
    ensures |r.1| > 0 && r.1[0] == BubblePopped(a.store[id].color)
    ensures Won in r.1 <==> a.gridEmpty && |a.dynamic - {id}| <= 2
    ensures r.0.grid == a.grid && r.0.gridEmpty == a.gridEmpty
  {
    var b := a.store[id];
    var a1 := a.(store := a.store[id := UnregisterPopFinished(b, ArenaPopFinished)], dynamic := a.dynamic - {id});
    (a1, [BubblePopped(b.color)] + if a.gridEmpty && |a1.dynamic| <= 2 then [Won] else [])
  }

  /** The handlers a bubble called, run in order: the arena's own, and any other subscriber reported as called. */
  function Dispatch(a: Arena, id: nat, calls: seq<PopHandler>): (r: (Arena, seq<ArenaNotice>))
    requires Inv(a) && id in a.store
    ensures Inv(r.0)
    ensures r.0.grid == a.grid && r.0.gridEmpty == a.gridEmpty
    ensures r.0.store.Keys == a.store.Keys
    ensures forall x :: x in a.store ==> r.0.store[x].color == a.store[x].color
    ensures ArenaPopFinished !in calls ==> r.0 == a
    ensures r.0.dynamic == if ArenaPopFinished in calls then a.dynamic - {id} else a.dynamic
    decreases |calls|
  {
    if calls == [] then (a, [])
    else
      assert forall x :: x in calls <==> x == calls[0] || x in calls[1..];
      var first := DispatchOne(a, id, calls[0]);
      var rest := Dispatch(first.0, id, calls[1..]);
      (rest.0, first.1 + rest.1)
  }

  /** One called handler: the arena's own runs `_on_bubble_pop_finished`, any other is reported. */
  function DispatchOne(a: Arena, id: nat, h: PopHandler): (r: (Arena, seq<ArenaNotice>))
    requires Inv(a) && id in a.store
    ensures Inv(r.0) && id in r.0.store
    ensures r.0.grid == a.grid && r.0.gridEmpty == a.gridEmpty
    ensures r.0.store.Keys == a.store.Keys
    ensures forall x :: x in a.store ==> r.0.store[x].color == a.store[x].color
    ensures h != ArenaPopFinished ==> r.0 == a
    ensures r.0.dynamic == if h == ArenaPopFinished then a.dynamic - {id} else a.dynamic
  {
    match h
    case ArenaPopFinished => HandlePopFinished(a, id)
    case Listener(x) => (a, [ListenerCalled(id, x)])
  }

  /**
   * A dynamic bubble's `update`: its state advances, and the pop-finished handlers it calls
   * run against the arena.
   */
  function UpdateBubble(a: Arena, id: nat, dt: real): (r: (Arena, seq<ArenaNotice>))
    requires Inv(a) && id in a.store
    ensures Inv(r.0)
    ensures r.0.grid == a.grid && r.0.gridEmpty == a.gridEmpty
    ensures id in r.0.store && r.0.store[id].color == a.store[id].color
  {
    var step := Update(a.store[id], dt);
    Dispatch(a.(store := a.store[id := step.0]), id, step.1)
  }

  /**
   * A bubble released as popping, with only the arena's handler, stays dynamic and reports
   * nothing for twenty-nine updates; on the thirtieth it reports its colour and leaves the
   * dynamic group, and the level is won then exactly when the grid is empty and at most two
   * other dynamic bubbles remain.
   */
  lemma PopFinishesOnLastFrame(a: Arena, id: nat, dt: real)
    requires Inv(a) && id in a.store && id in a.dynamic
    requires a.store[id].state.Pop? && a.store[id].state.totalFrames == 30 && a.store[id].state.frame < 30
    requires a.store[id].popHandlers == [ArenaPopFinished]
    ensures var r := UpdateBubble(a, id, dt);
            if a.store[id].state.frame == 29 then
              && id !in r.0.dynamic && r.0.dynamic == a.dynamic - {id}
              && r.1[0] == BubblePopped(a.store[id].color)
              && (Won in r.1 <==> a.gridEmpty && |a.dynamic - {id}| <= 2)
            else
              r.0.dynamic == a.dynamic && r.1 == []
  {
    var step := Update(a.store[id], dt);
    var a1 := a.(store := a.store[id := step.0]);
    if a.store[id].state.frame == 29 {
      assert step.1 == [ArenaPopFinished];
      var h := HandlePopFinished(a1, id);
      assert Dispatch(a1, id, step.1) == (Dispatch(h.0, id, []).0, h.1 + []);
    } else {
      assert step.1 == [];
    }
  }

  // ----- the ceiling -----

  /** `pygame.math.lerp(a, b, weight)`: from `x` at weight 0 to `y` at weight 1, in between on the way. */
  function Lerp(x: real, y: real, weight: real): (r: real)
    ensures weight == 0.0 ==> r == x
    ensures weight == 1.0 ==> r == y
    ensures x <= y && 0.0 <= weight <= 1.0 ==> x <= r <= y
  {
    if x <= y && 0.0 <= weight <= 1.0 then
      var d := y - x;
      ScaleWithin(d, weight);
      x + d * weight
    else
      x + (y - x) * weight
  }

  /** A fraction of a non-negative length lies between none and all of it. */
  lemma ScaleWithin(d: real, w: real)
    requires 0.0 <= d && 0.0 <= w <= 1.0
    ensures 0.0 <= d * w <= d
  {
    assert d - d * w == d * (1.0 - w);
    assert 0.0 <= d * (1.0 - w) by {
      if d > 0.0 && 1.0 - w > 0.0 {
        assert d * (1.0 - w) > 0.0;
      }
    }
  }

  /**
   * Where a descent that started with the ceiling at `initialPos` puts the ceiling once
   * `moveTime` of the transition has passed: forty pixels lower at the end.
   */
  function DescentPos(initialPos: int, moveTime: real): (r: real)
    ensures moveTime == 0.0 ==> r == initialPos as real
    ensures moveTime == ArenaDownTransitionDuration ==> r == (initialPos + ArenaDownMoveAmount) as real
    ensures 0.0 <= moveTime <= ArenaDownTransitionDuration ==>
              initialPos as real <= r <= (initialPos + ArenaDownMoveAmount) as real
    ensures 0.0 <= moveTime < ArenaDownTransitionDuration ==> r < (initialPos + ArenaDownMoveAmount) as real
  {
    Lerp(initialPos as real, (initialPos + ArenaDownMoveAmount) as real, moveTime / ArenaDownTransitionDuration)
  }

  /** The distance from the ceiling's top edge down to the grid's anchor. */
  function Gap(a: Arena): real {
    a.grid.topLeft.y - a.ceilingY as real
  }

  /** Whether an update moves the ceiling: a descent is under way or the countdown runs out now. */
  predicate Descends(a: Arena, dt: real) {
    a.moving || a.downTime - dt <= 0.0
  }

  /** The countdown part of `_update_arena_down`: when it runs out, a descent starts from the ceiling's position. */
  function CountDown(a: Arena, dt: real): Arena {
    var t := a.downTime - dt;
    if t <= 0.0 then a.(initialPos := a.ceilingY, moving := true, moveTime := 0.0, downTime := ArenaDownCooldown)
    else a.(downTime := t)
  }

  /**
   * One moving step: the ceiling's rect takes the whole part of `pos`, the grid moves by
   * `amount`, and the descent stops once the transition time has passed.
   */
  function MoveCeiling(a: Arena, dt: real, pos: real, amount: real): Arena {
    var moveTime := a.moveTime + dt;
    a.(grid := MoveDown(a.grid, amount), ceilingY := Trunc(pos), moveTime := moveTime,
       moving := moveTime < ArenaDownTransitionDuration)
  }

  /**
   * `_update_arena_down`: count down; when the countdown runs out, start a descent from the
   * ceiling's current position and restart the countdown. While descending, the ceiling's rect
   * goes to the whole part of the point the elapsed fraction of the transition gives, and the
   * grid moves by the distance from the old rect to that point, fraction included.
   */
  function UpdateArenaDown(a: Arena, dt: real): (r: Arena)
    requires Inv(a)
    ensures Inv(r)
    ensures r.grid.cells == a.grid.cells && r.store == a.store && r.dynamic == a.dynamic && r.gridEmpty == a.gridEmpty
    ensures a.downTime - dt <= 0.0 ==> r.downTime == ArenaDownCooldown && r.initialPos == a.ceilingY && r.moveTime == dt
    ensures a.downTime - dt > 0.0 ==> r.downTime == a.downTime - dt && r.initialPos == a.initialPos
    ensures Descends(a, dt) ==>
              && r.ceilingY == Trunc(DescentPos(r.initialPos, r.moveTime - dt))
              && r.grid.topLeft.y == a.grid.topLeft.y + (DescentPos(r.initialPos, r.moveTime - dt) - a.ceilingY as real)
    ensures r.grid.topLeft.x == a.grid.topLeft.x
    ensures !Descends(a, dt) ==> r == a.(downTime := a.downTime - dt)
    ensures r.moving <==> Descends(a, dt) && r.moveTime < ArenaDownTransitionDuration
  {
    var a1 := CountDown(a, dt);
    if !a1.moving then a1
    else
      var pos := DescentPos(a1.initialPos, a1.moveTime);
      MoveCeiling(a1, dt, pos, pos - a1.ceilingY as real)
  }

  /**
   * The grid drifts away from the ceiling: each moving step widens the gap by the fraction the
   * ceiling's rect drops, which is below one pixel and zero exactly when the ceiling lands on a
   * whole pixel.
   */
  lemma GridDriftsFromCeiling(a: Arena, dt: real)
    requires Inv(a)
    ensures var r := UpdateArenaDown(a, dt);
            var pos := DescentPos(r.initialPos, r.moveTime - dt);
            && (Descends(a, dt) ==> Gap(r) - Gap(a) == pos - Trunc(pos) as real)
            && (Descends(a, dt) && pos >= 0.0 ==> 0.0 <= Gap(r) - Gap(a) < 1.0)
            && (Descends(a, dt) ==> (Gap(r) == Gap(a) <==> pos == pos.Floor as real))
            && (!Descends(a, dt) ==> Gap(r) == Gap(a))
  {
    var r := UpdateArenaDown(a, dt);
    var pos := DescentPos(r.initialPos, r.moveTime - dt);
    if Descends(a, dt) {
      TruncBetween(pos, pos.Floor, pos.Floor + 1);
    }
  }

  /**
   * The drift on numbers: with the ceiling at 32, the grid anchored at 48 and frames of half a
   * second, the three frames after the countdown runs out leave the ceiling at 45 and the grid
   * at 62, a gap of 17 where it was 16.
   */
  lemma {:induction false} CeilingDriftExample(a: Arena)
    requires Inv(a) && !a.moving && a.downTime == 0.5 && a.ceilingY == 32 && a.grid.topLeft.y == 48.0
    ensures var r := UpdateArenaDown(UpdateArenaDown(UpdateArenaDown(a, 0.5), 0.5), 0.5);
            r.ceilingY == 45 && r.grid.topLeft.y == 62.0 && Gap(r) == Gap(a) + 1.0
  {
    var r1 := UpdateArenaDown(a, 0.5);
    assert r1.ceilingY == 32 && r1.grid.topLeft.y == 48.0 && r1.moveTime == 0.5 && r1.initialPos == 32;
    var r2 := UpdateArenaDown(r1, 0.5);
    assert DescentPos(32, 0.5) == 32.0 + 40.0 / 6.0;
    TruncBetween(32.0 + 40.0 / 6.0, 38, 39);
    assert r2.ceilingY == 38 && r2.grid.topLeft.y == 48.0 + 40.0 / 6.0 && r2.moveTime == 1.0;
    var r3 := UpdateArenaDown(r2, 0.5);
    assert DescentPos(32, 1.0) == 32.0 + 40.0 / 3.0;
    TruncBetween(32.0 + 40.0 / 3.0, 45, 46);
    assert r3.ceilingY == 45;
  }

  /**
   * The descent with the grid moved by what the ceiling's rect actually moves, so that the two
   * stay together.
   */
  function UpdateArenaDownSynced(a: Arena, dt: real): (r: Arena)
    requires Inv(a)
    ensures Inv(r)
    ensures r.grid.cells == a.grid.cells && r.store == a.store && r.dynamic == a.dynamic && r.gridEmpty == a.gridEmpty
    ensures r.grid.topLeft.x == a.grid.topLeft.x
    ensures r.downTime == UpdateArenaDown(a, dt).downTime && r.ceilingY == UpdateArenaDown(a, dt).ceilingY
    ensures r.moving == UpdateArenaDown(a, dt).moving && r.moveTime == UpdateArenaDown(a, dt).moveTime
  {
    var a1 := CountDown(a, dt);
    if !a1.moving then a1
    else
      var pos := DescentPos(a1.initialPos, a1.moveTime);
      MoveCeiling(a1, dt, pos, (Trunc(pos) - a1.ceilingY) as real)
  }

  /**
   * With the synced descent the grid follows the ceiling: every bubble's pixel centre keeps
   * its distance to the ceiling, and nothing moves sideways.
   */
  lemma GridFollowsCeiling(a: Arena, dt: real, c: HexCoord)
    requires Inv(a)
    ensures Gap(UpdateArenaDownSynced(a, dt)) == Gap(a)
    ensures Center(UpdateArenaDownSynced(a, dt).grid, c).y - UpdateArenaDownSynced(a, dt).ceilingY as real
            == Center(a.grid, c).y - a.ceilingY as real
    ensures Center(UpdateArenaDownSynced(a, dt).grid, c).x == Center(a.grid, c).x
  {
    var r := UpdateArenaDownSynced(a, dt);
    assert r.grid == MoveDown(a.grid, r.grid.topLeft.y - a.grid.topLeft.y);
    MoveDownShiftsCenters(a.grid, r.grid.topLeft.y - a.grid.topLeft.y, c);
  }

  /**
   * A descent runs from the ceiling's position when it started to forty pixels below it:
   * whenever an update moves the ceiling with the elapsed time within the transition, the
   * ceiling's rect ends up in that range.
   */
  lemma DescentBounded(a: Arena, dt: real)
    requires Inv(a)
    requires a.downTime - dt <= 0.0 || (a.moving && 0.0 <= a.moveTime <= ArenaDownTransitionDuration)
    ensures var r := UpdateArenaDown(a, dt);
            r.initialPos <= r.ceilingY <= r.initialPos + ArenaDownMoveAmount
  {
    var r := UpdateArenaDown(a, dt);
    TruncBetween(DescentPos(r.initialPos, r.moveTime - dt), r.initialPos, r.initialPos + ArenaDownMoveAmount);
  }

  /**
   * The ceiling never reaches the end of its descent: the weight is taken before the elapsed
   * time grows, so every step, the last one included, is weighted below one, and a ceiling that
   * starts at or below the window's top edge stops short of forty pixels down.
   */
  lemma DescentStopsShort(a: Arena, dt: real)
    requires Inv(a)
    requires a.downTime - dt <= 0.0 || (a.moving && 0.0 <= a.moveTime < ArenaDownTransitionDuration)
    ensures var r := UpdateArenaDown(a, dt);
            && (r.initialPos >= 0 ==> r.ceilingY < r.initialPos + ArenaDownMoveAmount)
            && r.moveTime - dt < ArenaDownTransitionDuration
  {
    var a1 := CountDown(a, dt);
    assert a1.moving && 0.0 <= a1.moveTime < ArenaDownTransitionDuration;
    var pos := DescentPos(a1.initialPos, a1.moveTime);
    assert pos < (a1.initialPos + ArenaDownMoveAmount) as real;
    var r := UpdateArenaDown(a, dt);
    assert r.ceilingY == Trunc(pos) && r.initialPos == a1.initialPos && r.moveTime == a1.moveTime + dt;
  }

  /**
   * With half-second frames the last step of a descent is taken at two and a half seconds, and
   * leaves the ceiling 33 pixels below where it started and the descent over.
   */
  lemma LastStepHalfSecond(a: Arena)
    requires Inv(a) && a.moving && a.moveTime == 2.5 && a.downTime > 0.5 && a.initialPos == 32
    ensures var r := UpdateArenaDown(a, 0.5);
            !r.moving && r.ceilingY == 65 && r.ceilingY == r.initialPos + 33
  {
    var r := UpdateArenaDown(a, 0.5);
    assert DescentPos(32, 2.5) == 32.0 + 40.0 * 2.5 / 3.0;
    TruncBetween(DescentPos(32, 2.5), 65, 66);
  }
}

=== FILE: arith.dfy ===
/**
 * Facts about `%` that the solver does not find on its own when the modulus is a variable.
 * Python's `%` and Dafny's agree for a positive modulus: the result lies in `[0, n)`.
 */
module Arith {

  /** Python's and Dafny's `%` leave a value already in `[0, n)` alone. */
  lemma ModBelow(x: int, n: int)
    requires 0 <= x < n
    ensures x % n == x
  {
  }

  /** `n % n` is 0. */
  lemma ModSelf(n: int)
    requires n > 0
    ensures n % n == 0
  {
  }

  /** `-1 % n` is `n - 1`: the modulo is non-negative, as in Python. */
  lemma ModMinusOne(n: int)
    requires n > 0
    ensures (-1) % n == n - 1
  {
  }

  /**
   * Python's `int(x)` on a float, which is also what a pygame `Rect` keeps of a float
   * coordinate: the whole part, truncated toward zero.
   */
  function Trunc(x: real): (r: int)
    ensures x >= 0.0 ==> r as real <= x < r as real + 1.0
    ensures x < 0.0 ==> r as real - 1.0 < x <= r as real
  {
    if x >= 0.0 then x.Floor else -((-x).Floor)
  }

  /** Truncating a value between two whole numbers stays between them; a whole number is kept. */
  lemma TruncBetween(x: real, lo: int, hi: int)
    requires lo as real <= x <= hi as real
    ensures lo <= Trunc(x) <= hi
    ensures x == Trunc(x) as real <==> x == x.Floor as real
  {
  }
}

=== FILE: bubbles.dfy ===
/**
 * `Bubble`: a coloured sprite with a state and a list of handlers called when its pop
 * animation finishes. Its physics (position, speed, direction) is not modelled; a bubble
 * here is its colour, its state, the index of the image of its colour it shows, and its
 * handlers.
 */
module Bubbles {
  import opened Colors
  import opened BubbleStates
  import opened Settings
  import opened Handlers

  /** A pop-finished handler: the arena's own, or any other subscriber, compared by identity. */
  datatype PopHandler = ArenaPopFinished | Listener(id: nat)

  /** `image` indexes the sprite list of the bubble's colour: 0 is the bubble, 1.. the pop animation. */
  datatype Bubble = Bubble(color: Color, state: BubbleState, image: nat, popHandlers: seq<PopHandler>)

  /** `FRAMES_PER_IMAGE`: the animation frames spread evenly over the images after the first. */
  const FramesPerImage: nat := TotalPopAnimationFrames / (SpritesPerColor - 1)

  /** What every bubble keeps: its image is one of its colour's sprites, and a pop animation has the sprites after the first. */
  predicate Valid(b: Bubble) {
    && b.image < SpritesPerColor
    && (b.state.Pop? ==> b.state.spriteCount == SpritesPerColor - 1)
  }

  /** `Bubble(physics, color)`: idle, showing the first sprite of its colour, with no handlers. */
  function NewBubble(color: Color): (b: Bubble)
    ensures b.color == color && b.state == Idle && b.popHandlers == []
    ensures Valid(b)
  {
    Bubble(color, Idle, 0, [])
  }

  /** `stop`: back to idle, whatever the state was. */
  function Stop(b: Bubble): (r: Bubble)
    ensures r.state == Idle
    ensures r.color == b.color && r.image == b.image && r.popHandlers == b.popHandlers
    ensures Valid(b) ==> Valid(r)
  {
    b.(state := Idle)
  }

  /** `shot(direction)`: the bubble starts flying; the direction belongs to its physics. */
  function Shoot(b: Bubble): (r: Bubble)
    ensures r.state == Shot
    ensures r.color == b.color && r.image == b.image && r.popHandlers == b.popHandlers
    ensures Valid(b) ==> Valid(r)
  {
    b.(state := Shot)
  }

  /** `set_floating(duration)`: a fresh timer that pops the bubble after `duration` seconds. */
  function SetFloating(b: Bubble, duration: real): (r: Bubble)
    ensures r.state.Floating? && r.state.elapsed == 0.0 && r.state.duration == duration
    ensures r.color == b.color && r.image == b.image && r.popHandlers == b.popHandlers
    ensures Valid(b) ==> Valid(r)
  {
    b.(state := Floating(0.0, duration))
  }

  /**
   * `play_pop_animation`: a pop state at frame 0 over the colour's sprites after the first,
   * thirty frames long, five frames per image.
   */
  function PlayPopAnimation(b: Bubble): (r: Bubble)
    ensures r.state.Pop? && r.state.frame == 0
    ensures r.state.totalFrames == 30 && r.state.framesPerImage == 5 && r.state.spriteCount == 6
    ensures r.color == b.color && r.image == b.image && r.popHandlers == b.popHandlers
    ensures Valid(b) ==> Valid(r)
  {
    b.(state := Pop(0, TotalPopAnimationFrames, FramesPerImage, SpritesPerColor - 1))
  }

  /** The `floating` property: the state's name is "floating". */
  predicate IsFloating(b: Bubble) {
    BubbleStates.Name(b.state) == "floating"
  }

  /** The `shoted` property: the state's name is "shoted". */
  predicate IsShot(b: Bubble) {
    BubbleStates.Name(b.state) == "shoted"
  }

  /** The two properties read the kind of state, and no bubble is both floating and shot. */
  lemma FloatingOrShot(b: Bubble)
    ensures IsFloating(b) <==> b.state.Floating?
    ensures IsShot(b) <==> b.state.Shot?
    ensures !(IsFloating(b) && IsShot(b))
  {
    NameIdentifiesKind(b.state);
  }

  /** `register_on_pop_animation_finished`. */
  function RegisterPopFinished(b: Bubble, h: PopHandler): (r: Bubble)
    ensures r.popHandlers == Register(b.popHandlers, h)
    ensures r.color == b.color && r.state == b.state && r.image == b.image
  {
    b.(popHandlers := Register(b.popHandlers, h))
  }

  /** `unregister_on_pop_animation_finished`: every equal handler goes, the others keep their order. */
  function UnregisterPopFinished(b: Bubble, h: PopHandler): (r: Bubble)
    ensures h !in r.popHandlers
    ensures forall x :: x in r.popHandlers <==> x in b.popHandlers && x != h
    ensures r.popHandlers == Unregister(b.popHandlers, h)
    ensures r.color == b.color && r.state == b.state && r.image == b.image
  {
    b.(popHandlers := Unregister(b.popHandlers, h))
  }

  /**
   * `update(dt)`: the state's update. Idle and shot bubbles change nothing here (a shot bubble
   * only moves). A floating bubble adds `dt` to its timer and starts its pop animation once
   * the timer reaches its duration. A popping bubble shows the next image and, on every
   * update from the last frame on, calls its handlers (the list as it was when the call
   * started) with itself; the handlers called are returned.
   */
  function Update(b: Bubble, dt: real): (r: (Bubble, seq<PopHandler>))
    ensures r.0.color == b.color && r.0.popHandlers == b.popHandlers
    ensures Valid(b) ==> Valid(r.0)
    ensures !b.state.Pop? ==> r.1 == []
    ensures b.state.Idle? || b.state.Shot? ==> r.0 == b
    ensures b.state.Floating? ==>
              if b.state.elapsed + dt >= b.state.duration then r.0 == PlayPopAnimation(b)
              else r.0.state == Floating(b.state.elapsed + dt, b.state.duration) && r.0.image == b.image
    ensures b.state.Pop? ==>
              && r.0.state == b.state.(frame := b.state.frame + 1)
              && r.0.image == 1 + (b.state.frame / b.state.framesPerImage) % b.state.spriteCount
              && r.1 == (if b.state.frame + 1 >= b.state.totalFrames then b.popHandlers else [])
  {
    match b.state
    case Idle => (b, [])
    case Shot => (b, [])
    case Floating(elapsed, duration) =>
      var t := FloatingUpdate(elapsed, duration, dt);
      if t.finished then (PlayPopAnimation(b), [])
      else (b.(state := Floating(t.elapsed, duration)), [])
    case Pop(frame, total, perImage, count) =>
      var t := PopUpdate(frame, total, perImage, count);
      (b.(state := Pop(t.frame, total, perImage, count), image := 1 + t.image),
       if t.finished then b.popHandlers else [])
  }

  /** The handlers called by a run of updates, in order, and the bubble afterwards. */
  function UpdateRun(b: Bubble, dts: seq<real>): (r: (Bubble, seq<PopHandler>))
    decreases |dts|
  {
    if dts == [] then (b, [])
    else
      var step := Update(b, dts[0]);
      var rest := UpdateRun(step.0, dts[1..]);
      (rest.0, step.1 + rest.1)
  }

  /**
   * A bubble that starts popping calls no handler for its first twenty-nine updates and
   * calls every handler, once each and in registration order, on the thirtieth.
   */
  lemma {:induction false} PopCallsHandlersOnLastFrame(b: Bubble, dts: seq<real>)
    requires b.state.Pop? && b.state.totalFrames == 30 && b.state.frame + |dts| <= 30
    ensures UpdateRun(b, dts).0.state == b.state.(frame := b.state.frame + |dts|)
    ensures UpdateRun(b, dts).1 == if b.state.frame + |dts| == 30 && |dts| > 0 then b.popHandlers else []
    decreases |dts|
  {
    if dts != [] {
      var step := Update(b, dts[0]);
      PopCallsHandlersOnLastFrame(step.0, dts[1..]);
    }
  }

  /**
   * Starting from `play_pop_animation`, thirty updates end on the last animation image (the
   * seventh sprite of the colour) with exactly one call of every handler.
   */
  lemma PopAnimationFromStart(b: Bubble, dts: seq<real>)
    requires |dts| == 30
    ensures UpdateRun(PlayPopAnimation(b), dts).1 == b.popHandlers
    ensures UpdateRun(PlayPopAnimation(b), dts).0.image == 6
  {
    var p := PlayPopAnimation(b);
    PopCallsHandlersOnLastFrame(p, dts);
    LastImage(p, dts);
  }

  /** The image shown after a run of pop updates is the one of the last frame played. */
  lemma {:induction false} LastImage(b: Bubble, dts: seq<real>)
    requires b.state.Pop? && |dts| > 0
    ensures UpdateRun(b, dts).0.image ==
              1 + ((b.state.frame + |dts| - 1) / b.state.framesPerImage) % b.state.spriteCount
    decreases |dts|
  {
    if |dts| > 1 {
      LastImage(Update(b, dts[0]).0, dts[1..]);
    }
  }
}

=== FILE: bubblestates.dfy ===
/**
 * The states a bubble moves through: idle (in the launcher or on the grid), shot, floating
 * after losing its support, and popping. The two timed states advance on every update and
 * say whether their finisher runs on that update.
 */
module BubbleStates {

  /** A whole number of at least one. */
  type Positive = n: nat | n > 0 witness 1

  /**
   * `Idle`, `Shot`, `Floating` (time spent floating and the duration after which it pops) and
   * `Pop` (frames played so far, frames in the animation, frames each image stays on screen
   * and the number of animation images). The finisher callbacks are the bubble's; see `Bubbles`.
   */
  datatype BubbleState =
    | Idle
    | Shot
    | Floating(elapsed: real, duration: real)
    | Pop(frame: nat, totalFrames: nat, framesPerImage: Positive, spriteCount: Positive)

  /** The `name` each state passes to the base state. */
  function Name(s: BubbleState): string {
    match s
    case Idle => "idle"
    case Shot => "shoted"
    case Floating(_, _) => "floating"
    case Pop(_, _, _, _) => "pop"
  }

  /** The four names are distinct, so a name tells the kind of state. */
  lemma NameIdentifiesKind(s: BubbleState)
    ensures Name(s) == "idle" <==> s.Idle?
    ensures Name(s) == "shoted" <==> s.Shot?
    ensures Name(s) == "floating" <==> s.Floating?
    ensures Name(s) == "pop" <==> s.Pop?
  {
  }

  /** The outcome of one `Floating.update`: the new time spent floating and whether `on_finish` runs. */
  datatype FloatTick = FloatTick(elapsed: real, finished: bool)

  /** `Floating.update`: add `dt` to the time spent floating; finish once it reaches the duration. */
  function FloatingUpdate(elapsed: real, duration: real, dt: real): (r: FloatTick)
    ensures r.elapsed - elapsed == dt
    ensures r.finished <==> r.elapsed >= duration
  {
    var t := elapsed + dt;
    FloatTick(t, t >= duration)
  }

  /** The time spent floating after a run of updates, and how many of them ran the finisher. */
  function FloatingRun(elapsed: real, duration: real, dts: seq<real>): (r: (real, nat))
    decreases |dts|
  {
    if dts == [] then (elapsed, 0)
    else
      var t := FloatingUpdate(elapsed, duration, dts[0]);
      var rest := FloatingRun(t.elapsed, duration, dts[1..]);
      (rest.0, rest.1 + if t.finished then 1 else 0)
  }

  /** The sum of a run of time steps. */
  function Total(dts: seq<real>): real {
    if dts == [] then 0.0 else dts[0] + Total(dts[1..])
  }

  /**
   * The timer accumulates every step, and with non-negative steps the finisher runs on every
   * update from the first one whose accumulated time reaches the duration: it is not limited
   * to one call. With all steps non-negative and the run starting below the duration, the
   * number of finisher calls is zero exactly when the total stays below the duration.
   */
  lemma {:induction false} FloatingRunAccumulates(elapsed: real, duration: real, dts: seq<real>)
    ensures FloatingRun(elapsed, duration, dts).0 == elapsed + Total(dts)
    ensures (forall i :: 0 <= i < |dts| ==> dts[i] >= 0.0) && elapsed >= duration ==>
              FloatingRun(elapsed, duration, dts).1 == |dts|
    ensures (forall i :: 0 <= i < |dts| ==> dts[i] >= 0.0) ==>
              (FloatingRun(elapsed, duration, dts).1 == 0 <==> dts == [] || elapsed + Total(dts) < duration)
    decreases |dts|
  {
    if dts != [] {
      var t := FloatingUpdate(elapsed, duration, dts[0]);
      FloatingRunAccumulates(t.elapsed, duration, dts[1..]);
      if forall i :: 0 <= i < |dts| ==> dts[i] >= 0.0 {
        assert forall i :: 0 <= i < |dts[1..]| ==> dts[1..][i] >= 0.0 by {
          forall i | 0 <= i < |dts[1..]| ensures dts[1..][i] >= 0.0 {
            assert dts[1..][i] == dts[i + 1];
          }
        }
        TotalNonNegative(dts[1..]);
      }
    }
  }

  /** A run of non-negative steps has a non-negative total. */
  lemma {:induction false} TotalNonNegative(dts: seq<real>)
    requires forall i :: 0 <= i < |dts| ==> dts[i] >= 0.0
    ensures Total(dts) >= 0.0
    decreases |dts|
  {
    if dts != [] {
      assert forall i :: 0 <= i < |dts[1..]| ==> dts[1..][i] == dts[i + 1];
      TotalNonNegative(dts[1..]);
    }
  }

  /** The outcome of one `Pop.update`: the frame counter afterwards, the animation image shown, and whether `on_finish` runs. */
  datatype PopTick = PopTick(frame: nat, image: nat, finished: bool)

  /**
   * `Pop.update`: show image `(frame // frames_per_image) % len(sprites)`, count the frame,
   * and finish on every update whose new count has reached the total.
   */
  function PopUpdate(frame: nat, totalFrames: nat, framesPerImage: Positive, spriteCount: Positive): (r: PopTick)
    ensures r.frame == frame + 1
    ensures r.image < spriteCount
    ensures r.finished <==> r.frame >= totalFrames
  {
    PopTick(frame + 1, (frame / framesPerImage) % spriteCount, frame + 1 >= totalFrames)
  }

  /** How many of `k` consecutive `Pop.update` calls, starting at `frame`, run the finisher. */
  function PopFinishCount(frame: nat, totalFrames: nat, framesPerImage: Positive, spriteCount: Positive, k: nat): nat
    decreases k
  {
    if k == 0 then 0
    else
      var t := PopUpdate(frame, totalFrames, framesPerImage, spriteCount);
      (if t.finished then 1 else 0) + PopFinishCount(t.frame, totalFrames, framesPerImage, spriteCount, k - 1)
  }

  /**
   * The finisher runs on the update that reaches the total and on every update after it:
   * `k` updates from `frame` run it once for each new count in `frame + 1 .. frame + k` that is
   * at least the total.
   */
  lemma {:induction false} PopFinishCountFormula(frame: nat, totalFrames: nat, framesPerImage: Positive, spriteCount: Positive, k: nat)
    ensures var first := if frame + 1 >= totalFrames then 1 else totalFrames - frame;
            PopFinishCount(frame, totalFrames, framesPerImage, spriteCount, k) == if k < first then 0 else k - first + 1
    decreases k
  {
    if k > 0 {
      PopFinishCountFormula(frame + 1, totalFrames, framesPerImage, spriteCount, k - 1);
    }
  }

  /**
   * With the game's pop animation (five frames per image, six images, thirty frames) the
   * counter never wraps before the end: frame `f` shows image `f / 5`, so each image is shown
   * for five consecutive frames, in order, and the finisher first runs on the thirtieth update.
   */
  lemma PopAnimationPlaysInOrder(frame: nat)
    requires frame < 30
    ensures PopUpdate(frame, 30, 5, 6).image == frame / 5
    ensures PopUpdate(frame, 30, 5, 6).finished <==> frame == 29
  {
  }
}

=== FILE: colors.dfy ===
/** The eight bubble colours. */
module Colors {

  datatype Color = Red | Green | Blue | Yellow | Black | Gray | Purple | Orange

  /** Every colour once, in declaration order (the order of `list(BubbleColor)`). */
  const AllColors: seq<Color> := [Red, Green, Blue, Yellow, Black, Gray, Purple, Orange]

  /** The enum member name, which level files use (case-insensitively) to name a colour. */
  function Name(c: Color): string {
    match c
    case Red => "RED"
    case Green => "GREEN"
    case Blue => "BLUE"
    case Yellow => "YELLOW"
    case Black => "BLACK"
    case Gray => "GRAY"
    case Purple => "PURPLE"
    case Orange => "ORANGE"
  }

  /** The colour list is complete and has no repetition. */
  lemma AllColorsEnumerates(c: Color)
    ensures c in AllColors
    ensures forall i, j :: 0 <= i < j < |AllColors| ==> AllColors[i] != AllColors[j]
  {
  }

  /** Distinct colours have distinct names, so a name identifies at most one colour. */
  lemma NameInjective(c: Color, d: Color)
    ensures Name(c) == Name(d) <==> c == d
  {
  }
}

=== FILE: floodfill.dfy ===
/**
 * The breadth-first flood fill of `HexGrid._get_connected_bubbles`, over the occupied
 * cells of a grid, optionally restricted to one colour; and the reachability relation
 * that it computes.
 */
module FloodFill {
  import opened Wrappers
  import opened Colors
  import opened HexCoords
  import opened Seqs

  /** The grid's `hex_to_bubble` map; a bubble is identified by its cell. */
  type Cells = map<HexCoord, Color>

  /** The fill expands through `c`: the cell holds a bubble, of the filter colour if there is one. */
  predicate Matches(cells: Cells, filter: Option<Color>, c: HexCoord) {
    c in cells && (filter.None? || cells[c] == filter.value)
  }

  /** The cells the fill may still visit; shrinks with every matching cell visited. */
  function MatchingCells(cells: Cells, filter: Option<Color>): set<HexCoord> {
    set c | c in cells && Matches(cells, filter, c)
  }

  /** A walk through matching cells, each step to a lattice neighbour. */
  ghost predicate IsPath(cells: Cells, filter: Option<Color>, p: seq<HexCoord>) {
    && |p| > 0
    && (forall i :: 0 <= i < |p| ==> Matches(cells, filter, p[i]))
    && (forall i :: 0 <= i < |p| - 1 ==> Adjacent(p[i], p[i + 1]))
  }

  /** `target` is joined to `source` by a walk through matching cells. */
  ghost predicate Reachable(cells: Cells, filter: Option<Color>, source: HexCoord, target: HexCoord) {
    exists p :: IsPath(cells, filter, p) && p[0] == source && p[|p| - 1] == target
  }

  /**
   * The BFS loop: `queue` is `coords_to_check`, `checked` is `coords_checked`, `found`
   * is `connected_bubbles`. The head of the queue is marked checked; if it matches it is
   * appended to `found` and its neighbours that are neither queued nor checked are queued.
   */
  function Explore(cells: Cells, filter: Option<Color>, queue: seq<HexCoord>,
                   checked: set<HexCoord>, found: seq<HexCoord>): (r: seq<HexCoord>)
    requires NoDup(queue)
    requires forall q :: q in queue ==> q !in checked
    requires forall f :: f in found ==> Matches(cells, filter, f)
    ensures found <= r
    ensures forall c :: c in r ==> Matches(cells, filter, c)
    decreases MatchingCells(cells, filter) - checked, |queue|
  {
    if queue == [] then found
    else
      var q, rest := queue[0], queue[1..];
      var seen := checked + {q};
      if !Matches(cells, filter, q) then
        assert MatchingCells(cells, filter) - seen == MatchingCells(cells, filter) - checked;
        Explore(cells, filter, rest, seen, found)
      else
        var unseen := Drop(Neighbors(q), Elements(rest) + seen);
        NeighborsDistinct(q);
        NoDupConcat(rest, unseen);
        assert q in MatchingCells(cells, filter) - checked;
        Explore(cells, filter, rest + unseen, seen, found + [q])
  }

  /** `_get_connected_bubbles(seed, filter)`: the cells the fill visits, in visiting order. */
  function Connected(cells: Cells, seed: HexCoord, filter: Option<Color>): (r: seq<HexCoord>)
    ensures NoDup(r)
    ensures forall c :: c in r <==> Reachable(cells, filter, seed, c)
  {
    ExploreComponent(cells, filter, seed, [seed], {}, []);
    Explore(cells, filter, [seed], {}, [])
  }

  /** What stays true between two iterations of the BFS loop. */
  ghost predicate Frontier(cells: Cells, filter: Option<Color>, seed: HexCoord,
                           queue: seq<HexCoord>, checked: set<HexCoord>, found: seq<HexCoord>) {
    && FrontierShape(cells, filter, seed, queue, checked, found)
    && (forall f :: f in found ==> Reachable(cells, filter, seed, f))
  }

  /** The part of the loop invariant that does not speak of walks. */
  ghost predicate FrontierShape(cells: Cells, filter: Option<Color>, seed: HexCoord,
                                queue: seq<HexCoord>, checked: set<HexCoord>, found: seq<HexCoord>) {
    && NoDup(queue)
    && (forall q :: q in queue ==> q !in checked)
    && NoDup(found)
    && (forall f :: f in found ==> f in checked)
    && (forall c :: c in checked && Matches(cells, filter, c) ==> c in found)
    && (forall f, n :: f in found && n in Neighbors(f) ==> n in checked || n in queue)
    && (seed in checked || seed in queue)
    && (forall q :: q in queue ==> q == seed || exists f :: f in found && Adjacent(f, q))
  }

  lemma ReachableEnds(cells: Cells, filter: Option<Color>, source: HexCoord, target: HexCoord)
    requires Reachable(cells, filter, source, target)
    ensures Matches(cells, filter, source) && Matches(cells, filter, target)
  {
    var p :| IsPath(cells, filter, p) && p[0] == source && p[|p| - 1] == target;
    assert Matches(cells, filter, p[0]) && Matches(cells, filter, p[|p| - 1]);
  }

  /** A matching cell reaches itself. */
  lemma ReachableSelf(cells: Cells, filter: Option<Color>, c: HexCoord)
    requires Matches(cells, filter, c)
    ensures Reachable(cells, filter, c, c)
  {
    assert IsPath(cells, filter, [c]);
  }

  /** A walk extends by one step into a matching neighbour. */
  lemma ReachableExtend(cells: Cells, filter: Option<Color>, source: HexCoord, mid: HexCoord, target: HexCoord)
    requires Reachable(cells, filter, source, mid)
    requires Adjacent(mid, target) && Matches(cells, filter, target)
    ensures Reachable(cells, filter, source, target)
  {
    var p :| IsPath(cells, filter, p) && p[0] == source && p[|p| - 1] == mid;
    var p' := p + [target];
    forall i | 0 <= i < |p'|
      ensures Matches(cells, filter, p'[i])
    {
      if i < |p| {
        assert p'[i] == p[i];
      }
    }
    forall i | 0 <= i < |p'| - 1
      ensures Adjacent(p'[i], p'[i + 1])
    {
      if i < |p| - 1 {
        assert p'[i] == p[i] && p'[i + 1] == p[i + 1];
      } else {
        assert p'[i] == mid && p'[i + 1] == target;
      }
    }
    assert IsPath(cells, filter, p');
  }

  /** Every cell of a walk that starts inside a neighbour-closed set stays inside it. */
  lemma {:induction false} PathStaysInside(cells: Cells, filter: Option<Color>, p: seq<HexCoord>, s: seq<HexCoord>, k: nat)
    requires IsPath(cells, filter, p) && p[0] in s
    requires forall f, n :: f in s && n in Neighbors(f) && Matches(cells, filter, n) ==> n in s
    requires k < |p|
    ensures p[k] in s
  {
    if k > 0 {
      PathStaysInside(cells, filter, p, s, k - 1);
      assert Adjacent(p[k - 1], p[k]);
      assert Matches(cells, filter, p[k]);
    }
  }

  /** One iteration of the BFS loop keeps the frontier invariant. */
  lemma FrontierStep(cells: Cells, filter: Option<Color>, seed: HexCoord,
                     queue: seq<HexCoord>, checked: set<HexCoord>, found: seq<HexCoord>)
    requires Frontier(cells, filter, seed, queue, checked, found)
    requires queue != []
    ensures var q, rest, seen := queue[0], queue[1..], checked + {queue[0]};
            if !Matches(cells, filter, q) then Frontier(cells, filter, seed, rest, seen, found)
            else Frontier(cells, filter, seed, rest + Drop(Neighbors(q), Elements(rest) + seen), seen, found + [q])
  {
    var q, rest, seen := queue[0], queue[1..], checked + {queue[0]};
    assert forall x :: x in queue <==> x == q || x in rest;
    assert q !in rest;
    if Matches(cells, filter, q) {
      FrontierVisit(cells, filter, seed, queue, checked, found);
    } else {
      forall f, n | f in found && n in Neighbors(f)
        ensures n in seen || n in rest
      {
      }
    }
  }

  /** The step of the BFS loop that visits a matching cell keeps the frontier invariant. */
  lemma FrontierVisit(cells: Cells, filter: Option<Color>, seed: HexCoord,
                      queue: seq<HexCoord>, checked: set<HexCoord>, found: seq<HexCoord>)
    requires Frontier(cells, filter, seed, queue, checked, found)
    requires queue != [] && Matches(cells, filter, queue[0])
    ensures var q, rest, seen := queue[0], queue[1..], checked + {queue[0]};
            Frontier(cells, filter, seed, rest + Drop(Neighbors(q), Elements(rest) + seen), seen, found + [q])
  {
    var q, rest, seen := queue[0], queue[1..], checked + {queue[0]};
    assert forall x :: x in queue <==> x == q || x in rest;
    assert q !in rest;
    var unseen := Drop(Neighbors(q), Elements(rest) + seen);
    var queue', found' := rest + unseen, found + [q];
    NeighborsDistinct(q);
    NoDupConcat(rest, unseen);
    assert q !in found;
    assert NoDup([q]);
    NoDupConcat(found, [q]);
    assert Reachable(cells, filter, seed, q) by {
      if q == seed {
        ReachableSelf(cells, filter, q);
      } else {
        var f :| f in found && Adjacent(f, q);
        ReachableExtend(cells, filter, seed, f, q);
      }
    }
    assert forall x :: x in found' <==> x in found || x == q;
    assert forall x :: x in queue' <==> x in rest || x in unseen;
    forall f, n | f in found' && n in Neighbors(f)
      ensures n in seen || n in queue'
    {
      if f == q && n !in seen && n !in rest {
        assert n in unseen;
      }
    }
    forall x | x in queue'
      ensures x == seed || exists f :: f in found' && Adjacent(f, x)
    {
      if x in rest {
        if x != seed {
          var f :| f in found && Adjacent(f, x);
          assert f in found';
        }
      } else {
        assert x in Neighbors(q) && q in found';
      }
    }
  }

  /** When the queue runs dry, everything reachable from the seed has been found. */
  lemma FrontierComplete(cells: Cells, filter: Option<Color>, seed: HexCoord,
                         checked: set<HexCoord>, found: seq<HexCoord>, c: HexCoord)
    requires FrontierShape(cells, filter, seed, [], checked, found)
    requires Reachable(cells, filter, seed, c)
    ensures c in found
  {
    assert seed in checked;
    FoundClosed(cells, filter, [], checked, found);
    var p :| IsPath(cells, filter, p) && p[0] == seed && p[|p| - 1] == c;
    assert Matches(cells, filter, p[0]);
    PathStaysInside(cells, filter, p, found, |p| - 1);
  }

  /** With the queue empty, a found set whose cells' neighbours were all checked is closed under matching neighbours. */
  lemma FoundClosed(cells: Cells, filter: Option<Color>, queue: seq<HexCoord>, checked: set<HexCoord>, found: seq<HexCoord>)
    requires queue == []
    requires forall f, n :: f in found && n in Neighbors(f) ==> n in checked || n in queue
    requires forall c :: c in checked && Matches(cells, filter, c) ==> c in found
    ensures forall f, n :: f in found && n in Neighbors(f) && Matches(cells, filter, n) ==> n in found
  {
  }

  /** The BFS loop, started from the frontier invariant, returns exactly the cells reachable from the seed, once each. */
  lemma {:induction false} ExploreComponent(cells: Cells, filter: Option<Color>, seed: HexCoord,
                                            queue: seq<HexCoord>, checked: set<HexCoord>, found: seq<HexCoord>)
    requires Frontier(cells, filter, seed, queue, checked, found)
    ensures forall f :: f in found ==> Matches(cells, filter, f)
    ensures NoDup(Explore(cells, filter, queue, checked, found))
    ensures forall c :: c in Explore(cells, filter, queue, checked, found) <==> Reachable(cells, filter, seed, c)
    decreases MatchingCells(cells, filter) - checked, |queue|
  {
    forall f | f in found ensures Matches(cells, filter, f) {
      ReachableEnds(cells, filter, seed, f);
    }
    if queue == [] {
      forall c | Reachable(cells, filter, seed, c)
        ensures c in found
      {
        FrontierComplete(cells, filter, seed, checked, found, c);
      }
    } else {
      var q, rest, seen := queue[0], queue[1..], checked + {queue[0]};
      FrontierStep(cells, filter, seed, queue, checked, found);
      if !Matches(cells, filter, q) {
        assert MatchingCells(cells, filter) - seen == MatchingCells(cells, filter) - checked;
        assert Explore(cells, filter, queue, checked, found) == Explore(cells, filter, rest, seen, found);
        ExploreComponent(cells, filter, seed, rest, seen, found);
      } else {
        var queue' := rest + Drop(Neighbors(q), Elements(rest) + seen);
        assert q in MatchingCells(cells, filter) - checked;
        assert Explore(cells, filter, queue, checked, found) == Explore(cells, filter, queue', seen, found + [q]);
        ExploreComponent(cells, filter, seed, queue', seen, found + [q]);
      }
    }
  }

  /** The fill contains its seed exactly when the seed is occupied and matches the filter. */
  lemma ConnectedHasSeed(cells: Cells, seed: HexCoord, filter: Option<Color>)
    ensures seed in Connected(cells, seed, filter) <==> Matches(cells, filter, seed)
  {
    if Matches(cells, filter, seed) {
      ReachableSelf(cells, filter, seed);
    } else if seed in Connected(cells, seed, filter) {
      ReachableEnds(cells, filter, seed, seed);
    }
  }

  /** Every cell of the fill is occupied and matches the filter, and the fill is closed under matching neighbours. */
  lemma ConnectedClosed(cells: Cells, seed: HexCoord, filter: Option<Color>, c: HexCoord, n: HexCoord)
    ensures c in Connected(cells, seed, filter) ==> Matches(cells, filter, c)
    ensures c in Connected(cells, seed, filter) && Adjacent(c, n) && Matches(cells, filter, n) ==>
              n in Connected(cells, seed, filter)
  {
    if c in Connected(cells, seed, filter) {
      ReachableEnds(cells, filter, seed, c);
      if Adjacent(c, n) && Matches(cells, filter, n) {
        ReachableExtend(cells, filter, seed, c, n);
      }
    }
  }
}

=== FILE: handlers.dfy ===
/**
 * Subscriber lists. Every emitter in the game keeps a Python list of callbacks, appends on
 * register, filters out every equal callback on unregister, and calls the list in order.
 * Here a callback is any value compared by equality; calling the list is returning it.
 */
module Handlers {

  /** `register_*`: append. */
  function Register<H>(hs: seq<H>, h: H): (r: seq<H>)
    ensures |r| == |hs| + 1 && r[|hs|] == h
    ensures r[..|hs|] == hs
  {
    hs + [h]
  }

  /** `unregister_*`: `[x for x in hs if x != h]`. */
  function Unregister<H(==,!new)>(hs: seq<H>, h: H): (r: seq<H>)
    ensures forall x :: x in r <==> x in hs && x != h
    ensures |r| == |hs| - Occurrences(hs, h)
  {
    if hs == [] then []
    else if hs[0] == h then Unregister(hs[1..], h)
    else [hs[0]] + Unregister(hs[1..], h)
  }

  /** How many times `h` is registered. */
  function Occurrences<H(==,!new)>(hs: seq<H>, h: H): (n: nat)
    ensures n <= |hs|
    ensures n == 0 <==> h !in hs
  {
    if hs == [] then 0
    else (if hs[0] == h then 1 else 0) + Occurrences(hs[1..], h)
  }

  /**
   * Unregistering works callback by callback and keeps the calling order: on a concatenation it
   * is the concatenation of the two filtered halves, and a single callback survives exactly when
   * it differs from `h`. Together these fix the result as the list with every copy of `h` struck out.
   */
  lemma {:induction false} UnregisterKeepsOrder<H(!new)>(a: seq<H>, b: seq<H>, h: H, x: H)
    ensures Unregister(a + b, h) == Unregister(a, h) + Unregister(b, h)
    ensures Unregister([x], h) == (if x == h then [] else [x])
  {
    assert Unregister([x], h) == (if x == h then [] else [x]) by {
      assert [x][1..] == [];
    }
    if a == [] {
      assert a + b == b;
    } else {
      assert (a + b)[1..] == a[1..] + b;
      UnregisterKeepsOrder(a[1..], b, h, x);
    }
  }

  /** Registering and then unregistering a callback removes every copy of it and nothing else. */
  lemma {:induction false} UnregisterAfterRegister<H(!new)>(hs: seq<H>, h: H)
    ensures Unregister(Register(hs, h), h) == Unregister(hs, h)
  {
    if hs == [] {
      assert Register(hs, h) == [h];
      assert Unregister([h], h) == Unregister([h][1..], h);
    } else {
      assert Register(hs, h)[1..] == Register(hs[1..], h);
      UnregisterAfterRegister(hs[1..], h);
    }
  }

  /** Unregistering twice is the same as once. */
  lemma {:induction false} UnregisterIdempotent<H(!new)>(hs: seq<H>, h: H)
    ensures Unregister(Unregister(hs, h), h) == Unregister(hs, h)
  {
    if hs != [] {
      UnregisterIdempotent(hs[1..], h);
      if hs[0] != h {
        assert ([hs[0]] + Unregister(hs[1..], h))[1..] == Unregister(hs[1..], h);
      }
    }
  }

  /** Unregistering a callback that is not registered changes nothing. */
  lemma {:induction false} UnregisterAbsent<H(!new)>(hs: seq<H>, h: H)
    requires h !in hs
    ensures Unregister(hs, h) == hs
  {
    if hs != [] {
      assert hs[0] != h && h !in hs[1..];
      UnregisterAbsent(hs[1..], h);
      assert hs == [hs[0]] + hs[1..];
    }
  }
}

=== FILE: hexcoords.dfy ===
/**
 * The offset hex lattice. Only pairs whose coordinate sum is even are cells; the six
 * neighbours of a cell are reached through fixed offsets, each with an even sum, so the
 * lattice is closed under moving to a neighbour.
 */
module HexCoords {
  import opened Wrappers

  /** A raw integer pair, before the parity check. */
  datatype Coord = Coord(row: int, col: int)

  /** `HexCoord.is_valid`: the staggered-row layout uses the even-sum pairs only. */
  predicate IsValid(row: int, col: int) {
    (row + col) % 2 == 0
  }

  /**
   * A constructed `HexCoord`: the constructor raises on any other pair, so every value of
   * this type passed the check. Equality (and so hashing) is by `(row, col)`, as datatype
   * equality is.
   */
  type HexCoord = c: Coord | IsValid(c.row, c.col) witness Coord(0, 0)

  /** The `ValueError` the constructor raises. */
  datatype CoordError = InvalidHexCoordinates(row: int, col: int)

  /** `HexCoord(row, col)`. */
  function NewHexCoord(row: int, col: int): (r: Result<HexCoord, CoordError>)
    ensures r.Success? ==> r.value.row == row && r.value.col == col
    ensures r.Failure? ==> r.error == InvalidHexCoordinates(row, col)
  {
    if IsValid(row, col) then Success(Coord(row, col)) else Failure(InvalidHexCoordinates(row, col))
  }

  /** Construction succeeds exactly when both components have the same parity. */
  lemma NewHexCoordIffSameParity(row: int, col: int)
    ensures NewHexCoord(row, col).Success? <==> row % 2 == col % 2
  {
  }

  /** The six members of `HexDirection`, in declaration order. */
  datatype Direction = Northwest | Northeast | East | Southeast | Southwest | West

  const Directions: seq<Direction> := [Northwest, Northeast, East, Southeast, Southwest, West]

  /** `HexDirection.value`: the (row, col) offset of a direction. */
  function Offset(d: Direction): (int, int) {
    match d
    case Northwest => (-1, -1)
    case Northeast => (-1, 1)
    case East => (0, 2)
    case Southeast => (1, 1)
    case Southwest => (1, -1)
    case West => (0, -2)
  }

  /** The direction pointing back. */
  function Opposite(d: Direction): (r: Direction)
    ensures Offset(r).0 == -Offset(d).0 && Offset(r).1 == -Offset(d).1
  {
    match d
    case Northwest => Southeast
    case Northeast => Southwest
    case East => West
    case Southeast => Northwest
    case Southwest => Northeast
    case West => East
  }

  /** The cell one step away in direction `d`. */
  function Step(c: HexCoord, d: Direction): (r: HexCoord)
    ensures r.row == c.row + Offset(d).0 && r.col == c.col + Offset(d).1
  {
    OffsetPreservesParity(c.row, c.col, d);
    Coord(c.row + Offset(d).0, c.col + Offset(d).1)
  }

  /** Every offset has an even sum, so moving by one neither creates nor destroys validity. */
  lemma OffsetPreservesParity(row: int, col: int, d: Direction)
    ensures IsValid(row, col) <==> IsValid(row + Offset(d).0, col + Offset(d).1)
  {
  }

  /** `neighbors()`: one cell per direction, in declaration order. */
  function Neighbors(c: HexCoord): (r: seq<HexCoord>)
    ensures |r| == |Directions|
    ensures forall i :: 0 <= i < |r| ==> r[i] == Step(c, Directions[i])
  {
    [Step(c, Northwest), Step(c, Northeast), Step(c, East),
     Step(c, Southeast), Step(c, Southwest), Step(c, West)]
  }

  /** `b` is one of the six neighbours of `a`. */
  predicate Adjacent(a: HexCoord, b: HexCoord) {
    b in Neighbors(a)
  }

  /** Adjacency as an arithmetic condition on the coordinate differences. */
  lemma AdjacentIffOffset(a: HexCoord, b: HexCoord)
    ensures Adjacent(a, b) <==>
              (b.row - a.row == 0 && (b.col - a.col == 2 || b.col - a.col == -2)) ||
              ((b.row - a.row == 1 || b.row - a.row == -1) && (b.col - a.col == 1 || b.col - a.col == -1))
  {
  }

  /** The offset set is closed under negation, so adjacency is symmetric. */
  lemma AdjacentSymmetric(a: HexCoord, b: HexCoord)
    ensures Adjacent(a, b) <==> Adjacent(b, a)
  {
    AdjacentIffOffset(a, b);
    AdjacentIffOffset(b, a);
  }

  /** No cell is its own neighbour. */
  lemma NotSelfAdjacent(c: HexCoord)
    ensures !Adjacent(c, c)
  {
  }

  /** The six neighbours are pairwise distinct. */
  lemma NeighborsDistinct(c: HexCoord)
    ensures forall i, j :: 0 <= i < j < |Neighbors(c)| ==> Neighbors(c)[i] != Neighbors(c)[j]
  {
  }
}

=== FILE: hexgrids.dfy ===
/**
 * `HexGrid`: the lattice container. It owns the map from cell to bubble (a bubble is
 * identified by its cell and carries only its colour) and the insertion-ordered list of
 * its sprites, resolves pops and floating bubbles, and reports what it removed as a trace
 * of events in the order the source calls its handlers.
 */
module HexGrids {
  import opened Wrappers
  import opened Colors
  import opened HexCoords
  import opened Seqs
  import opened FloodFill
  import opened Settings

  datatype Point = Point(x: real, y: real)

  /**
   * `cells` is `hex_to_bubble`; `order` is the sprite group, in insertion order, which is
   * the order `sprites()` lists the bubbles in. Pixel sizes are exact reals.
   */
  datatype HexGrid = HexGrid(
    width: int, height: int,
    realWidth: real, realHeight: real,
    topLeft: Point,
    cells: Cells,
    order: seq<HexCoord>)

  /** What the grid reports to its `on_bubble_pop`, `on_bubble_float` and `on_empty` handlers. */
  datatype GridEvent = Popped(at: HexCoord, color: Color) | Floated(at: HexCoord, color: Color) | Emptied

  /** `0 <= row < height` and `0 <= col < width`. */
  predicate InRange(g: HexGrid, c: HexCoord) {
    0 <= c.row < g.height && 0 <= c.col < g.width
  }

  /**
   * The invariant every grid keeps: the constructor's checks, every bubble on an in-range
   * cell, and the sprite group holding exactly the bubbles of the map, each once.
   */
  ghost predicate Wf(g: HexGrid) {
    && g.width >= 1 && g.height >= 1
    && g.realWidth > 0.0 && g.realHeight > 0.0
    && (forall c :: c in g.cells ==> InRange(g, c))
    && NoDup(g.order)
    && (forall c :: c in g.order <==> c in g.cells)
  }

  /** The `ValueError`s the constructor raises. */
  datatype GridError = SizeBelowOne | RealSizeNotPositive

  /** `HexGrid(width, height, real_width, real_height, top_left)`; a missing real size defaults to the cell count. */
  function NewHexGrid(width: int, height: int, realWidth: Option<real>, realHeight: Option<real>, topLeft: Point)
    : (r: Result<HexGrid, GridError>)
    ensures r == Failure(SizeBelowOne) <==> width < 1 || height < 1
    ensures r == Failure(RealSizeNotPositive) <==>
              width >= 1 && height >= 1 &&
              ((realWidth.Some? && realWidth.value <= 0.0) || (realHeight.Some? && realHeight.value <= 0.0))
    ensures r.Success? ==> Wf(r.value) && r.value.cells == map[] && r.value.order == []
    ensures r.Success? ==> r.value.width == width && r.value.height == height && r.value.topLeft == topLeft
  {
    if width < 1 || height < 1 then Failure(SizeBelowOne)
    else
      var rw := realWidth.GetOr(width as real);
      var rh := realHeight.GetOr(height as real);
      if rw <= 0.0 || rh <= 0.0 then Failure(RealSizeNotPositive)
      else Success(HexGrid(width, height, rw, rh, topLeft, map[], []))
  }

  /** `is_valid_coord`: in range and free. */
  predicate IsValidCoord(g: HexGrid, c: HexCoord): (r: bool)
    ensures r <==> InRange(g, c) && c !in g.cells
  {
    if c.row < 0 || c.row >= g.height || c.col < 0 || c.col >= g.width then false
    else c !in g.cells
  }

  /**
   * `add_bubble`, given the cell `_pixel_to_hex` snapped the bubble to: the bubble is
   * registered there if that cell is valid, and the cell is returned; otherwise nothing
   * changes and `None` is returned.
   */
  function AddBubble(g: HexGrid, color: Color, hex: HexCoord): (r: (HexGrid, Option<HexCoord>))
    ensures r.1.None? <==> !(InRange(g, hex) && hex !in g.cells)
    ensures r.1.None? ==> r.0 == g
    ensures r.1.Some? ==> r.1.value == hex && r.0.cells.Keys == g.cells.Keys + {hex} && r.0.cells[hex] == color
    ensures forall c :: c in g.cells ==> c in r.0.cells && r.0.cells[c] == g.cells[c]
    ensures Wf(g) ==> Wf(r.0)
    ensures r.0.width == g.width && r.0.height == g.height && r.0.topLeft == g.topLeft
    ensures r.0.realWidth == g.realWidth && r.0.realHeight == g.realHeight
  {
    if !IsValidCoord(g, hex) then (g, None)
    else (g.(cells := g.cells[hex := color], order := g.order + [hex]), Some(hex))
  }

  /**
   * The last step of `_pixel_to_hex`: starting from the snapped lattice cell, walk the
   * neighbours in the order of their distance to the pixel until a valid cell is found.
   */
  function PickFree(g: HexGrid, coord: HexCoord, ranked: seq<HexCoord>): (r: HexCoord)
    ensures IsValidCoord(g, coord) ==> r == coord
    ensures !IsValidCoord(g, coord) ==>
              (IsValidCoord(g, r) <==> exists i :: 0 <= i < |ranked| && IsValidCoord(g, ranked[i]))
    ensures !IsValidCoord(g, coord) && IsValidCoord(g, r) ==>
              exists i :: 0 <= i < |ranked| && r == ranked[i] && forall j :: 0 <= j < i ==> !IsValidCoord(g, ranked[j])
    ensures !IsValidCoord(g, coord) && !IsValidCoord(g, r) && ranked != [] ==> r == ranked[|ranked| - 1]
    decreases |ranked|
  {
    if IsValidCoord(g, coord) || ranked == [] then coord
    else
      var r := PickFree(g, ranked[0], ranked[1..]);
      assert forall i :: 0 <= i < |ranked[1..]| ==> ranked[1..][i] == ranked[i + 1];
      assert IsValidCoord(g, r) && !IsValidCoord(g, ranked[0]) ==>
               exists i :: 0 <= i < |ranked[1..]| && r == ranked[1..][i] &&
                 forall j :: 0 <= j < i ==> !IsValidCoord(g, ranked[1..][j]);
      r
  }

  /** The walk ends on the snapped cell or on one of the ranked neighbours. */
  lemma {:induction false} PickFreeFromCandidates(g: HexGrid, coord: HexCoord, ranked: seq<HexCoord>)
    ensures PickFree(g, coord, ranked) == coord || PickFree(g, coord, ranked) in ranked
    decreases |ranked|
  {
    if !IsValidCoord(g, coord) && ranked != [] {
      PickFreeFromCandidates(g, ranked[0], ranked[1..]);
    }
  }

  // ----- pixel geometry, in exact reals -----

  /** `playable_scale`: pixels per row and per column inside the playable inset. */
  function PlayableScale(g: HexGrid): Point
    requires g.width >= 1 && g.height >= 1
  {
    Point((g.realWidth - PlayableWidthMargin) / g.width as real,
          (g.realHeight - PlayableHeightMargin) / g.height as real)
  }

  /** `playable_top_left`: the pixel centre of cell (0, 0). */
  function PlayableTopLeft(g: HexGrid): Point
    requires g.width >= 1 && g.height >= 1
  {
    var s := PlayableScale(g);
    Point(g.topLeft.x + s.x / 2.0 + 3.0 * GameScale as real,
          g.topLeft.y + s.y / 2.0 + 3.0 * GameScale as real)
  }

  /** `hex_to_pixel`: the pixel centre of a cell, which is where an attached bubble sits. */
  function Center(g: HexGrid, c: HexCoord): Point
    requires g.width >= 1 && g.height >= 1
  {
    var s := PlayableScale(g);
    var o := PlayableTopLeft(g);
    Point(c.col as real * s.x + o.x, c.row as real * s.y + o.y)
  }

  /**
   * `_calculate_playable_area`: the playable area is the real size less the 20 and 10 pixel
   * margins, split evenly between the columns and the rows, and its top-left point is half a
   * cell plus six pixels in from the grid's anchor.
   */
  lemma PlayableLayout(g: HexGrid)
    requires g.width >= 1 && g.height >= 1
    ensures PlayableScale(g).x * g.width as real == g.realWidth - PlayableWidthMargin
    ensures PlayableScale(g).y * g.height as real == g.realHeight - PlayableHeightMargin
    ensures PlayableTopLeft(g).x == g.topLeft.x + PlayableScale(g).x / 2.0 + 6.0
    ensures PlayableTopLeft(g).y == g.topLeft.y + PlayableScale(g).y / 2.0 + 6.0
  {
  }

  /**
   * `hex_to_pixel`: cell (0, 0) is centred on the playable top-left point, and cells are a
   * scale apart in each direction.
   */
  lemma CenterSpacing(g: HexGrid, a: HexCoord, b: HexCoord)
    requires g.width >= 1 && g.height >= 1
    ensures a.row == 0 && a.col == 0 ==> Center(g, a) == PlayableTopLeft(g)
    ensures Center(g, a).x - Center(g, b).x == (a.col - b.col) as real * PlayableScale(g).x
    ensures Center(g, a).y - Center(g, b).y == (a.row - b.row) as real * PlayableScale(g).y
  {
  }

  /**
   * `_pixel_to_hex` divides by both components of the playable scale, so it raises
   * `ZeroDivisionError` on a grid whose real size is exactly the margin.
   */
  predicate ScaleIsZero(g: HexGrid) {
    g.width >= 1 && g.height >= 1 && (PlayableScale(g).x == 0.0 || PlayableScale(g).y == 0.0)
  }

  /**
   * The rounding part of `_pixel_to_hex` for a bubble built at the pixel centre of a cell `c`
   * (a `Rect` keeps that centre in whole pixels): `cell(c)` is the lattice cell the rounding
   * and the parity repair give, `ranked(c)` its neighbours sorted by their distance to the
   * pixel. Only the walk over them, `PickFree`, is modelled in full.
   */
  datatype Snap = Snap(cell: HexCoord -> HexCoord, ranked: HexCoord -> seq<HexCoord>)

  /**
   * Why the identity snap is the one that matters: a pixel at most one below a cell's centre
   * in one axis gives an arena coordinate within half a cell of the cell's index there, as
   * long as the playable scale is at least two pixels, so `round` gives the index back.
   */
  lemma CentreRoundsBack(k: int, s: real, o: real, p: real)
    requires s >= 2.0
    requires k as real * s + o - 1.0 < p <= k as real * s + o
    ensures k as real - 0.5 < (p - o) / s <= k as real
  {
    var q := (p - o) / s;
    assert q * s == p - o;
    var e := q - k as real;
    assert e * s == (p - o) - k as real * s;
    assert -1.0 < e * s <= 0.0;
  }

  /**
   * A grid built without a real size has one pixel per cell, less than the margins: its
   * playable scale is negative below 20 columns or 10 rows and zero at exactly that many.
   */
  lemma DefaultSizesScale(width: int, height: int, topLeft: Point)
    requires width >= 1 && height >= 1
    ensures NewHexGrid(width, height, None, None, topLeft).Success?
    ensures var g := NewHexGrid(width, height, None, None, topLeft).value;
            && (PlayableScale(g).x < 0.0 <==> width < 20)
            && (PlayableScale(g).y < 0.0 <==> height < 10)
            && (ScaleIsZero(g) <==> width == 20 || height == 10)
  {
    var g := NewHexGrid(width, height, None, None, topLeft).value;
    SignOfQuotient(width as real - PlayableWidthMargin, width as real);
    SignOfQuotient(height as real - PlayableHeightMargin, height as real);
  }

  /** A quotient by a positive number has the sign of its numerator. */
  lemma SignOfQuotient(a: real, b: real)
    requires b > 0.0
    ensures a / b < 0.0 <==> a < 0.0
    ensures a / b == 0.0 <==> a == 0.0
  {
    assert (a / b) * b == a;
  }

  /** `move_grid_down`: the anchor moves down by `amount`; the bubbles stay on their cells. */
  function MoveDown(g: HexGrid, amount: real): (r: HexGrid)
    ensures r.cells == g.cells && r.order == g.order
    ensures Wf(g) ==> Wf(r)
  {
    g.(topLeft := Point(g.topLeft.x, g.topLeft.y + amount))
  }

  /** Moving down shifts the pixel position of every bubble by exactly `amount` in y and not at all in x. */
  lemma MoveDownShiftsCenters(g: HexGrid, amount: real, c: HexCoord)
    requires g.width >= 1 && g.height >= 1
    ensures Center(MoveDown(g, amount), c).x == Center(g, c).x
    ensures Center(MoveDown(g, amount), c).y == Center(g, c).y + amount
  {
  }

  // ----- removal and resolution -----

  /** `_remove_bubble` applied to every bubble on a cell of `gone`. */
  function RemoveCells(g: HexGrid, gone: set<HexCoord>): (r: HexGrid)
    ensures r.cells == g.cells - gone
    ensures r.width == g.width && r.height == g.height
    ensures Wf(g) ==> Wf(r)
  {
    g.(cells := g.cells - gone, order := Drop(g.order, gone))
  }

  function PopEvents(cells: Cells, cs: seq<HexCoord>): (r: seq<GridEvent>)
    requires forall c :: c in cs ==> c in cells
    ensures |r| == |cs| && forall i :: 0 <= i < |cs| ==> r[i] == Popped(cs[i], cells[cs[i]])
  {
    seq(|cs|, i requires 0 <= i < |cs| => Popped(cs[i], cells[cs[i]]))
  }

  function FloatEvents(cells: Cells, cs: seq<HexCoord>): (r: seq<GridEvent>)
    requires forall c :: c in cs ==> c in cells
    ensures |r| == |cs| && forall i :: 0 <= i < |cs| ==> r[i] == Floated(cs[i], cells[cs[i]])
  {
    seq(|cs|, i requires 0 <= i < |cs| => Floated(cs[i], cells[cs[i]]))
  }

  /** An occupied cell joined, through occupied cells, to some bubble of the top row. */
  ghost predicate IsAnchored(cells: Cells, c: HexCoord) {
    exists root: HexCoord :: root.row == 0 && Reachable(cells, None, root, c)
  }

  /**
   * The `non_floating_bubbles` loop of `_get_floating_bubbles`: for every top-row key,
   * the key and its unfiltered flood fill.
   */
  function Supported(cells: Cells, keys: seq<HexCoord>): (r: set<HexCoord>)
    requires forall k :: k in keys ==> k in cells
    ensures forall c :: c in r <==> exists k :: k in keys && k.row == 0 && Reachable(cells, None, k, c)
  {
    if keys == [] then {}
    else
      var rest := Supported(cells, keys[1..]);
      if keys[0].row != 0 then
        assert forall k :: k in keys && k.row == 0 <==> k in keys[1..] && k.row == 0;
        rest
      else
        ReachableSelf(cells, None, keys[0]);
        Elements(Connected(cells, keys[0], None)) + {keys[0]} + rest
  }

  /** `_get_floating_bubbles`: the bubbles, in sprite order, that no top-row bubble reaches. */
  function FloatingCells(g: HexGrid): (r: seq<HexCoord>)
    requires Wf(g)
    ensures NoDup(r)
    ensures forall c :: c in r <==> c in g.cells && !IsAnchored(g.cells, c)
  {
    var anchored := Supported(g.cells, g.order);
    forall c | c in g.cells
      ensures c in anchored <==> IsAnchored(g.cells, c)
    {
      if IsAnchored(g.cells, c) {
        var root: HexCoord :| root.row == 0 && Reachable(g.cells, None, root, c);
        ReachableEnds(g.cells, None, root, c);
      }
    }
    Drop(g.order, anchored)
  }

  /** `_pop_floating_bubbles`: remove every floating bubble, reporting each. */
  function PopFloating(g: HexGrid): (r: (HexGrid, seq<GridEvent>))
    requires Wf(g)
    ensures Wf(r.0)
  {
    var floating := FloatingCells(g);
    (RemoveCells(g, Elements(floating)), FloatEvents(g.cells, floating))
  }

  /** The result of `_pop_bubbles_from`: the grid afterwards, the returned flag, and the handler calls made. */
  datatype PopResult = PopResult(grid: HexGrid, popped: bool, events: seq<GridEvent>)

  /** The same-colour component around an occupied cell. */
  ghost function Component(cells: Cells, seed: HexCoord): set<HexCoord>
    requires seed in cells
  {
    set c | c in cells && Reachable(cells, Some(cells[seed]), seed, c)
  }

  /**
   * `_pop_bubbles_from(seed)`: if the same-colour component of the seed has at least three
   * bubbles, report and remove each, then drop the floating bubbles and report an empty grid.
   */
  function PopFrom(g: HexGrid, seed: HexCoord): (r: PopResult)
    requires Wf(g)
    ensures Wf(r.grid)
    ensures r.popped <==> seed in g.cells && |Component(g.cells, seed)| >= 3
    ensures !r.popped ==> r.grid == g && r.events == []
  {
    if seed !in g.cells then PopResult(g, false, [])
    else
      var comp := Connected(g.cells, seed, Some(g.cells[seed]));
      ComponentSize(g.cells, seed);
      if |comp| < 3 then PopResult(g, false, [])
      else
        var g1 := RemoveCells(g, Elements(comp));
        var (g2, floats) := PopFloating(g1);
        PopResult(g2, true, PopEvents(g.cells, comp) + floats + (if g2.order == [] then [Emptied] else []))
  }

  /** The flood fill from an occupied cell, filtered to its colour, is its component, each cell once. */
  lemma ComponentSize(cells: Cells, seed: HexCoord)
    requires seed in cells
    ensures var comp := Connected(cells, seed, Some(cells[seed]));
            (forall c :: c in comp <==> c in Component(cells, seed)) && |comp| == |Component(cells, seed)|
  {
    var comp := Connected(cells, seed, Some(cells[seed]));
    forall c | c in comp ensures c in cells {
      ReachableEnds(cells, Some(cells[seed]), seed, c);
    }
    assert Elements(comp) == Component(cells, seed);
    NoDupCardinality(comp);
  }

  /** A prefix of a walk is a walk. */
  lemma PathPrefix(cells: Cells, filter: Option<Color>, p: seq<HexCoord>, k: nat)
    requires IsPath(cells, filter, p) && k < |p|
    ensures IsPath(cells, filter, p[..k + 1])
  {
    var q := p[..k + 1];
    assert forall i :: 0 <= i < |q| ==> q[i] == p[i];
  }

  /** A bubble survives `_pop_floating_bubbles` exactly when some top-row bubble reaches it. */
  lemma KeptIffAnchored(g: HexGrid, c: HexCoord)
    requires Wf(g)
    ensures c in PopFloating(g).0.cells <==> c in g.cells && IsAnchored(g.cells, c)
  {
  }

  /**
   * `_pop_floating_bubbles` removes exactly the bubbles no top-row bubble reaches, and so
   * never a top-row bubble; the others keep their colour.
   */
  lemma PopFloatingRemovesUnanchored(g: HexGrid)
    requires Wf(g)
    ensures forall c :: c in PopFloating(g).0.cells <==> c in g.cells && IsAnchored(g.cells, c)
    ensures forall c :: c in PopFloating(g).0.cells ==> PopFloating(g).0.cells[c] == g.cells[c]
    ensures forall c :: c in g.cells && c.row == 0 ==> c in PopFloating(g).0.cells
  {
    forall c
      ensures c in PopFloating(g).0.cells <==> c in g.cells && IsAnchored(g.cells, c)
    {
      KeptIffAnchored(g, c);
    }
    forall c | c in g.cells && c.row == 0
      ensures c in PopFloating(g).0.cells
    {
      ReachableSelf(g.cells, None, c);
      KeptIffAnchored(g, c);
    }
  }

  /**
   * After `_pop_floating_bubbles` every bubble left is reached from the top row: the walk
   * that supported it ran through supported bubbles only, and those all stay.
   */
  lemma PopFloatingLeavesAnchored(g: HexGrid, c: HexCoord)
    requires Wf(g)
    ensures c in PopFloating(g).0.cells ==> IsAnchored(PopFloating(g).0.cells, c)
  {
    var kept := PopFloating(g).0.cells;
    if c in kept {
      forall x
        ensures x in kept <==> x in g.cells && IsAnchored(g.cells, x)
      {
        KeptIffAnchored(g, x);
      }
      AnchoredSubsetAnchored(g.cells, kept, c);
    }
  }

  /** Keeping exactly the anchored bubbles keeps every one of them anchored. */
  lemma AnchoredSubsetAnchored(cells: Cells, kept: Cells, c: HexCoord)
    requires forall x :: x in kept <==> x in cells && IsAnchored(cells, x)
    requires c in kept
    ensures IsAnchored(kept, c)
  {
    var root: HexCoord :| root.row == 0 && Reachable(cells, None, root, c);
    var p :| IsPath(cells, None, p) && p[0] == root && p[|p| - 1] == c;
    forall k | 0 <= k < |p|
      ensures Matches(kept, None, p[k])
    {
      PathPrefix(cells, None, p, k);
      var q := p[..k + 1];
      assert q[0] == root && q[|q| - 1] == p[k];
      assert Reachable(cells, None, root, p[k]);
      assert Matches(cells, None, p[k]);
    }
    assert IsPath(kept, None, p);
  }

  /** One float event per listed cell, with its colour. */
  lemma FloatEventsReport(cells: Cells, cs: seq<HexCoord>)
    requires forall c :: c in cs ==> c in cells
    requires NoDup(cs)
    ensures NoDup(FloatEvents(cells, cs))
    ensures forall e :: e in FloatEvents(cells, cs) ==> e.Floated?
    ensures forall c, col :: Floated(c, col) in FloatEvents(cells, cs) <==> c in cs && col == cells[c]
  {
    var events := FloatEvents(cells, cs);
    forall c, col | Floated(c, col) in events
      ensures c in cs && col == cells[c]
    {
      var i :| 0 <= i < |events| && events[i] == Floated(c, col);
    }
    forall c | c in cs
      ensures Floated(c, cells[c]) in events
    {
      var i :| 0 <= i < |cs| && cs[i] == c;
      assert events[i] == Floated(c, cells[c]);
    }
    forall i, j | 0 <= i < j < |events|
      ensures events[i] != events[j]
    {
      assert cs[i] != cs[j];
    }
  }

  /** One pop event per listed cell, with its colour. */
  lemma PopEventsReport(cells: Cells, cs: seq<HexCoord>)
    requires forall c :: c in cs ==> c in cells
    requires NoDup(cs)
    ensures NoDup(PopEvents(cells, cs))
    ensures forall e :: e in PopEvents(cells, cs) ==> e.Popped?
    ensures forall c, col :: Popped(c, col) in PopEvents(cells, cs) <==> c in cs && col == cells[c]
  {
    var events := PopEvents(cells, cs);
    forall c, col | Popped(c, col) in events
      ensures c in cs && col == cells[c]
    {
      var i :| 0 <= i < |events| && events[i] == Popped(c, col);
    }
    forall c | c in cs
      ensures Popped(c, cells[c]) in events
    {
      var i :| 0 <= i < |cs| && cs[i] == c;
      assert events[i] == Popped(c, cells[c]);
    }
    forall i, j | 0 <= i < j < |events|
      ensures events[i] != events[j]
    {
      assert cs[i] != cs[j];
    }
  }

  /** `_pop_floating_bubbles` reports every removed bubble once, with its colour, and nothing else. */
  lemma PopFloatingReportsRemoved(g: HexGrid)
    requires Wf(g)
    ensures var events := PopFloating(g).1;
            && NoDup(events)
            && (forall e :: e in events ==> e.Floated?)
            && (forall c, col :: Floated(c, col) in events <==>
                  c in g.cells && c !in PopFloating(g).0.cells && col == g.cells[c])
  {
    var floating := FloatingCells(g);
    FloatEventsReport(g.cells, floating);
    forall c | c in g.cells
      ensures c in floating <==> c !in PopFloating(g).0.cells
    {
      KeptIffAnchored(g, c);
    }
  }

  /** `_check_empty` tests the sprite group; it is empty exactly when the map is. */
  lemma NoSpritesIffEmpty(g: HexGrid)
    requires Wf(g)
    ensures g.order == [] <==> g.cells == map[]
  {
    if g.cells != map[] {
      var c :| c in g.cells;
      assert c in g.order;
    }
    if g.order != [] {
      assert g.order[0] in g.order;
    }
  }

  /** The pop events of a successful pop: one per component bubble, all of the seed's colour. */
  lemma PopEventsOfComponent(g: HexGrid, seed: HexCoord)
    requires Wf(g) && seed in g.cells
    ensures var comp := Connected(g.cells, seed, Some(g.cells[seed]));
            (forall c :: c in comp ==> c in g.cells) &&
            var pops := PopEvents(g.cells, comp);
            && NoDup(pops)
            && (forall e :: e in pops ==> e.Popped?)
            && (forall c, col :: Popped(c, col) in pops <==> c in Component(g.cells, seed) && col == g.cells[seed])
  {
    var color := g.cells[seed];
    var comp := Connected(g.cells, seed, Some(color));
    ComponentSize(g.cells, seed);
    forall c | c in comp
      ensures c in g.cells && g.cells[c] == color
    {
      ConnectedClosed(g.cells, seed, Some(color), c, c);
    }
    PopEventsReport(g.cells, comp);
  }

  /**
   * A successful `_pop_bubbles_from` removes the component and the bubbles it left
   * unsupported, and nothing else: a bubble stays exactly when it is outside the component
   * and still hangs from the top row once the component is gone.
   */
  lemma PopFromRemoves(g: HexGrid, seed: HexCoord)
    requires Wf(g)
    requires seed in g.cells && |Component(g.cells, seed)| >= 3
    ensures var r := PopFrom(g, seed);
            && (forall c :: c in r.grid.cells ==> c in g.cells && r.grid.cells[c] == g.cells[c])
            && (forall c :: c in Component(g.cells, seed) ==> c !in r.grid.cells)
            && (forall c :: c in r.grid.cells ==> IsAnchored(r.grid.cells, c))
            && (forall c :: c in r.grid.cells <==>
                  c in g.cells && c !in Component(g.cells, seed) &&
                  IsAnchored(RemoveCells(g, Component(g.cells, seed)).cells, c))
  {
    var comp := Connected(g.cells, seed, Some(g.cells[seed]));
    ComponentSize(g.cells, seed);
    var g1 := RemoveCells(g, Elements(comp));
    assert Elements(comp) == Component(g.cells, seed);
    PopFloatingRemovesUnanchored(g1);
    var r := PopFrom(g, seed);
    assert r.grid == PopFloating(g1).0;
    forall c | c in r.grid.cells
      ensures IsAnchored(r.grid.cells, c)
    {
      PopFloatingLeavesAnchored(g1, c);
    }
  }

  /** A successful pop, taken apart: the component's pops, then the floating pass, then the empty check. */
  lemma PopFromUnfold(g: HexGrid, seed: HexCoord)
    requires Wf(g)
    requires seed in g.cells && |Component(g.cells, seed)| >= 3
    ensures var comp := Connected(g.cells, seed, Some(g.cells[seed]));
            (forall c :: c in comp ==> c in g.cells) &&
            var g1 := RemoveCells(g, Elements(comp));
            var g2 := PopFloating(g1).0;
            && Wf(g1)
            && PopFrom(g, seed).grid == g2
            && PopFrom(g, seed).events ==
                 PopEvents(g.cells, comp) + PopFloating(g1).1 + (if g2.order == [] then [Emptied] else [])
  {
    PopEventsOfComponent(g, seed);
  }

  /** A successful pop reports each component bubble popped once, with the seed's colour. */
  lemma PopFromReportsPops(g: HexGrid, seed: HexCoord)
    requires Wf(g)
    requires seed in g.cells && |Component(g.cells, seed)| >= 3
    ensures forall c, col :: Popped(c, col) in PopFrom(g, seed).events <==>
              c in Component(g.cells, seed) && col == g.cells[seed]
  {
    PopFromUnfold(g, seed);
    var comp := Connected(g.cells, seed, Some(g.cells[seed]));
    var g1 := RemoveCells(g, Elements(comp));
    PopEventsOfComponent(g, seed);
    PopFloatingReportsRemoved(g1);
  }

  /** A successful pop reports every other bubble it removed as floating, once, with its colour. */
  lemma PopFromReportsFloats(g: HexGrid, seed: HexCoord)
    requires Wf(g)
    requires seed in g.cells && |Component(g.cells, seed)| >= 3
    ensures forall c, col :: Floated(c, col) in PopFrom(g, seed).events <==>
              c in g.cells && c !in Component(g.cells, seed) && c !in PopFrom(g, seed).grid.cells && col == g.cells[c]
  {
    PopFromUnfold(g, seed);
    var comp := Connected(g.cells, seed, Some(g.cells[seed]));
    ComponentSize(g.cells, seed);
    var g1 := RemoveCells(g, Elements(comp));
    PopEventsOfComponent(g, seed);
    PopFloatingReportsRemoved(g1);
  }

  /** A successful pop reports the empty grid exactly when no bubble remains. */
  lemma PopFromReportsEmpty(g: HexGrid, seed: HexCoord)
    requires Wf(g)
    requires seed in g.cells && |Component(g.cells, seed)| >= 3
    ensures Emptied in PopFrom(g, seed).events <==> PopFrom(g, seed).grid.cells == map[]
  {
    PopFromUnfold(g, seed);
    var comp := Connected(g.cells, seed, Some(g.cells[seed]));
    var g1 := RemoveCells(g, Elements(comp));
    PopEventsOfComponent(g, seed);
    PopFloatingReportsRemoved(g1);
    EmptiedOnlyLast(PopEvents(g.cells, comp), PopFloating(g1).1, PopFloating(g1).0);
  }

  /** Pop and float events never report an empty grid; only the final check does. */
  lemma EmptiedOnlyLast(pops: seq<GridEvent>, floats: seq<GridEvent>, g2: HexGrid)
    requires Wf(g2)
    requires forall e :: e in pops ==> e.Popped?
    requires forall e :: e in floats ==> e.Floated?
    ensures Emptied in pops + floats + (if g2.order == [] then [Emptied] else []) <==> g2.cells == map[]
  {
    NoSpritesIffEmpty(g2);
    var tail: seq<GridEvent> := if g2.order == [] then [Emptied] else [];
    assert Emptied in pops + floats + tail <==> Emptied in pops || Emptied in floats || Emptied in tail;
  }

  /** A successful pop calls each handler at most once per bubble. */
  lemma PopFromReportsOnce(g: HexGrid, seed: HexCoord)
    requires Wf(g)
    requires seed in g.cells && |Component(g.cells, seed)| >= 3
    ensures NoDup(PopFrom(g, seed).events)
  {
    PopFromUnfold(g, seed);
    var comp := Connected(g.cells, seed, Some(g.cells[seed]));
    var g1 := RemoveCells(g, Elements(comp));
    PopEventsOfComponent(g, seed);
    PopFloatingReportsRemoved(g1);
    EventsOnce(PopEvents(g.cells, comp), PopFloating(g1).1, PopFloating(g1).0);
  }

  /** Pops, then floats, then at most one empty report: no event repeats if none repeats within its kind. */
  lemma EventsOnce(pops: seq<GridEvent>, floats: seq<GridEvent>, g2: HexGrid)
    requires NoDup(pops) && NoDup(floats)
    requires forall e :: e in pops ==> e.Popped?
    requires forall e :: e in floats ==> e.Floated?
    ensures NoDup(pops + floats + (if g2.order == [] then [Emptied] else []))
  {
    var tail: seq<GridEvent> := if g2.order == [] then [Emptied] else [];
    NoDupConcat(pops, floats);
    assert forall e :: e in pops + floats ==> e.Popped? || e.Floated?;
    NoDupConcat(pops + floats, tail);
  }

  /** `get_present_colors`: the colours of the sprites. */
  function PresentColors(g: HexGrid): (r: set<Color>)
    requires Wf(g)
    ensures forall col :: col in r <==> exists c :: c in g.cells && g.cells[c] == col
  {
    set c | c in g.order :: g.cells[c]
  }
}

=== FILE: levels.dfy ===
/**
 * `LevelLoader`: the validation and placement layer between a decoded level file and a
 * `HexGrid`, and the index of the current level in the list of level files. Reading and
 * parsing files is outside the model: a level arrives as an already decoded JSON value.
 */
module Levels {
  import opened Wrappers
  import opened Colors
  import opened HexCoords
  import opened HexGrids
  import opened Settings
  import opened Seqs

  /**
   * A decoded JSON value. An object is its key/value pairs in file order; the dict
   * `json.load` builds from them is given by `Get` and `Items`, where a repeated key keeps
   * the place of its first occurrence and the value of its last.
   */
  datatype Json =
    | JNull
    | JBool(b: bool)
    | JInt(i: int)
    | JFloat(f: real)
    | JStr(s: string)
    | JList(items: seq<Json>)
    | JObject(fields: seq<(string, Json)>)

  /** `isinstance(v, int)`: Python's `bool` is a subclass of `int`, with `True == 1`. */
  function IntValue(j: Json): (r: Option<int>)
    ensures r.Some? <==> j.JInt? || j.JBool?
    ensures j.JInt? ==> r == Some(j.i)
  {
    match j
    case JInt(i) => Some(i)
    case JBool(b) => Some(if b then 1 else 0)
    case _ => None
  }

  /** The keys of an object, in file order. */
  function Keys(fields: seq<(string, Json)>): (r: seq<string>)
    ensures |r| == |fields| && forall i :: 0 <= i < |fields| ==> r[i] == fields[i].0
  {
    seq(|fields|, i requires 0 <= i < |fields| => fields[i].0)
  }

  /** `dict.get(key)`: the value stored under `key`, which for a repeated key is its last value. */
  function Get(fields: seq<(string, Json)>, key: string): (r: Option<Json>)
    ensures r.Some? <==> key in Keys(fields)
    decreases |fields|
  {
    if fields == [] then None
    else
      assert Keys(fields) == [fields[0].0] + Keys(fields[1..]);
      var r := Get(fields[1..], key);
      if r.Some? then r
      else if fields[0].0 == key then Some(fields[0].1)
      else None
  }

  /** The value `Get` finds is that of a pair with the key after which the key does not occur again. */
  lemma {:induction false} GetIsLast(fields: seq<(string, Json)>, key: string)
    requires key in Keys(fields)
    ensures exists i :: 0 <= i < |fields| && fields[i] == (key, Get(fields, key).value) && key !in Keys(fields[i + 1..])
    decreases |fields|
  {
    assert Keys(fields) == [fields[0].0] + Keys(fields[1..]);
    if key in Keys(fields[1..]) {
      GetIsLast(fields[1..], key);
      var i :| 0 <= i < |fields[1..]| && fields[1..][i] == (key, Get(fields[1..], key).value) && key !in Keys(fields[1..][i + 1..]);
      assert fields[1..][i + 1..] == fields[i + 2..];
      assert fields[i + 1] == (key, Get(fields, key).value);
    } else {
      assert fields[1..] == fields[0 + 1..];
    }
  }

  /** The pairs whose key is not `key`, in their order. */
  function Without(fields: seq<(string, Json)>, key: string): (r: seq<(string, Json)>)
    ensures |r| <= |fields|
    ensures forall k :: k in Keys(r) <==> k in Keys(fields) && k != key
    decreases |fields|
  {
    if fields == [] then []
    else
      var rest := Without(fields[1..], key);
      assert Keys(fields) == [fields[0].0] + Keys(fields[1..]);
      if fields[0].0 == key then rest
      else
        assert Keys([fields[0]] + rest) == [fields[0].0] + Keys(rest);
        [fields[0]] + rest
  }

  /** Dropping one key leaves the values of the others as they were. */
  lemma {:induction false} GetWithout(fields: seq<(string, Json)>, key: string, k: string)
    requires k != key
    ensures Get(Without(fields, key), k) == Get(fields, k)
    decreases |fields|
  {
    if fields != [] {
      GetWithout(fields[1..], key, k);
      if fields[0].0 != key {
        assert ([fields[0]] + Without(fields[1..], key))[1..] == Without(fields[1..], key);
      }
    }
  }

  /**
   * `dict.items()` of the dict `json.load` builds: every key once, at the place of its first
   * occurrence, with the value `Get` gives.
   */
  function Items(fields: seq<(string, Json)>): (r: seq<(string, Json)>)
    ensures forall k :: k in Keys(r) <==> k in Keys(fields)
    ensures NoDup(Keys(r))
    ensures forall i :: 0 <= i < |r| ==> Get(fields, r[i].0) == Some(r[i].1)
    decreases |fields|
  {
    if fields == [] then []
    else
      var k := fields[0].0;
      var rest := Items(Without(fields[1..], k));
      var v := Get(fields, k).value;
      ItemsStepKeys(fields, v, rest);
      ItemsStepNoDup(fields, v, rest);
      ItemsStepValues(fields, rest);
      var r := [(k, v)] + rest;
      assert forall i :: 1 <= i < |r| ==> r[i] == rest[i - 1];
      r
  }

  /** The first key in front of the dict of the remaining keys: the keys are those of the object. */
  lemma ItemsStepKeys(fields: seq<(string, Json)>, v: Json, rest: seq<(string, Json)>)
    requires fields != []
    requires forall k :: k in Keys(rest) <==> k in Keys(Without(fields[1..], fields[0].0))
    ensures forall k :: k in Keys([(fields[0].0, v)] + rest) <==> k in Keys(fields)
  {
    assert Keys(fields) == [fields[0].0] + Keys(fields[1..]);
    assert Keys([(fields[0].0, v)] + rest) == [fields[0].0] + Keys(rest);
  }

  /** ... and each key once. */
  lemma ItemsStepNoDup(fields: seq<(string, Json)>, v: Json, rest: seq<(string, Json)>)
    requires fields != []
    requires forall k :: k in Keys(rest) <==> k in Keys(Without(fields[1..], fields[0].0))
    requires NoDup(Keys(rest))
    ensures NoDup(Keys([(fields[0].0, v)] + rest))
  {
    assert Keys([(fields[0].0, v)] + rest) == [fields[0].0] + Keys(rest);
    NoDupCons(fields[0].0, Keys(rest));
  }

  /** ... and each remaining key with the value the whole object gives it. */
  lemma ItemsStepValues(fields: seq<(string, Json)>, rest: seq<(string, Json)>)
    requires fields != []
    requires forall k :: k in Keys(rest) <==> k in Keys(Without(fields[1..], fields[0].0))
    requires forall i :: 0 <= i < |rest| ==> Get(Without(fields[1..], fields[0].0), rest[i].0) == Some(rest[i].1)
    ensures forall i :: 0 <= i < |rest| ==> Get(fields, rest[i].0) == Some(rest[i].1)
  {
    forall j | 0 <= j < |rest|
      ensures Get(fields, rest[j].0) == Some(rest[j].1)
    {
      assert Keys(rest)[j] == rest[j].0;
      GetWithout(fields[1..], fields[0].0, rest[j].0);
    }
  }

  /** An object without repeated keys is its own dict. */
  lemma {:induction false} ItemsOfDistinctKeys(fields: seq<(string, Json)>)
    requires NoDup(Keys(fields))
    ensures Items(fields) == fields
    decreases |fields|
  {
    if fields != [] {
      var k := fields[0].0;
      assert Keys(fields) == [k] + Keys(fields[1..]);
      assert k !in Keys(fields[1..]);
      WithoutAbsent(fields[1..], k);
      assert NoDup(Keys(fields[1..]));
      ItemsOfDistinctKeys(fields[1..]);
      GetIsLast(fields, k);
    }
  }

  /** Dropping a key that does not occur changes nothing. */
  lemma {:induction false} WithoutAbsent(fields: seq<(string, Json)>, key: string)
    requires key !in Keys(fields)
    ensures Without(fields, key) == fields
    decreases |fields|
  {
    if fields != [] {
      assert Keys(fields) == [fields[0].0] + Keys(fields[1..]);
      WithoutAbsent(fields[1..], key);
    }
  }

  /** A later pair overrides an earlier one: the dict holds the value of the last occurrence. */
  lemma LastValueWins(a: seq<(string, Json)>, key: string, v: Json, b: seq<(string, Json)>)
    requires key !in Keys(b)
    ensures Get(a + [(key, v)] + b, key) == Some(v)
  {
    var t := [(key, v)] + b;
    assert a + [(key, v)] + b == a + t;
    assert Keys(t)[0] == key && t[1..] == b;
    GetSuffix(a, t, key);
  }

  /** Pairs in front of a key's last occurrence do not change its value. */
  lemma {:induction false} GetSuffix(x: seq<(string, Json)>, t: seq<(string, Json)>, key: string)
    requires key in Keys(t)
    ensures Get(x + t, key) == Get(t, key)
    decreases |x|
  {
    if x == [] {
      assert x + t == t;
    } else {
      assert (x + t)[1..] == x[1..] + t;
      GetSuffix(x[1..], t, key);
    }
  }

  /** The `RuntimeError("Invalid level data: ...")` cases of `get_basic_level_data`, in the order they are checked. */
  datatype LevelDataError = WidthNotInt | HeightNotInt | BubblesNotDict | WidthNotPositive | HeightNotPositive

  /** What `get_basic_level_data` returns; `bubbles` holds the items of the bubble dict. */
  datatype LevelData = LevelData(width: int, height: int, bubbles: seq<(string, Json)>)

  /** The three fields with their defaults: width 15, height 20, no bubbles. */
  function WidthField(fields: seq<(string, Json)>): Json { Get(fields, "width").GetOr(JInt(DefaultLevelWidth)) }
  function HeightField(fields: seq<(string, Json)>): Json { Get(fields, "height").GetOr(JInt(DefaultLevelHeight)) }
  function BubblesField(fields: seq<(string, Json)>): Json { Get(fields, "bubbles").GetOr(JObject([])) }

  /**
   * `get_basic_level_data`: read width, height and bubbles, with defaults, and reject a
   * non-integer size, a non-dict bubble table or a non-positive size, in that order.
   */
  function BasicLevelData(fields: seq<(string, Json)>): (r: Result<LevelData, LevelDataError>)
    ensures r.Success? <==>
              && IntValue(WidthField(fields)).Some? && IntValue(HeightField(fields)).Some?
              && BubblesField(fields).JObject?
              && IntValue(WidthField(fields)).value > 0 && IntValue(HeightField(fields)).value > 0
    ensures r.Success? ==>
              && r.value.width == IntValue(WidthField(fields)).value
              && r.value.height == IntValue(HeightField(fields)).value
              && r.value.bubbles == Items(BubblesField(fields).fields)
              && r.value.width > 0 && r.value.height > 0
    ensures r == Failure(WidthNotInt) <==> IntValue(WidthField(fields)).None?
    ensures r == Failure(HeightNotInt) <==> IntValue(WidthField(fields)).Some? && IntValue(HeightField(fields)).None?
    ensures r == Failure(BubblesNotDict) <==>
              IntValue(WidthField(fields)).Some? && IntValue(HeightField(fields)).Some? && !BubblesField(fields).JObject?
    ensures r == Failure(WidthNotPositive) <==>
              && IntValue(WidthField(fields)).Some? && IntValue(HeightField(fields)).Some? && BubblesField(fields).JObject?
              && IntValue(WidthField(fields)).value <= 0
    ensures r == Failure(HeightNotPositive) <==>
              && IntValue(WidthField(fields)).Some? && IntValue(HeightField(fields)).Some? && BubblesField(fields).JObject?
              && IntValue(WidthField(fields)).value > 0 && IntValue(HeightField(fields)).value <= 0
  {
    var width, height, bubbles := WidthField(fields), HeightField(fields), BubblesField(fields);
    if IntValue(width).None? then Failure(WidthNotInt)
    else if IntValue(height).None? then Failure(HeightNotInt)
    else if !bubbles.JObject? then Failure(BubblesNotDict)
    else if IntValue(width).value <= 0 then Failure(WidthNotPositive)
    else if IntValue(height).value <= 0 then Failure(HeightNotPositive)
    else Success(LevelData(IntValue(width).value, IntValue(height).value, Items(bubbles.fields)))
  }

  /** A level file with none of the three fields gives the default 15 by 20 grid with no bubbles. */
  lemma DefaultsApply(fields: seq<(string, Json)>)
    requires "width" !in Keys(fields) && "height" !in Keys(fields) && "bubbles" !in Keys(fields)
    ensures BasicLevelData(fields) == Success(LevelData(15, 20, []))
  {
  }

  // ----- colour names -----

  /** `str.upper` on ASCII letters; every other character is left as it is. */
  function UpperAscii(s: string): (r: string)
    ensures |r| == |s|
    ensures forall i :: 0 <= i < |s| ==> r[i] == UpperChar(s[i])
  {
    seq(|s|, i requires 0 <= i < |s| => UpperChar(s[i]))
  }

  function UpperChar(ch: char): char {
    if 'a' <= ch <= 'z' then (ch as int - 'a' as int + 'A' as int) as char else ch
  }

  /** `str.lower` on ASCII letters. */
  function LowerAscii(s: string): (r: string)
    ensures |r| == |s|
    ensures forall i :: 0 <= i < |s| ==> r[i] == LowerChar(s[i])
  {
    seq(|s|, i requires 0 <= i < |s| => LowerChar(s[i]))
  }

  function LowerChar(ch: char): char {
    if 'A' <= ch <= 'Z' then (ch as int - 'A' as int + 'a' as int) as char else ch
  }

  /** The first colour of `cs` with the given name. */
  function FindColor(cs: seq<Color>, name: string): (r: Option<Color>)
    ensures r.Some? ==> r.value in cs && Name(r.value) == name
    ensures r.None? ==> forall c :: c in cs ==> Name(c) != name
  {
    if cs == [] then None
    else if Name(cs[0]) == name then Some(cs[0])
    else FindColor(cs[1..], name)
  }

  /** `get_bubbles_color`: `BubbleColor[name.upper()]`, or `None` for a name that is no colour. */
  function ColorByName(name: string): (r: Option<Color>)
    ensures forall c :: r == Some(c) <==> UpperAscii(name) == Name(c)
  {
    var r := FindColor(AllColors, UpperAscii(name));
    forall c ensures r == Some(c) <==> UpperAscii(name) == Name(c) {
      AllColorsEnumerates(c);
      if r.Some? {
        NameInjective(c, r.value);
      }
    }
    r
  }

  /** The lookup ignores case: every colour is found under its name in lower case as well as in upper case. */
  lemma ColorNamesCaseInsensitive(c: Color)
    ensures ColorByName(Name(c)) == Some(c)
    ensures ColorByName(LowerAscii(Name(c))) == Some(c)
  {
    assert UpperAscii(Name(c)) == Name(c);
    assert UpperAscii(LowerAscii(Name(c))) == Name(c);
  }

  // ----- coordinates -----

  /** `get_hex_coord`: a two-element list of integers with an even sum, as `HexCoord(x, y)`. */
  function HexCoordOf(j: Json): (r: Option<HexCoord>)
    ensures r.Some? <==>
              && j.JList? && |j.items| == 2
              && IntValue(j.items[0]).Some? && IntValue(j.items[1]).Some?
              && HexCoords.IsValid(IntValue(j.items[0]).value, IntValue(j.items[1]).value)
    ensures r.Some? ==> r.value.row == IntValue(j.items[0]).value && r.value.col == IntValue(j.items[1]).value
  {
    if !j.JList? || |j.items| != 2 then None
    else
      var x, y := IntValue(j.items[0]), IntValue(j.items[1]);
      if x.None? || y.None? then None
      else match NewHexCoord(x.value, y.value)
        case Success(c) => Some(c)
        case Failure(_) => None
  }

  /** The items of a list that are valid coordinates, converted, in their order. */
  function ValidCoords(items: seq<Json>): (r: seq<HexCoord>)
    ensures |r| <= |items|
    ensures forall c :: c in r <==> exists i :: 0 <= i < |items| && HexCoordOf(items[i]) == Some(c)
    decreases |items|
  {
    if items == [] then []
    else
      var rest := ValidCoords(items[1..]);
      assert forall i :: 0 <= i < |items[1..]| ==> items[1..][i] == items[i + 1];
      assert forall c :: (exists i :: 0 <= i < |items| && HexCoordOf(items[i]) == Some(c)) <==>
                           HexCoordOf(items[0]) == Some(c) ||
                           exists i :: 0 <= i < |items[1..]| && HexCoordOf(items[1..][i]) == Some(c) by {
        forall c | exists i :: 0 <= i < |items| && HexCoordOf(items[i]) == Some(c)
          ensures HexCoordOf(items[0]) == Some(c) ||
                  exists i :: 0 <= i < |items[1..]| && HexCoordOf(items[1..][i]) == Some(c)
        {
          var i :| 0 <= i < |items| && HexCoordOf(items[i]) == Some(c);
          if i > 0 {
            assert HexCoordOf(items[1..][i - 1]) == Some(c);
          }
        }
      }
      match HexCoordOf(items[0])
      case Some(c) => [c] + rest
      case None => rest
  }

  /** `get_bubbles_hex_coords`: the valid coordinates of a list, and none for anything else. */
  function HexCoordsOf(j: Json): (r: seq<HexCoord>)
    ensures !j.JList? ==> r == []
    ensures j.JList? ==> r == ValidCoords(j.items)
  {
    if j.JList? then ValidCoords(j.items) else []
  }

  /** Invalid entries are skipped without disturbing the order of the valid ones. */
  lemma {:induction false} ValidCoordsKeepsOrder(a: seq<Json>, b: seq<Json>)
    ensures ValidCoords(a + b) == ValidCoords(a) + ValidCoords(b)
    decreases |a|
  {
    if a == [] {
      assert a + b == b;
    } else {
      assert (a + b)[0] == a[0] && (a + b)[1..] == a[1..] + b;
      ValidCoordsKeepsOrder(a[1..], b);
    }
  }

  // ----- placing the bubbles -----

  /** A cell that placing a bubble built at `d`'s centre can end on: the snapped cell or one of its ranked neighbours. */
  predicate SnapsTo(snap: Snap, d: HexCoord, c: HexCoord) {
    c == snap.cell(d) || c in snap.ranked(d)
  }

  /**
   * The inner loop of `add_level_bubbles`: a coordinate that `is_valid_coord` accepts at the
   * time it is reached becomes a bubble of `color` at the cell's pixel centre, which
   * `add_bubble` snaps to a cell and adds if that cell is valid. The first such snap on a grid
   * of zero playable scale raises `ZeroDivisionError`.
   */
  function AddCoords(g: HexGrid, color: Color, coords: seq<HexCoord>, snap: Snap): (r: Result<HexGrid, LoadError>)
    ensures r.Failure? <==> ScaleIsZero(g) && exists d :: d in coords && IsValidCoord(g, d)
    ensures r.Failure? ==> r.error == ScaleZero
    ensures r.Success? ==> forall c :: c in g.cells ==> c in r.value.cells && r.value.cells[c] == g.cells[c]
    ensures r.Success? ==> forall c :: c in r.value.cells && c !in g.cells ==>
              && r.value.cells[c] == color && InRange(g, c)
              && exists d :: d in coords && SnapsTo(snap, d, c)
    ensures r.Success? && ScaleIsZero(g) ==> r.value == g
    ensures r.Success? ==> SameGeometry(r.value, g)
    ensures r.Success? && Wf(g) ==> Wf(r.value)
    decreases |coords|
  {
    if coords == [] then Success(g)
    else
      var d := coords[0];
      assert forall x :: x in coords <==> x == d || x in coords[1..];
      if !IsValidCoord(g, d) then AddCoords(g, color, coords[1..], snap)
      else if ScaleIsZero(g) then Failure(ScaleZero)
      else
        var g' := Place(g, color, d, snap);
        var r := AddCoords(g', color, coords[1..], snap);
        assert r.Success? ==> forall c :: c in r.value.cells && c !in g.cells ==>
                 exists d :: d in coords && SnapsTo(snap, d, c) by {
          if r.Success? {
            forall c | c in r.value.cells && c !in g.cells
              ensures exists d :: d in coords && SnapsTo(snap, d, c)
            {
              if c in g'.cells {
                assert SnapsTo(snap, d, c);
              }
            }
          }
        }
        r
  }

  /**
   * `add_bubble` for a bubble built at the pixel centre of `d`: the walk picks a cell, and
   * the bubble is added there if that cell is valid.
   */
  function Place(g: HexGrid, color: Color, d: HexCoord, snap: Snap): (r: HexGrid)
    ensures forall c :: c in g.cells ==> c in r.cells && r.cells[c] == g.cells[c]
    ensures forall c :: c in r.cells && c !in g.cells ==> r.cells[c] == color && InRange(g, c) && SnapsTo(snap, d, c)
    ensures forall x :: IsValidCoord(r, x) ==> IsValidCoord(g, x)
    ensures var p := PickFree(g, snap.cell(d), snap.ranked(d));
            forall c :: c in r.cells && c !in g.cells ==> c == p
    ensures var p := PickFree(g, snap.cell(d), snap.ranked(d));
            IsValidCoord(g, p) ==> r.cells == g.cells[p := color]
    ensures var p := PickFree(g, snap.cell(d), snap.ranked(d));
            !IsValidCoord(g, p) ==> r == g
    ensures SameGeometry(r, g) && ScaleIsZero(r) == ScaleIsZero(g)
    ensures Wf(g) ==> Wf(r)
  {
    var picked := PickFree(g, snap.cell(d), snap.ranked(d));
    var r := AddBubble(g, color, picked).0;
    assert PickFree(g, snap.cell(d), snap.ranked(d)) in [snap.cell(d)] + snap.ranked(d) by {
      PickFreeFromCandidates(g, snap.cell(d), snap.ranked(d));
    }
    r
  }

  /** Width, height, real size and anchor: what placing bubbles leaves alone. */
  predicate SameGeometry(a: HexGrid, b: HexGrid) {
    a.width == b.width && a.height == b.height && a.realWidth == b.realWidth &&
    a.realHeight == b.realHeight && a.topLeft == b.topLeft
  }

  /**
   * When every cell's centre snaps back to that cell, the loop adds exactly the listed cells
   * that are in range and free, in `color`.
   */
  lemma {:induction false} AddCoordsExactSnap(g: HexGrid, color: Color, coords: seq<HexCoord>, snap: Snap)
    requires !ScaleIsZero(g) && forall d :: snap.cell(d) == d
    ensures AddCoords(g, color, coords, snap).Success?
    ensures var r := AddCoords(g, color, coords, snap).value;
            && (forall c :: c in r.cells <==> c in g.cells || (c in coords && InRange(g, c)))
            && (forall c :: c in r.cells ==> r.cells[c] == if c in g.cells then g.cells[c] else color)
    decreases |coords|
  {
    if coords != [] {
      var d := coords[0];
      assert forall x :: x in coords <==> x == d || x in coords[1..];
      var g' := if IsValidCoord(g, d) then AddBubble(g, color, d).0 else g;
      if IsValidCoord(g, d) {
        assert snap.cell(d) == d;
        assert Place(g, color, d, snap) == g';
      }
      AddCoordsExactSnap(g', color, coords[1..], snap);
    }
  }

  /** The colour of the first entry, in dict order, that has a known colour name and lists `c`. */
  function FirstColor(bubbles: seq<(string, Json)>, c: HexCoord): (r: Option<Color>)
    ensures r.Some? <==> exists i :: 0 <= i < |bubbles| && ColorByName(bubbles[i].0).Some? && c in HexCoordsOf(bubbles[i].1)
    ensures r.Some? ==> exists i :: 0 <= i < |bubbles| && ColorByName(bubbles[i].0) == r && c in HexCoordsOf(bubbles[i].1)
    decreases |bubbles|
  {
    if bubbles == [] then None
    else
      assert forall i :: 0 <= i < |bubbles[1..]| ==> bubbles[1..][i] == bubbles[i + 1];
      if ColorByName(bubbles[0].0).Some? && c in HexCoordsOf(bubbles[0].1) then ColorByName(bubbles[0].0)
      else
        assert (exists i :: 0 <= i < |bubbles| && ColorByName(bubbles[i].0).Some? && c in HexCoordsOf(bubbles[i].1)) ==>
                 exists i :: 0 <= i < |bubbles[1..]| && ColorByName(bubbles[1..][i].0).Some? && c in HexCoordsOf(bubbles[1..][i].1) by {
          if exists i :: 0 <= i < |bubbles| && ColorByName(bubbles[i].0).Some? && c in HexCoordsOf(bubbles[i].1) {
            var i :| 0 <= i < |bubbles| && ColorByName(bubbles[i].0).Some? && c in HexCoordsOf(bubbles[i].1);
            assert i > 0 && bubbles[1..][i - 1] == bubbles[i];
          }
        }
        FirstColor(bubbles[1..], c)
  }

  /** A bubble on `c` of `color` comes from an entry named after `color` listing a cell that snaps to `c`. */
  predicate Supplies(bubbles: seq<(string, Json)>, snap: Snap, c: HexCoord, color: Color) {
    exists i :: 0 <= i < |bubbles| && ColorByName(bubbles[i].0) == Some(color) &&
      exists d :: d in HexCoordsOf(bubbles[i].1) && SnapsTo(snap, d, c)
  }

  /**
   * `add_level_bubbles`: for each colour entry with a known name, place its valid
   * coordinates. Bubbles already on the grid stay and every new bubble comes from an entry of
   * its colour; the loading fails only on a zero playable scale, and then exactly when some
   * known colour lists a valid cell.
   */
  function AddLevelBubbles(g: HexGrid, bubbles: seq<(string, Json)>, snap: Snap): (r: Result<HexGrid, LoadError>)
    ensures r.Failure? <==> ScaleIsZero(g) && ListsValid(g, bubbles)
    ensures r.Failure? ==> r.error == ScaleZero
    ensures r.Success? ==> forall c :: c in g.cells ==> c in r.value.cells && r.value.cells[c] == g.cells[c]
    ensures r.Success? ==> forall c :: c in r.value.cells && c !in g.cells ==>
              InRange(g, c) && Supplies(bubbles, snap, c, r.value.cells[c])
    ensures r.Success? && ScaleIsZero(g) ==> r.value == g
    ensures r.Success? ==> SameGeometry(r.value, g)
    ensures r.Success? && Wf(g) ==> Wf(r.value)
    decreases |bubbles|
  {
    if bubbles == [] then Success(g)
    else
      var color := ColorByName(bubbles[0].0);
      var tail := bubbles[1..];
      var coords := HexCoordsOf(bubbles[0].1);
      SuppliesFromTail(bubbles, snap);
      if color.None? then AddLevelBubbles(g, tail, snap)
      else
        match AddCoords(g, color.value, coords, snap)
        case Failure(e) =>
          ListsValidStep(g, bubbles);
          Failure(e)
        case Success(g1) =>
          SuppliesFromHead(bubbles, snap, color.value, g, g1);
          ListsValidStep(g, bubbles);
          SameGeometryScale(g1, g);
          var r := AddLevelBubbles(g1, tail, snap);
          assert r.Failure? <==> ScaleIsZero(g) && ListsValid(g, bubbles) by {
            if ScaleIsZero(g) {
              assert g1 == g;
              assert !exists d :: d in coords && IsValidCoord(g, d);
            }
          }
          if r.Failure? then r
          else
            SuppliesCompose(g, g1, r.value, bubbles, snap);
            r
  }

  /** Cells the first entry adds and cells the later entries add are all supplied by the list. */
  lemma SuppliesCompose(g: HexGrid, g1: HexGrid, h: HexGrid, bubbles: seq<(string, Json)>, snap: Snap)
    requires bubbles != [] && SameGeometry(g1, g)
    requires forall c :: c in g1.cells && c !in g.cells ==> InRange(g, c) && Supplies(bubbles, snap, c, g1.cells[c])
    requires forall c :: c in g1.cells ==> c in h.cells && h.cells[c] == g1.cells[c]
    requires forall c :: c in h.cells && c !in g1.cells ==> InRange(g1, c) && Supplies(bubbles[1..], snap, c, h.cells[c])
    ensures forall c :: c in h.cells && c !in g.cells ==> InRange(g, c) && Supplies(bubbles, snap, c, h.cells[c])
  {
    SuppliesFromTail(bubbles, snap);
  }

  /** Grids of the same geometry have the same playable scale. */
  lemma SameGeometryScale(a: HexGrid, b: HexGrid)
    requires SameGeometry(a, b)
    ensures ScaleIsZero(a) == ScaleIsZero(b)
  {
  }

  /** Some known colour lists a cell that is valid on `g`. */
  ghost predicate ListsValid(g: HexGrid, bubbles: seq<(string, Json)>) {
    exists c :: IsValidCoord(g, c) && FirstColor(bubbles, c).Some?
  }

  /** `ListsValid` entry by entry. */
  lemma ListsValidStep(g: HexGrid, bubbles: seq<(string, Json)>)
    requires bubbles != []
    ensures ListsValid(g, bubbles) <==>
              (ColorByName(bubbles[0].0).Some? && exists d :: d in HexCoordsOf(bubbles[0].1) && IsValidCoord(g, d))
              || ListsValid(g, bubbles[1..])
  {
    var head := ColorByName(bubbles[0].0).Some?;
    if ListsValid(g, bubbles) {
      var c :| IsValidCoord(g, c) && FirstColor(bubbles, c).Some?;
      if !(head && c in HexCoordsOf(bubbles[0].1)) {
        assert FirstColor(bubbles[1..], c).Some?;
      }
    }
    if head && exists d :: d in HexCoordsOf(bubbles[0].1) && IsValidCoord(g, d) {
      var d :| d in HexCoordsOf(bubbles[0].1) && IsValidCoord(g, d);
      assert FirstColor(bubbles, d).Some?;
    }
    if ListsValid(g, bubbles[1..]) {
      var c :| IsValidCoord(g, c) && FirstColor(bubbles[1..], c).Some?;
      assert FirstColor(bubbles, c).Some?;
    }
  }

  /** An entry further on supplies what it supplies to the whole table. */
  lemma SuppliesFromTail(bubbles: seq<(string, Json)>, snap: Snap)
    requires bubbles != []
    ensures forall c, color :: Supplies(bubbles[1..], snap, c, color) ==> Supplies(bubbles, snap, c, color)
  {
    forall c, color | Supplies(bubbles[1..], snap, c, color)
      ensures Supplies(bubbles, snap, c, color)
    {
      var i :| 0 <= i < |bubbles[1..]| && ColorByName(bubbles[1..][i].0) == Some(color) &&
               exists d :: d in HexCoordsOf(bubbles[1..][i].1) && SnapsTo(snap, d, c);
      assert bubbles[i + 1] == bubbles[1..][i];
    }
  }

  /** The bubbles the first entry places are supplied by it. */
  lemma SuppliesFromHead(bubbles: seq<(string, Json)>, snap: Snap, color: Color, g: HexGrid, g1: HexGrid)
    requires bubbles != [] && ColorByName(bubbles[0].0) == Some(color)
    requires AddCoords(g, color, HexCoordsOf(bubbles[0].1), snap) == Success(g1)
    ensures forall c :: c in g1.cells && c !in g.cells ==> Supplies(bubbles, snap, c, g1.cells[c])
  {
    forall c | c in g1.cells && c !in g.cells
      ensures Supplies(bubbles, snap, c, g1.cells[c])
    {
      assert g1.cells[c] == color;
      assert exists d :: d in HexCoordsOf(bubbles[0].1) && SnapsTo(snap, d, c);
    }
  }

  /**
   * When every cell's centre snaps back to that cell and the scale is not zero, a free
   * in-range cell ends up with the colour of the first known colour listing it, and a cell no
   * known colour lists stays free.
   */
  lemma {:induction false} AddLevelBubblesExactSnap(g: HexGrid, bubbles: seq<(string, Json)>, snap: Snap)
    requires !ScaleIsZero(g) && forall d :: snap.cell(d) == d
    ensures AddLevelBubbles(g, bubbles, snap).Success?
    ensures var r := AddLevelBubbles(g, bubbles, snap).value;
            && (forall c :: c !in g.cells ==> (c in r.cells <==> InRange(g, c) && FirstColor(bubbles, c).Some?))
            && (forall c :: c in r.cells && c !in g.cells ==> r.cells[c] == FirstColor(bubbles, c).value)
    decreases |bubbles|
  {
    if bubbles != [] {
      var color := ColorByName(bubbles[0].0);
      var tail := bubbles[1..];
      if color.None? {
        AddLevelBubblesExactSnap(g, tail, snap);
      } else {
        var coords := HexCoordsOf(bubbles[0].1);
        AddCoordsExactSnap(g, color.value, coords, snap);
        var g1 := AddCoords(g, color.value, coords, snap).value;
        SameGeometryScale(g1, g);
        AddLevelBubblesExactSnap(g1, tail, snap);
        var r := AddLevelBubbles(g, bubbles, snap).value;
        assert r == AddLevelBubbles(g1, tail, snap).value;
        forall c | c !in g.cells
          ensures c in r.cells <==> InRange(g, c) && FirstColor(bubbles, c).Some?
          ensures c in r.cells ==> r.cells[c] == FirstColor(bubbles, c).value
        {
          if c in g1.cells {
            assert c in coords && FirstColor(bubbles, c) == color;
          } else if !InRange(g, c) {
            assert c !in r.cells;
          } else {
            assert c !in coords;
            assert FirstColor(bubbles, c) == FirstColor(tail, c);
          }
        }
      }
    }
  }

  // ----- loading a level -----

  /**
   * Why a level did not load. `load_level` catches the `RuntimeError`s (an unreadable file,
   * invalid level data) and returns `None`; a level file that is not a JSON object, a grid
   * the constructor rejects and a division by a zero playable scale raise out of it.
   */
  datatype LoadError =
    | IndexOutOfRange
    | FileUnreadable
    | InvalidLevelData(dataError: LevelDataError)
    | NotAnObject
    | GridRejected(gridError: GridError)
    | ScaleZero

  /** The errors `load_current_level` turns into a `None` result. */
  predicate ReturnsNone(e: LoadError) {
    e.IndexOutOfRange? || e.FileUnreadable? || e.InvalidLevelData?
  }

  /** The grid properties the loader passes on: real size (or `None`) and top-left corner. */
  datatype GridProperties = GridProperties(realWidth: Option<real>, realHeight: Option<real>, topLeft: Point)

  /** A real size is given and is not positive, which the grid's constructor refuses. */
  predicate RealSizeRejected(props: GridProperties) {
    (props.realWidth.Some? && props.realWidth.value <= 0.0) ||
    (props.realHeight.Some? && props.realHeight.value <= 0.0)
  }

  /** `load_level` on a decoded file: validate, build the grid, place the bubbles. */
  function LoadLevel(level: Json, props: GridProperties, snap: Snap): (r: Result<HexGrid, LoadError>)
    ensures r.Success? ==> level.JObject? && BasicLevelData(level.fields).Success?
    ensures r.Success? ==>
              var data := BasicLevelData(level.fields).value;
              && Wf(r.value)
              && r.value.width == data.width && r.value.height == data.height
              && r.value.topLeft == props.topLeft
              && (forall c :: c in r.value.cells ==> Supplies(data.bubbles, snap, c, r.value.cells[c]))
    ensures !level.JObject? ==> r == Failure(NotAnObject)
    ensures level.JObject? && BasicLevelData(level.fields).Failure? ==>
              r == Failure(InvalidLevelData(BasicLevelData(level.fields).error))
    ensures r.Failure? && r.error.GridRejected? ==> r.error.gridError == RealSizeNotPositive
    ensures level.JObject? && BasicLevelData(level.fields).Success? ==>
              r == BuildLevel(BasicLevelData(level.fields).value, props, snap)
    ensures r == Failure(ScaleZero) ==>
              var data := BasicLevelData(level.fields).value;
              exists c: HexCoord :: 0 <= c.row < data.height && 0 <= c.col < data.width && FirstColor(data.bubbles, c).Some?
  {
    if !level.JObject? then Failure(NotAnObject)
    else match BasicLevelData(level.fields)
      case Failure(e) => Failure(InvalidLevelData(e))
      case Success(data) => BuildLevel(data, props, snap)
  }

  /** The part of `load_level` after validation: build the grid, place the bubbles. */
  function BuildLevel(data: LevelData, props: GridProperties, snap: Snap): (r: Result<HexGrid, LoadError>)
    ensures r.Failure? ==> r.error.GridRejected? || r.error == ScaleZero
    ensures r.Failure? && r.error.GridRejected? <==>
              data.width < 1 || data.height < 1 || RealSizeRejected(props)
    ensures r.Failure? && r.error.GridRejected? ==>
              r.error.gridError == (if data.width < 1 || data.height < 1 then SizeBelowOne else RealSizeNotPositive)
    ensures r.Success? <==>
              && data.width >= 1 && data.height >= 1 && !RealSizeRejected(props)
              && var grid := NewHexGrid(data.width, data.height, props.realWidth, props.realHeight, props.topLeft);
                 !(ScaleIsZero(grid.value) && ListsValid(grid.value, data.bubbles))
    ensures r.Success? ==>
              && Wf(r.value)
              && r.value.width == data.width && r.value.height == data.height
              && r.value.topLeft == props.topLeft
              && (forall c :: c in r.value.cells ==> Supplies(data.bubbles, snap, c, r.value.cells[c]))
    ensures r == Failure(ScaleZero) ==>
              exists c: HexCoord :: 0 <= c.row < data.height && 0 <= c.col < data.width && FirstColor(data.bubbles, c).Some?
  {
    match NewHexGrid(data.width, data.height, props.realWidth, props.realHeight, props.topLeft)
    case Failure(e) => Failure(GridRejected(e))
    case Success(grid) => AddLevelBubbles(grid, data.bubbles, snap)
  }

  /**
   * A level loads exactly when it is a valid object, no given real size is non-positive,
   * and it does not ask to place a valid cell on a grid of zero playable scale; a valid
   * object is rejected by the grid exactly for a non-positive real size.
   */
  lemma LoadLevelSucceeds(level: Json, props: GridProperties, snap: Snap)
    ensures var r := LoadLevel(level, props, snap);
            level.JObject? && BasicLevelData(level.fields).Success? ==>
              (r.Failure? && r.error.GridRejected? <==> RealSizeRejected(props))
    ensures var r := LoadLevel(level, props, snap);
            r.Success? <==>
              && level.JObject? && BasicLevelData(level.fields).Success? && !RealSizeRejected(props)
              && var data := BasicLevelData(level.fields).value;
                 var grid := NewHexGrid(data.width, data.height, props.realWidth, props.realHeight, props.topLeft);
                 !(ScaleIsZero(grid.value) && ListsValid(grid.value, data.bubbles))
  {
    if level.JObject? && BasicLevelData(level.fields).Success? {
      var data := BasicLevelData(level.fields).value;
      assert data.width >= 1 && data.height >= 1;
      assert LoadLevel(level, props, snap) == BuildLevel(data, props, snap);
    }
  }

  /**
   * When every cell's centre snaps back to that cell, a loaded level holds exactly the
   * in-range cells some known colour lists, each in the first such colour.
   */
  lemma LoadLevelExactSnap(level: Json, props: GridProperties, snap: Snap)
    requires forall d :: snap.cell(d) == d
    ensures var r := LoadLevel(level, props, snap);
            r.Success? ==>
              var data := BasicLevelData(level.fields).value;
              && (forall c :: c in r.value.cells <==> InRange(r.value, c) && FirstColor(data.bubbles, c).Some?)
              && (forall c :: c in r.value.cells ==> r.value.cells[c] == FirstColor(data.bubbles, c).value)
  {
    var r := LoadLevel(level, props, snap);
    if r.Success? {
      var data := BasicLevelData(level.fields).value;
      var grid := NewHexGrid(data.width, data.height, props.realWidth, props.realHeight, props.topLeft).value;
      assert r == AddLevelBubbles(grid, data.bubbles, snap);
      if ScaleIsZero(grid) {
        assert r.value == grid && grid.cells == map[];
        forall c | InRange(grid, c)
          ensures FirstColor(data.bubbles, c).None?
        {
          assert IsValidCoord(grid, c);
          assert !ListsValid(grid, data.bubbles);
        }
      } else {
        AddLevelBubblesExactSnap(grid, data.bubbles, snap);
      }
    }
  }

  // ----- the level index -----

  /** The level file names, in play order, and `current_level_index`. */
  datatype LevelLoader = LevelLoader(levels: seq<string>, index: int, props: GridProperties)

  /** The `RuntimeError` raised when there is no level file. */
  datatype LoaderError = NoLevels

  /** The constructor: the initial index is clamped into the list. */
  function NewLevelLoader(levels: seq<string>, props: GridProperties, initialIndex: int): (r: Result<LevelLoader, LoaderError>)
    ensures r.Failure? <==> levels == []
    ensures r.Success? ==> r.value.levels == levels && r.value.props == props && IsValid(r.value)
    ensures r.Success? && 0 <= initialIndex < |levels| ==> r.value.index == initialIndex
    ensures r.Success? && initialIndex < 0 ==> r.value.index == 0
    ensures r.Success? && initialIndex >= |levels| ==> r.value.index == |levels| - 1
  {
    if levels == [] then Failure(NoLevels)
    else
      var minIndex, maxIndex := 0, |levels| - 1;
      var upper := if initialIndex < maxIndex then initialIndex else maxIndex;
      Success(LevelLoader(levels, if minIndex > upper then minIndex else upper, props))
  }

  /** `is_valid`: the index names a level. */
  predicate IsValid(l: LevelLoader) {
    0 <= l.index < |l.levels|
  }

  /** `next_level`: one on, without any bound check. */
  function NextLevel(l: LevelLoader): (r: LevelLoader)
    ensures r.levels == l.levels && r.index == l.index + 1
  {
    l.(index := l.index + 1)
  }

  /** `previous_level`: one back, without any bound check. */
  function PreviousLevel(l: LevelLoader): (r: LevelLoader)
    ensures r.levels == l.levels && r.index == l.index - 1
  {
    l.(index := l.index - 1)
  }

  /** Stepping on and back, or back and on, returns to the same level. */
  lemma NextPreviousInverse(l: LevelLoader)
    ensures PreviousLevel(NextLevel(l)) == l
    ensures NextLevel(PreviousLevel(l)) == l
  {
  }

  /**
   * `load_current_level`: `None` for an index that names no level, otherwise the level file
   * loaded. `files` stands for the level directory: a name it lacks is a file that could not
   * be read or decoded.
   */
  function LoadCurrentLevel(l: LevelLoader, files: map<string, Json>, snap: Snap): (r: Result<HexGrid, LoadError>)
    ensures !IsValid(l) ==> r == Failure(IndexOutOfRange)
    ensures IsValid(l) && l.levels[l.index] !in files ==> r == Failure(FileUnreadable)
    ensures IsValid(l) && l.levels[l.index] in files ==> r == LoadLevel(files[l.levels[l.index]], l.props, snap)
  {
    if !IsValid(l) then Failure(IndexOutOfRange)
    else
      var name := l.levels[l.index];
      if name !in files then Failure(FileUnreadable) else LoadLevel(files[name], l.props, snap)
  }

  /** Moving on from the last level leaves no level to load: the loader then returns `None`. */
  lemma PastLastLevel(l: LevelLoader, files: map<string, Json>, snap: Snap)
    requires IsValid(l) && l.index == |l.levels| - 1
    ensures !IsValid(NextLevel(l))
    ensures LoadCurrentLevel(NextLevel(l), files, snap) == Failure(IndexOutOfRange)
    ensures ReturnsNone(LoadCurrentLevel(NextLevel(l), files, snap).error)
  {
  }
}

=== FILE: menus.dfy ===
/**
 * `MenuState`: a list of named options with one of them selected. The selection moves up
 * and down with wrap-around and the selected option's action runs on select. The options'
 * actions are not modelled; selecting reports which option's action runs.
 */
module Menus {
  import opened Wrappers
  import opened Arith

  /** `options` are the keys of the option dictionary, in its order; `selected` is `_selected_option`. */
  datatype Menu = Menu(options: seq<string>, selected: int)

  /** The selection is an option's index, or 0 when there is no option. */
  predicate Inv(m: Menu) {
    if |m.options| == 0 then m.selected == 0 else 0 <= m.selected < |m.options|
  }

  /** The constructor: the first option is selected. */
  function NewMenu(options: seq<string>): (m: Menu)
    ensures m.options == options && m.selected == 0
    ensures Inv(m)
  {
    Menu(options, 0)
  }

  /** `next_state()`: the menu itself, or `None` when it has no option. */
  predicate HasNextState(m: Menu) {
    |m.options| != 0
  }

  /**
   * `_next_state` is fixed by the constructor and never reassigned: a new menu has a next
   * state exactly when it has options, and moving the selection does not change that.
   */
  lemma NextStateFixed(options: seq<string>, m: Menu)
    ensures HasNextState(NewMenu(options)) <==> options != []
    ensures HasNextState(Next(m)) == HasNextState(m)
    ensures HasNextState(Previous(m)) == HasNextState(m)
  {
  }

  /** `next_option`: one down, wrapping from the last option to the first; nothing without options. */
  function Next(m: Menu): (r: Menu)
    ensures r.options == m.options
    ensures |m.options| == 0 ==> r == m
    ensures Inv(m) ==> Inv(r)
  {
    if |m.options| != 0 then m.(selected := (m.selected + 1) % |m.options|) else m
  }

  /**
   * `previous_option`: one up, wrapping from the first option to the last. Python's `%` is
   * non-negative for a positive divisor, as Dafny's is, so `(0 - 1) % n` is `n - 1`.
   */
  function Previous(m: Menu): (r: Menu)
    ensures r.options == m.options
    ensures |m.options| == 0 ==> r == m
    ensures Inv(m) ==> Inv(r)
    ensures |m.options| != 0 && m.selected == 0 ==> r.selected == |m.options| - 1
  {
    if |m.options| != 0 then m.(selected := (m.selected - 1) % |m.options|) else m
  }

  /** `select_option`: the index of the option whose action runs, if there is an option. */
  function Select(m: Menu): (r: Option<int>)
    ensures r.None? <==> |m.options| == 0
    ensures r.Some? ==> r.value == m.selected
    ensures r.Some? && Inv(m) ==> 0 <= r.value < |m.options|
  {
    if |m.options| != 0 then Some(m.selected) else None
  }

  /** Down from an option: the next one, or the first after the last. */
  lemma NextStep(m: Menu)
    requires Inv(m) && |m.options| != 0
    ensures Next(m).selected == if m.selected + 1 < |m.options| then m.selected + 1 else 0
  {
    if m.selected + 1 < |m.options| {
      ModBelow(m.selected + 1, |m.options|);
    } else {
      ModSelf(|m.options|);
    }
  }

  /** Up from an option: the previous one, or the last from the first. */
  lemma PreviousStep(m: Menu)
    requires Inv(m) && |m.options| != 0
    ensures Previous(m).selected == if m.selected > 0 then m.selected - 1 else |m.options| - 1
  {
    if m.selected > 0 {
      ModBelow(m.selected - 1, |m.options|);
    } else {
      ModMinusOne(|m.options|);
    }
  }

  /** Up after down, and down after up, restore the selection. */
  lemma NextPreviousInverse(m: Menu)
    requires Inv(m)
    ensures Previous(Next(m)) == m
    ensures Next(Previous(m)) == m
  {
    if |m.options| != 0 {
      NextStep(m);
      PreviousStep(Next(m));
      PreviousStep(m);
      NextStep(Previous(m));
    }
  }

  /** `k` presses of down. */
  function NextTimes(m: Menu, k: nat): Menu
    decreases k
  {
    if k == 0 then m else Next(NextTimes(m, k - 1))
  }

  /** Up to a full round, `k` presses of down move the selection `k` places, wrapping past the last option once. */
  lemma {:induction false} NextTimesMoves(m: Menu, k: nat)
    requires Inv(m) && |m.options| != 0 && k <= |m.options|
    ensures Inv(NextTimes(m, k)) && NextTimes(m, k).options == m.options
    ensures NextTimes(m, k).selected ==
              if m.selected + k < |m.options| then m.selected + k else m.selected + k - |m.options|
    decreases k
  {
    if k > 0 {
      NextTimesMoves(m, k - 1);
      NextStep(NextTimes(m, k - 1));
    }
  }

  /** As many presses of down as there are options bring the selection back where it was. */
  lemma FullCycle(m: Menu)
    requires Inv(m)
    ensures NextTimes(m, |m.options|) == m
  {
    if |m.options| != 0 {
      NextTimesMoves(m, |m.options|);
    }
  }

  /** Presses of down compose. */
  lemma {:induction false} NextTimesAdd(m: Menu, a: nat, b: nat)
    ensures NextTimes(m, a + b) == NextTimes(NextTimes(m, a), b)
    decreases b
  {
    if b > 0 {
      NextTimesAdd(m, a, b - 1);
      assert NextTimes(m, a + b) == Next(NextTimes(m, a + b - 1));
    }
  }

  /** The selection after `k` presses of down depends on `k` only modulo the number of options. */
  lemma NextTimesPeriodic(m: Menu, k: nat)
    requires Inv(m)
    ensures NextTimes(m, k + |m.options|) == NextTimes(m, k)
  {
    NextTimesAdd(m, k, |m.options|);
    NextTimesInv(m, k);
    FullCycle(NextTimes(m, k));
  }

  /** Presses of down keep the invariant and the options. */
  lemma {:induction false} NextTimesInv(m: Menu, k: nat)
    requires Inv(m)
    ensures Inv(NextTimes(m, k)) && NextTimes(m, k).options == m.options
    decreases k
  {
    if k > 0 {
      NextTimesInv(m, k - 1);
    }
  }
}

=== FILE: scores.dfy ===
/**
 * `Score`: a running total that grows by a fixed number of points for each bubble whose pop
 * animation finishes, the number depending only on the bubble's colour.
 */
module Scores {
  import opened Colors

  datatype Score = Score(points: int)

  /** `Score()`: nothing scored yet. */
  function NewScore(): (s: Score)
    ensures s.points == 0
  {
    Score(0)
  }

  /** `_color_to_points`, as written: one entry per colour, from 1 for red to 8 for orange. */
  const ColorToPoints: map<Color, int> :=
    map[Red := 1, Green := 2, Blue := 3, Yellow := 4, Black := 5, Gray := 6, Purple := 7, Orange := 8]

  /** `handle_bubble_pop`: add the colour's points; a colour missing from the table adds nothing. */
  function HandleBubblePop(s: Score, color: Color): (r: Score)
    ensures color in ColorToPoints ==> r.points == s.points + ColorToPoints[color]
    ensures color !in ColorToPoints ==> r == s
  {
    if color in ColorToPoints then Score(s.points + ColorToPoints[color]) else s
  }

  /**
   * The table covers every colour, with a different value in 1..8 for each, so the
   * unknown-colour branch never runs and every pop strictly raises the score.
   */
  lemma TableTotalAndInjective(c: Color, d: Color)
    ensures c in ColorToPoints && 1 <= ColorToPoints[c] <= 8
    ensures d in ColorToPoints && (ColorToPoints[c] == ColorToPoints[d] <==> c == d)
    ensures HandleBubblePop(Score(0), c).points == ColorToPoints[c]
  {
  }

  /** The score after each bubble of a run of finished pops, in order. */
  function HandlePops(s: Score, colors: seq<Color>): (r: Score)
    decreases |colors|
  {
    if colors == [] then s else HandlePops(HandleBubblePop(s, colors[0]), colors[1..])
  }

  /** The points of a run of colours, added up. */
  function PointsOf(colors: seq<Color>): int {
    if colors == [] then 0
    else (if colors[0] in ColorToPoints then ColorToPoints[colors[0]] else 0) + PointsOf(colors[1..])
  }

  /**
   * The score after a run of pops is the starting score plus the points of each colour, at
   * least one per pop, so the score never decreases and strictly increases with every pop.
   */
  lemma {:induction false} HandlePopsAddsPoints(s: Score, colors: seq<Color>)
    ensures HandlePops(s, colors).points == s.points + PointsOf(colors)
    ensures |colors| <= PointsOf(colors) <= 8 * |colors|
    decreases |colors|
  {
    if colors != [] {
      TableTotalAndInjective(colors[0], colors[0]);
      HandlePopsAddsPoints(HandleBubblePop(s, colors[0]), colors[1..]);
    }
  }

  /** The points of two consecutive runs of pops add up. */
  lemma {:induction false} PointsOfConcat(a: seq<Color>, b: seq<Color>)
    ensures PointsOf(a + b) == PointsOf(a) + PointsOf(b)
    decreases |a|
  {
    if a == [] {
      assert a + b == b;
    } else {
      assert (a + b)[0] == a[0] && (a + b)[1..] == a[1..] + b;
      PointsOfConcat(a[1..], b);
    }
  }

  /** Exchanging two consecutive blocks of pops, `a + b` for `b + a`, leaves the final score unchanged. */
  lemma PopOrderIrrelevant(s: Score, a: seq<Color>, b: seq<Color>)
    ensures HandlePops(s, a + b).points == HandlePops(s, b + a).points
  {
    HandlePopsAddsPoints(s, a + b);
    HandlePopsAddsPoints(s, b + a);
    PointsOfConcat(a, b);
    PointsOfConcat(b, a);
  }
}

=== FILE: seqs.dfy ===
/** Small facts about sequences used as ordered lists without repetition. */
module Seqs {

  /** No element occurs twice. */
  ghost predicate NoDup<T>(s: seq<T>) {
    forall i, j :: 0 <= i < j < |s| ==> s[i] != s[j]
  }

  /** The elements of `s` that are not in `gone`, in their original order (a list comprehension with `not in`). */
  function Drop<T(==,!new)>(s: seq<T>, gone: set<T>): (r: seq<T>)
    ensures forall x :: x in r <==> x in s && x !in gone
    ensures |r| <= |s|
    ensures NoDup(s) ==> NoDup(r)
  {
    if s == [] then []
    else if s[0] in gone then Drop(s[1..], gone)
    else [s[0]] + Drop(s[1..], gone)
  }

  /** The set of elements of a sequence. */
  function Elements<T(!new)>(s: seq<T>): (r: set<T>)
    ensures forall x :: x in r <==> x in s
  {
    set x | x in s
  }

  /** A sequence without repetition has as many elements as its set. */
  lemma {:induction false} NoDupCardinality<T(!new)>(s: seq<T>)
    requires NoDup(s)
    ensures |Elements(s)| == |s|
  {
    if s != [] {
      NoDupCardinality(s[1..]);
      assert Elements(s) == Elements(s[1..]) + {s[0]};
      assert s[0] !in Elements(s[1..]);
    }
  }

  /** Concatenating two sequences without repetition and without common elements keeps them apart. */
  lemma NoDupConcat<T>(a: seq<T>, b: seq<T>)
    requires NoDup(a) && NoDup(b)
    requires forall x :: x in a ==> x !in b
    ensures NoDup(a + b)
  {
    var ab := a + b;
    forall i, j | 0 <= i < j < |ab|
      ensures ab[i] != ab[j]
    {
      if j < |a| {
        assert ab[i] == a[i] && ab[j] == a[j];
      } else if i >= |a| {
        assert ab[i] == b[i - |a|] && ab[j] == b[j - |a|];
      } else {
        assert ab[i] == a[i] && ab[j] == b[j - |a|];
        assert a[i] in a && b[j - |a|] in b;
      }
    }
  }

  /** Putting a new element in front keeps a sequence free of repetition. */
  lemma NoDupCons<T>(x: T, s: seq<T>)
    requires NoDup(s) && x !in s
    ensures NoDup([x] + s)
  {
    var xs := [x] + s;
    forall i, j | 0 <= i < j < |xs|
      ensures xs[i] != xs[j]
    {
      assert xs[j] == s[j - 1];
      if i > 0 {
        assert xs[i] == s[i - 1];
      }
    }
  }
}

=== FILE: settings.dfy ===
/** The numeric constants of the game, as the settings and map files fix them. */
module Settings {

  /** Pixel scale factor applied to every sprite. */
  const GameScale: int := 2

  /** Range `[min, max)` of the random floating duration, in seconds. */
  const FloatingDurationMin: int := 2
  const FloatingDurationMax: int := 4

  /** Length of the pop animation, in update ticks. */
  const TotalPopAnimationFrames: nat := 30

  /** Sprites per bubble colour: the bubble itself followed by the pop animation images. */
  const SpritesPerColor: nat := 7

  /** Shooter rotation step and the bounds of its angle, in degrees. */
  const ShooterRotationDegrees: int := 1
  const ShooterMinimumRotation: int := 15
  const ShooterMaximumRotation: int := 180 - ShooterMinimumRotation

  /** Initial angle of the shooter, in degrees (straight up). */
  const ShooterInitialAngle: int := 90

  /** Ceiling descent of the metal map: countdown between descents, and the descent itself. */
  const ArenaDownCooldown: real := 30.0
  const ArenaDownTransitionDuration: real := 3.0
  const ArenaDownMoveAmount: int := 20 * GameScale

  /** Grid size used when a level file does not give one. */
  const DefaultLevelWidth: int := 15
  const DefaultLevelHeight: int := 20

  /** Inset of the playable area inside the grid's real size, in pixels. */
  const PlayableWidthMargin: real := 20.0
  const PlayableHeightMargin: real := 10.0
}

=== FILE: shooters.dfy ===
/**
 * `BubbleShooter`: the launcher. It turns one degree at a time within fixed bounds and, when
 * fired, calls its shoot callbacks in registration order. The shoot direction vector and the
 * arrow sprite turn with the angle; both are floating-point and not modelled.
 */
module Shooters {
  import opened Settings
  import opened Handlers

  /** A shoot callback: the arena's handler, or any other subscriber, compared by identity. */
  datatype ShootCallback = ArenaShootHandler | Subscriber(id: nat)

  /** `_angle` in degrees (90 points straight up) and `_on_shoot_callbacks`. */
  datatype Shooter = Shooter(angle: int, callbacks: seq<ShootCallback>)

  /** The two rotate commands. */
  datatype Direction = Left | Right

  /** The angle stays within the rotation bounds. */
  predicate Inv(s: Shooter) {
    ShooterMinimumRotation <= s.angle <= ShooterMaximumRotation
  }

  /** The constructor: pointing straight up, with no callbacks. */
  function NewShooter(): (s: Shooter)
    ensures s.angle == 90 && s.callbacks == []
    ensures Inv(s)
  {
    Shooter(ShooterInitialAngle, [])
  }

  /** The signed step of a rotate command: left turns by minus one degree, right by plus one. */
  function Delta(d: Direction): int {
    if d == Left then -ShooterRotationDegrees else ShooterRotationDegrees
  }

  /**
   * `rotate(direction)`: turn one degree unless that would leave `[15, 165]`, in which case
   * nothing changes.
   */
  function Rotate(s: Shooter, d: Direction): (r: Shooter)
    ensures r.callbacks == s.callbacks
    ensures r.angle == s.angle || r.angle == s.angle + Delta(d)
    ensures r.angle == s.angle <==> s.angle + Delta(d) < 15 || s.angle + Delta(d) > 165
    ensures Inv(s) ==> Inv(r)
  {
    var angle := Delta(d);
    if s.angle + angle < ShooterMinimumRotation || s.angle + angle > ShooterMaximumRotation then s
    else s.(angle := s.angle + angle)
  }

  /** A turn the other way undoes a turn that was not refused. */
  lemma RotateUndo(s: Shooter, d: Direction)
    requires Inv(s)
    requires Rotate(s, d) != s
    ensures Rotate(Rotate(s, d), if d == Left then Right else Left) == s
  {
  }

  /** `k` right turns. */
  function RotateTimes(s: Shooter, d: Direction, k: nat): Shooter
    decreases k
  {
    if k == 0 then s else Rotate(RotateTimes(s, d, k - 1), d)
  }

  /** Holding a rotate key turns the shooter up to the bound and then leaves it there. */
  lemma {:induction false} RotateTimesClamps(s: Shooter, d: Direction, k: nat)
    requires Inv(s)
    ensures d == Right ==> RotateTimes(s, d, k).angle == if s.angle + k <= 165 then s.angle + k else 165
    ensures d == Left ==> RotateTimes(s, d, k).angle == if s.angle - k >= 15 then s.angle - k else 15
    ensures RotateTimes(s, d, k).callbacks == s.callbacks
    decreases k
  {
    if k > 0 {
      RotateTimesClamps(s, d, k - 1);
    }
  }

  /** `shoot()`: every callback is called once, in registration order; the calls made are returned. */
  function Shoot(s: Shooter): (calls: seq<ShootCallback>)
    ensures |calls| == |s.callbacks|
    ensures forall i :: 0 <= i < |calls| ==> calls[i] == s.callbacks[i]
  {
    s.callbacks
  }

  /** `register_on_shoot_event`. */
  function RegisterOnShoot(s: Shooter, c: ShootCallback): (r: Shooter)
    ensures r.angle == s.angle
    ensures r.callbacks == Register(s.callbacks, c)
  {
    s.(callbacks := Register(s.callbacks, c))
  }

  /** `unregister_on_shoot_event`: every equal callback goes; the rest keep their order. */
  function UnregisterOnShoot(s: Shooter, c: ShootCallback): (r: Shooter)
    ensures r.angle == s.angle
    ensures c !in Shoot(r)
    ensures forall x :: x in Shoot(r) <==> x in Shoot(s) && x != c
    ensures r.callbacks == Unregister(s.callbacks, c)
  {
    s.(callbacks := Unregister(s.callbacks, c))
  }

  /** Registering a callback once and unregistering it leaves the shoot calls as before, when it was not registered already. */
  lemma RegisterThenUnregister(s: Shooter, c: ShootCallback)
    requires c !in s.callbacks
    ensures Shoot(UnregisterOnShoot(RegisterOnShoot(s, c), c)) == Shoot(s)
  {
    UnregisterAfterRegister(s.callbacks, c);
    UnregisterAbsent(s.callbacks, c);
  }
}

=== FILE: wrappers.dfy ===
/** Option and Result values used in place of Python's `None` returns and raised exceptions. */
module Wrappers {

  /** `None` plays the role of Python's `None` return value. */
  datatype Option<+T> = None | Some(value: T) {

    /** The wrapped value, or `default` when there is none. */
    function GetOr(default: T): T {
      match this
      case Some(v) => v
      case None => default
    }
  }

  /** `Failure` plays the role of an exception the source raises. */
  datatype Result<+R, +E> = Success(value: R) | Failure(error: E)
}
